=== FILE: README.md ===
# Java snippet to DOT graph converter — a Dafny model of its string and tree core

The system turns Java code snippets from a labelled code-smell dataset into
compilable Java files, then parses them and draws their parse trees as
Graphviz DOT graphs. This project models the deterministic core of that
pipeline. It leaves out the file system, the JSON reader and the ANTLR
parser.

- **Fragment preparation** (`JsonDotGenerator`):
  - string literals are masked behind `__STR<i>__` placeholders and unmasked again;
  - the regex-based spacing normaliser runs in its minimal and aggressive modes;
  - leading comments are stripped;
  - the three "looks like" classifiers, the member and statement wrappers and the indentation helper;
  - the priority choice of a wrap candidate, and the header comment written above the generated source;
  - the naming helpers: the safe token, file name, smell vector, base name, `_NNN` suffix and escaped header.
- **Parse-tree dump** (`ASTGenerator`):
  - the pre-order walk that records (depth, rule name, text) rows, eliding rule nodes that only wrap one rule node;
  - the label escaping and node lines;
  - the edge reconstruction through `getPos`.
- **Directory converter** (`JavaDirDotGenerator`):
  - reading the header comment back from a generated file's first line;
  - the `.java` to `.dot` output name.

Each module follows the program's structure:

- `Text`: Java `String` operations on `seq<char>` (`indexOf`, `trim`, `replace`, decimal rendering).
- `Escape`: per-character escaping and its inverse.
- `Masking`: the literal scanner and the placeholder round trip.
- `Rewrite`: a single-character rewrite with look-behind and look-ahead, the shape of every normaliser regex.
- `Normalize`: the pass list of `normalizeSnippet` and its invariants.
- `Comments`: `stripLeadingComments`.
- `Classify`: the `looksLike*` tests.
- `Wrap`: the wrappers, `indentSnippet`, the candidate choice and `buildJavaSource`.
- `Naming`: base names, tokens, the smell vector, the header and suffixes.
- `DirDot`: `extractHeader` and the output name.
- `Ast`: `generateAST`, `writeLabel`, `writeDOT` and `getPos`.
- `Worked`: three concrete snippets classified end to end.

Java `null` is `Option.None`. Java `trim` removes every character up to
`' '`. Lower-casing is ASCII only. A regex `replaceAll` with a single-character
match and look-arounds is a `Rewrite.Rule`: it sees the pass input before and
after the current character.

## Model

All source paths are under `src/main/com/kitcode/`; the table writes them in full.

| member | source | states |
|---|---|---|
| Masking.Placeholder | src/main/com/kitcode/JsonDotGenerator.java:399 | a placeholder is `__STR`, the decimal index, `__` |
| Masking.ScanLiteral | src/main/com/kitcode/JsonDotGenerator.java:385-404 | the literal scanner splits the text into a literal and the rest without losing anything; a backslash that is not itself escaped escapes exactly the next character; no character before the literal's last closes it, and when text follows, the last is a quote of its kind that is not escaped |
| Masking.Scan | src/main/com/kitcode/JsonDotGenerator.java:383-426 | the scan decomposes the input exactly into plain text and literals; plain text holds no quote; each literal opens at a quote and runs to the first quote of its kind that is not escaped; only a literal that reaches the end of the input may stay open |
| Masking.EscapedQuoteStaysOpen | src/main/com/kitcode/JsonDotGenerator.java:387-393 | a quote right after an unescaped backslash never closes the literal |
| Masking.Mask | src/main/com/kitcode/JsonDotGenerator.java:375-427 | the masked text is the plain text with literal `i` replaced by placeholder `i`, numbered 0..n-1 in order of occurrence; each literal is non-empty and starts with its quote, an unterminated trailing one included |
| Masking.MaskWithoutQuotes | src/main/com/kitcode/JsonDotGenerator.java:383-426 | text with no `"` or `'` masks to itself with no literals |
| Masking.FirstLiteralAtQuote | src/main/com/kitcode/JsonDotGenerator.java:407-416 | the first literal begins at a quote of the input |
| Masking.MaskRoundTrip | src/main/com/kitcode/JsonDotGenerator.java:375-435 | for input without `STR`, unmasking the masked text with its literals gives the input back exactly |
| Masking.UnmaskMasked | src/main/com/kitcode/JsonDotGenerator.java:429-435 | unmasking replaces each placeholder by its literal, in index order, and restores the interleaving of plain text and literals |
| Masking.PlaceholderPrefix | src/main/com/kitcode/JsonDotGenerator.java:431-433 | no placeholder matches at the start of a different one, so `__STR1__` is never found inside `__STR10__` |
| Masking.StrFreeIffNoMatch | src/main/com/kitcode/JsonDotGenerator.java:375-435 | the round trip's precondition (no `STR` anywhere) is the same as `STR` never matching |
| Rewrite.ApplyKeepsSolid | src/main/com/kitcode/JsonDotGenerator.java:217-222 | a rewrite that only adds or drops blanks keeps every non-blank character, in order |
| Rewrite.ApplyStrFree | src/main/com/kitcode/JsonDotGenerator.java:217-222 | a rewrite that never glues `S`, `T`, `R` together keeps text free of `STR` |
| Rewrite.ApplySpares | src/main/com/kitcode/JsonDotGenerator.java:217-222 | a rewrite that leaves placeholder characters alone leaves a run of them unchanged |
| Rewrite.ApplyMasked | src/main/com/kitcode/JsonDotGenerator.java:206-222 | on masked text a rewrite acts on the plain pieces only and keeps each placeholder, and so each literal, in place |
| Normalize.Rules | src/main/com/kitcode/JsonDotGenerator.java:207-222 | the aggressive mode has one pass per modifier, nine, on top of the six shared passes |
| Normalize.NormalizeSnippet | src/main/com/kitcode/JsonDotGenerator.java:201-224 | the result is `null` exactly when the snippet is |
| Normalize.NormalizeKeepsSolid | src/main/com/kitcode/JsonDotGenerator.java:201-224 | for a snippet without `STR`, in both modes, deleting space, tab, `\x0B`, form feed and carriage return from the result gives the same text as deleting them from the snippet; line breaks and literal contents survive |
| Normalize.KeywordTame | src/main/com/kitcode/JsonDotGenerator.java:214 | a keyword pass adds or drops only blanks, never forms `STR` and leaves placeholder characters alone |
| Normalize.OpenTame | src/main/com/kitcode/JsonDotGenerator.java:217-219 | the `(` and `{` passes add or drop only blanks, never form `STR` and leave placeholder characters alone |
| Normalize.CloseTame | src/main/com/kitcode/JsonDotGenerator.java:218-220 | the `)` and `}` passes add or drop only blanks, never form `STR` and leave placeholder characters alone |
| Normalize.SemicolonTame | src/main/com/kitcode/JsonDotGenerator.java:221 | the `;` pass adds or drops only blanks, never forms `STR` and leaves placeholder characters alone |
| Normalize.CollapseTame | src/main/com/kitcode/JsonDotGenerator.java:222 | the blank-run pass adds or drops only blanks, never forms `STR` and leaves placeholder characters alone |
| Normalize.RulesTame | src/main/com/kitcode/JsonDotGenerator.java:207-222 | every pass of both modes has those properties |
| Normalize.CollapsePass | src/main/com/kitcode/JsonDotGenerator.java:222 | after the collapse pass no two horizontal blanks are adjacent |
| Normalize.KeywordGluedSplits | src/main/com/kitcode/JsonDotGenerator.java:214 | a modifier glued to a following letter or `_` gets a space after it |
| Normalize.FinalizeSplits | src/main/com/kitcode/JsonDotGenerator.java:214 | `finalize` becomes `final ize`: identifiers that start with a modifier are split |
| Comments.StripFrom | src/main/com/kitcode/JsonDotGenerator.java:251-265 | the loop ends on text starting with neither `//` nor `/*`, keeps trimmed text trimmed, and changes nothing when no comment opens |
| Comments.StripLeadingComments | src/main/com/kitcode/JsonDotGenerator.java:247-266 | the result is trimmed and starts with no comment; `null` gives `""` |
| Comments.StripIdempotent | src/main/com/kitcode/JsonDotGenerator.java:247-266 | stripping twice is stripping once |
| Comments.StripNoComment | src/main/com/kitcode/JsonDotGenerator.java:251-265 | text that opens no comment is only trimmed |
| Comments.StripUnterminatedBlock | src/main/com/kitcode/JsonDotGenerator.java:259-261 | an unterminated `/*` yields `""` |
| Comments.StripUnterminatedLine | src/main/com/kitcode/JsonDotGenerator.java:255-257 | a `//` comment with no line break yields `""` |
| Comments.StripLineComment | src/main/com/kitcode/JsonDotGenerator.java:255-258 | a line comment is dropped through its line break and the rest is stripped again |
| Comments.StripOverlappingClose | src/main/com/kitcode/JsonDotGenerator.java:259-261 | the `*/` search starts at index 0, so `/*/` closes itself and stripping goes on with the trimmed rest |
| Classify.AnnotationsStart | src/main/com/kitcode/JsonDotGenerator.java:240-241 | a non-empty annotation prefix starts with `@` |
| Classify.ModifiersStart | src/main/com/kitcode/JsonDotGenerator.java:242 | a non-empty modifier prefix starts with `p`, `a`, `s` or `f` |
| Classify.PlainTypeHeader | src/main/com/kitcode/JsonDotGenerator.java:240-243 | without annotations or modifiers the header is exactly a type keyword line |
| Classify.AnnotationGluedToKeyword | src/main/com/kitcode/JsonDotGenerator.java:240-243 | an annotation name followed directly by a keyword line still matches, because the regex backtracks |
| Classify.AnnotationBacktracks | src/main/com/kitcode/JsonDotGenerator.java:240-244 | `@Fooclass X` is a type header |
| Classify.KeywordLineClass | src/main/com/kitcode/JsonDotGenerator.java:243-244 | a line starting with `class` is a keyword line exactly when `class` is followed by a non-word character and the line has no line terminator |
| Classify.ClassOnOneLine | src/main/com/kitcode/JsonDotGenerator.java:234-245 | a trimmed `class` declaration is a type declaration exactly when it has no line terminator; a declaration over several lines is not |
| Classify.LoweredIdempotent | src/main/com/kitcode/JsonDotGenerator.java:269 | the lower-cased trimmed text is stable under lower-casing and trimming again |
| Classify.AtIsMember | src/main/com/kitcode/JsonDotGenerator.java:291-294 | text starting with `@` is always a member |
| Classify.PrefixesStartWithLetter | src/main/com/kitcode/JsonDotGenerator.java:270-287 | every statement prefix starts with a letter |
| Classify.StatementNotMember | src/main/com/kitcode/JsonDotGenerator.java:268-304 | text accepted by the statement test is never a member |
| Classify.DefaultValueIsStatement | src/main/com/kitcode/JsonDotGenerator.java:268-304 | `defaultValue = 1;` is a statement, since `default` needs no delimiter, and so not a member |
| Wrap.DropCr | src/main/com/kitcode/JsonDotGenerator.java:307 | a line loses at most one trailing carriage return, the one the `\r?\n` separator takes |
| Wrap.SplitIsPieces | src/main/com/kitcode/JsonDotGenerator.java:307 | splitting text that does not end in a line break yields every piece, trailing empty ones included |
| Wrap.SplitJoin | src/main/com/kitcode/JsonDotGenerator.java:307-315 | joining the split lines with `\n` restores text without `\r\n` that does not end in a line break |
| Wrap.IndentIsReplace | src/main/com/kitcode/JsonDotGenerator.java:306-316 | `indentSnippet` is the indent plus every `\n` replaced by `\n` plus the indent |
| Wrap.IndentLoneBreak | src/main/com/kitcode/JsonDotGenerator.java:306-316 | a lone line break indents to `""`, because split drops trailing empty strings |
| Wrap.WrapAsMember | src/main/com/kitcode/JsonDotGenerator.java:226-228 | the member wrapper is the class opening, the unchanged snippet, then the class close |
| Wrap.WrapAsStatement | src/main/com/kitcode/JsonDotGenerator.java:230-232 | the statement wrapper is the class and method opening, the snippet indented by four spaces, then both closes |
| Wrap.ChooseFrom | src/main/com/kitcode/JsonDotGenerator.java:139-167 | the candidate is `min-empty` with the empty class exactly when there is no minimal text; each tag comes with its source |
| Wrap.Pick | src/main/com/kitcode/JsonDotGenerator.java:146-167 | the tag is the first passing test in the order min-type, agg-type, min-statement, min-member, agg-statement, agg-member, else min-default; each direction is stated |
| Wrap.SelectWrapCandidate | src/main/com/kitcode/JsonDotGenerator.java:138-168 | a candidate is always returned, `min-empty` exactly for a `null` snippet |
| Wrap.ChoosePriority | src/main/com/kitcode/JsonDotGenerator.java:149-167 | for two normalised texts, the chosen tag follows the priority order of the tests on them |
| Wrap.SelectUsesBoth | src/main/com/kitcode/JsonDotGenerator.java:139-140 | a present snippet is normalised in both modes and the choice is made from the two |
| Wrap.BuildWrapCandidates | src/main/com/kitcode/JsonDotGenerator.java:170-199 | one or two candidates; exactly one when the snippet is `null` or a type declaration; two carry different tags |
| Wrap.CandidatesFor | src/main/com/kitcode/JsonDotGenerator.java:171-198 | a single candidate exactly for a missing text or a type declaration; each candidate is the text as a type, or one of its wrappers |
| Wrap.MemberFirst | src/main/com/kitcode/JsonDotGenerator.java:181-193 | the member wrap comes first exactly when the text is not a statement but is a member |
| Wrap.BothWraps | src/main/com/kitcode/JsonDotGenerator.java:181-198 | two candidates, the member one first when the member test decides, each wrapping the text |
| Wrap.CandidatesNotType | src/main/com/kitcode/JsonDotGenerator.java:181-198 | a non-type text yields both wraps, ordered by the member-first test |
| Wrap.ChooseAgreesWithCandidates | src/main/com/kitcode/JsonDotGenerator.java:138-199 | the selected candidate is consistent with the list built from the minimal text |
| Wrap.SelectAgreesWithBuild | src/main/com/kitcode/JsonDotGenerator.java:138-199 | `selectWrapCandidate` and `buildWrapCandidates` agree for every snippet |
| Wrap.AddHeaderComment | src/main/com/kitcode/JsonDotGenerator.java:125-130 | the source is kept at the end; it is unchanged exactly for a missing or empty header, otherwise preceded by `// `, the header and a line break with nothing in between |
| Wrap.BuildJavaSource | src/main/com/kitcode/JsonDotGenerator.java:132-136 | the file ends with the selected candidate's source, so the `null` fallback is never taken |
| Naming.SafeToken | src/main/com/kitcode/JsonDotGenerator.java:318-326 | the token is non-empty, uses only `[a-z0-9_]`, has no `_` at either end and no `__` |
| Naming.SafeTokenKeepsTokenChars | src/main/com/kitcode/JsonDotGenerator.java:318-326 | the token keeps exactly the lower-cased letters and digits of the trimmed value, in order, and is `unknown` when there are none |
| Naming.SafeTokenOfToken | src/main/com/kitcode/JsonDotGenerator.java:318-326 | tokens are the fixed points of `safeToken` |
| Naming.SafeTokenIdempotent | src/main/com/kitcode/JsonDotGenerator.java:318-326 | `safeToken` is idempotent |
| Naming.LastIndexOf | src/main/com/kitcode/JsonDotGenerator.java:332 | the last position of the character, or -1 when it does not occur |
| Naming.ExtractFileName | src/main/com/kitcode/JsonDotGenerator.java:328-334 | the name holds no `/`; a missing or empty path gives `unknown` |
| Naming.FileNameOfJoin | src/main/com/kitcode/JsonDotGenerator.java:328-334 | the name of `dir/name` is `name` |
| Naming.ResolveY | src/main/com/kitcode/JsonDotGenerator.java:346-355 | the smell vector always has four flags |
| Naming.ResolveYOfFour | src/main/com/kitcode/JsonDotGenerator.java:347-348 | a `y` of exactly four flags is taken as it is |
| Naming.ResolveYIgnoresLabels | src/main/com/kitcode/JsonDotGenerator.java:347-348 | with four or more `y` entries the labels are never consulted, and entries past the fourth do not matter |
| Naming.ResolveYIgnoresShortY | src/main/com/kitcode/JsonDotGenerator.java:347-354 | with fewer than four `y` entries the vector is what it would be with no `y` at all |
| Naming.ResolveYNoLabels | src/main/com/kitcode/JsonDotGenerator.java:350-363 | with no labels and no full `y`, every smell is absent |
| Naming.ResolveYReadsPresence | src/main/com/kitcode/JsonDotGenerator.java:357-363 | a smell flag follows only whether its label is marked present; severity and votes never matter |
| Naming.ResolveYMissingKey | src/main/com/kitcode/JsonDotGenerator.java:357-363 | with a label map present and no full `y`, a smell key missing from the map gives `false` |
| Naming.ParseFormatY | src/main/com/kitcode/JsonDotGenerator.java:336-344 | both renderings of the smell vector read back as the resolved flags |
| Naming.BuildBaseName | src/main/com/kitcode/JsonDotGenerator.java:94-101 | the base name is one path segment that starts with the commit token and `_` and ends with `_` and the file part |
| Naming.BaseNameParts | src/main/com/kitcode/JsonDotGenerator.java:94-101 | the five-part join of commit token, line numbers, compact vector and file part is one path segment |
| Naming.BaseNameMiddleIs | src/main/com/kitcode/JsonDotGenerator.java:97-100 | between the commit-token prefix and the file-part suffix the base name holds exactly start line, `_`, end line, `_` and the compact vector |
| Naming.BaseNameKeepsPlainFileName | src/main/com/kitcode/JsonDotGenerator.java:96 | a file name without whitespace ends the base name unchanged |
| Naming.AppendHeaderField | src/main/com/kitcode/JsonDotGenerator.java:114-119 | a field appends exactly ` key=` followed directly by the value, or nothing more for `null` |
| Naming.EscapeHeaderTable | src/main/com/kitcode/JsonDotGenerator.java:121-123 | the two chained replaces are the per-character escape of `\` and `"` |
| Naming.BuildHeader | src/main/com/kitcode/JsonDotGenerator.java:103-112 | unescaping the header gives back the raw field list |
| Naming.Pad3 | src/main/com/kitcode/JsonDotGenerator.java:441 | digits only, exactly three characters when the count has fewer digits, and as many as its digits otherwise |
| Naming.Pad3Digits | src/main/com/kitcode/JsonDotGenerator.java:441 | the padding is all zeros and the count's own decimal digits end the text |
| Naming.ParsePad3 | src/main/com/kitcode/JsonDotGenerator.java:441 | the padded count reads back as the count |
| Naming.ApplySuffix | src/main/com/kitcode/JsonDotGenerator.java:437-446 | the first use keeps the name; later uses put `_NNN` before a `.java` extension or at the end, keeping the extension |
| Naming.SuffixShape | src/main/com/kitcode/JsonDotGenerator.java:437-446 | a suffixed name is exactly the stem, `_`, the count padded to three digits, then `.java` when the name had it |
| Naming.ApplySuffixInjective | src/main/com/kitcode/JsonDotGenerator.java:437-446 | different counts give different names, so a repeated base name never overwrites an earlier file |
| DirDot.FirstLine | src/main/com/kitcode/JavaDirDotGenerator.java:48-49 | the text before the first `\n`, or all of it |
| DirDot.ExtractHeader | src/main/com/kitcode/JavaDirDotGenerator.java:44-55 | `null` gives `null`; otherwise a header exactly when the trimmed first line starts with `//`, and it is trimmed and one line |
| DirDot.ExtractFirstLineOnly | src/main/com/kitcode/JavaDirDotGenerator.java:48-49 | later lines never affect the result |
| DirDot.HeaderRoundTrip | src/main/com/kitcode/JavaDirDotGenerator.java:44-55 | a non-empty one-line header with nothing trimmable at its ends reads back from `addHeaderComment(h, s)` for every `s` |
| DirDot.NoHeaderPassesThrough | src/main/com/kitcode/JavaDirDotGenerator.java:44-55 | without a header the source's own first line decides |
| DirDot.GeneratedHeaderReadsBack | src/main/com/kitcode/JsonDotGenerator.java:103-136 | the header `buildJavaSource` writes is what `extractHeader` reads back, when commit and path have no line break |
| DirDot.DotFileName | src/main/com/kitcode/JavaDirDotGenerator.java:58-61 | a `.java` name becomes its stem plus `.dot`, any other name gets `.dot` appended; the result ends in `.dot` |
| DirDot.DotFileNameInjective | src/main/com/kitcode/JavaDirDotGenerator.java:58-61 | two `.java` inputs never share an output name |
| DirDot.RenamesAgree | src/main/com/kitcode/ASTGenerator.java:104 | the single-file converter's `replace` agrees with the directory converter's rename when `.java` occurs only as the extension |
| DirDot.RenamesDiffer | src/main/com/kitcode/ASTGenerator.java:104 | `a.java.java` gives `a.dot.dot` there and `a.java.dot` here |
| Ast.ChainCollapses | src/main/com/kitcode/ASTGenerator.java:52-66 | a rule node whose one child is a rule node records nothing and passes its depth to the child |
| Ast.KeptNodeFirst | src/main/com/kitcode/ASTGenerator.java:52-66 | any other rule node, and every rule node in verbose mode, is recorded first at its own depth |
| Ast.VerboseListsEveryRule | src/main/com/kitcode/ASTGenerator.java:52-66 | verbose mode records every rule node in pre-order at its depth in the tree |
| Ast.RowCounts | src/main/com/kitcode/ASTGenerator.java:52-66 | verbose mode records one row per rule node; compact mode records one fewer per elided node |
| Ast.GenNested | src/main/com/kitcode/ASTGenerator.java:52-66 | the rows of a rule node start at its depth, no other row is that shallow, and each row is at most one deeper than the previous |
| Ast.RowsShape | src/main/com/kitcode/ASTGenerator.java:97 | the dump of a parse tree is non-empty, the first depth is the only 0, and each step goes at most one deeper |
| Ast.LastAt | src/main/com/kitcode/ASTGenerator.java:136-144 | the greatest index below the limit with the depth, or 0 when there is none |
| Ast.GetPos | src/main/com/kitcode/ASTGenerator.java:136-144 | the loop computes that index |
| Ast.ParentIsNearestShallower | src/main/com/kitcode/ASTGenerator.java:116-123 | the source of the edge into row `i` is an earlier row one level up, and every row in between is at least as deep as `i` |
| Ast.EdgesFormTree | src/main/com/kitcode/ASTGenerator.java:116-123 | one edge into every row but the first, each from an earlier row one level up |
| Ast.EscapeLabelTable | src/main/com/kitcode/ASTGenerator.java:127-131 | the five chained replaces are the per-character escape of `\`, `"`, `\n`, `\r`, `\t` |
| Ast.LabelRoundTrip | src/main/com/kitcode/ASTGenerator.java:127-131 | decoding the escaped text gives it back |
| Ast.LabelOneLine | src/main/com/kitcode/ASTGenerator.java:127-131 | the escaped text holds no raw line break, carriage return or tab |
| Ast.LabelLineOneLine | src/main/com/kitcode/ASTGenerator.java:132 | a node line is exactly one line |
| Ast.EdgesJoinNodes | src/main/com/kitcode/ASTGenerator.java:116-134 | the body has a node line per row and an edge line per later row, and each edge's ends are named exactly as the parent's and the row's node lines name them |
| Ast.DumpDrawsTree | src/main/com/kitcode/ASTGenerator.java:97-134 | the dump of a parse tree draws a tree: one edge into every node but the first, each from an earlier node one level up, both ends declared |
| Ast.NodeIdsCollide | src/main/com/kitcode/ASTGenerator.java:121-132 | depth 1 at index 1100 and depth 11 at index 100 are both named `11100` |
| Ast.IndexIdsDistinct | src/main/com/kitcode/ASTGenerator.java:121-132 | named by index alone, distinct rows get distinct names |
| Worked.MinimalPasses | src/main/com/kitcode/JsonDotGenerator.java:217-222 | the minimal mode runs the six shared passes in order |
| Worked.AggressivePasses | src/main/com/kitcode/JsonDotGenerator.java:208-222 | the aggressive mode runs the nine modifier passes, then the six shared ones |
| Worked.NormalizeWithoutQuotes | src/main/com/kitcode/JsonDotGenerator.java:201-224 | without quotes, normalising is running the passes on the text itself |
| Worked.KeywordAbsent | src/main/com/kitcode/JsonDotGenerator.java:214 | a keyword pass changes nothing when a letter of the keyword is absent |
| Worked.SemicolonOnce | src/main/com/kitcode/JsonDotGenerator.java:221 | a single `;` after non-blank text gains one space |
| Worked.CollapseDouble | src/main/com/kitcode/JsonDotGenerator.java:222 | a lone double space collapses to one |
| Worked.TypeExample | src/main/com/kitcode/JsonDotGenerator.java:138-168 | `public class Foo { int x; }` is `min-type`, its source the input, unwrapped |
| Worked.StatementExample | src/main/com/kitcode/JsonDotGenerator.java:138-168 | `if (x > 0) { return x; }` is `min-statement`, wrapped in the method |
| Worked.MemberExample | src/main/com/kitcode/JsonDotGenerator.java:138-168 | `int x = 5;` is `min-member`, wrapped as a member with no method, after the `;` pass adds its space |

## Left out

- Every `main`, the Gson `readEntries`, the file writes of `generatePerSnippet` and its `nameCounts` map, `resolveDefaultInput` and `writeFailureArtifact`: all are file I/O. `writeFailureArtifact` is never called.
- `processJavaFile` and `readFile`: the ANTLR lexer and parser, the error listener and `FileWriter`. `Ast.Tree` stands for the parser's result, and `getText` is the concatenation of token texts.
- `generateDotFromString` and `parseOnly` are not part of this model. The directory converter and the validator call them, but `ASTGenerator.java` does not define them.
- The `Path.relativize` and `resolve` calls in `resolveOutputPath`: only the file-name string is modelled.
- `JavaDirValidator.java`: it walks directories and writes files. Its `extractHeader` is a copy of the one modelled here.
- Full Unicode case mapping: `toLowerCase` is ASCII only.
- The general regex engine: each pattern the code uses is hand-written at the character level.
- `Integer.parseInt` of the recorded depths: depths are kept as numbers, since every entry is written by `Integer.toString` of a non-negative depth.
- `null` elements inside the `y` list and the label map: lists hold plain booleans.
- Normalize.FinalizeSplits: states that the result starts with `final i`, not the whole output.
- Wrap.ChooseAgreesWithCandidates: requires both normalised texts to be present or both missing, which is always the case when they come from one snippet.
- DirDot.GeneratedHeaderReadsBack: requires the commit hash and file path to hold no line break. A line break in either would split the header comment, and the read-back would lose the rest.
- Masking.MaskRoundTrip: requires the input to hold no `STR`. Text such as `_STR1__` can join a placeholder and be replaced on unmasking.

## Findings

| source | as written | input that shows it | evidently intended | confidence | as-written member | corrected member |
|---|---|---|---|---|---|---|
| src/main/com/kitcode/ASTGenerator.java:121,132 | a node's DOT name is its depth's decimal followed by its index's decimal | depth 1 at index 1100 and depth 11 at index 100 are both named `11100`, so two different nodes merge in the graph | every row gets its own node name | not executed | Ast.NodeIdsCollide | Ast.IndexIdsDistinct |

The edge facts (`Ast.EdgesJoinNodes`, `Ast.DumpDrawsTree`) are stated for any
naming function. With `Ast.IndexId`, the names are distinct, and the drawn
graph is the tree those lemmas describe.

=== FILE: ast.dfy ===
/**
  The parse-tree dump: `generateAST` walks a parse tree in pre-order and
  records one row (depth, rule name, text) per rule node, eliding rule nodes
  that merely wrap a single rule child; `writeLabel` and `writeDOT` turn the
  rows into DOT node and edge lines.
 */
module Ast {
  import opened Wrappers
  import opened Text
  import opened Escape

  /** A parse tree: rule nodes with children, and tokens. */
  datatype Tree = Rule(name: String, children: seq<Tree>) | Token(text: String)

  /** `getText()`: the token texts of the subtree, concatenated. */
  function GetText(t: Tree): String
    decreases t, 1
  {
    match t
    case Token(s) => s
    case Rule(_, cs) => TextFrom(t, 0)
  }

  function TextFrom(t: Tree, i: nat): String
    requires t.Rule?
    decreases t, 0, |t.children| - i
  {
    if i >= |t.children| then [] else GetText(t.children[i]) + TextFrom(t, i + 1)
  }

  /** One recorded row: the `LineNum`, `Type` and `Content` entries at one index. */
  datatype Row = Row(depth: nat, name: String, text: String)

  /** A rule node that only wraps one rule node. */
  predicate IsChain(t: Tree) {
    t.Rule? && |t.children| == 1 && t.children[0].Rule?
  }

  /**
    `generateAST(t, verbose, depth)`: the row of `t` unless it is elided,
    then the rows of its rule children, one level deeper unless `t` was
    elided. Tokens have no rows; the walk only descends into rule nodes.
   */
  function Gen(t: Tree, verbose: bool, depth: nat): seq<Row>
    decreases t, 1
  {
    match t
    case Token(_) => []
    case Rule(name, cs) =>
      var ignored := !verbose && IsChain(t);
      (if ignored then [] else [Row(depth, name, GetText(t))])
        + GenFrom(t, 0, verbose, if ignored then depth else depth + 1)
  }

  /** The rows of the children of `t` from index `i` on. */
  function GenFrom(t: Tree, i: nat, verbose: bool, depth: nat): seq<Row>
    requires t.Rule?
    decreases t, 0, |t.children| - i
  {
    if i >= |t.children| then [] else Gen(t.children[i], verbose, depth) + GenFrom(t, i + 1, verbose, depth)
  }

  // ---------------------------------------------------------------------------
  // Which nodes get a row

  /** An elided node hands its place, and its depth, to its only child. */
  lemma ChainCollapses(name: String, c: Tree, depth: nat)
    requires c.Rule?
    ensures Gen(Rule(name, [c]), false, depth) == Gen(c, false, depth)
  {
    var t := Rule(name, [c]);
    assert GenFrom(t, 1, false, depth) == [];
    assert GenFrom(t, 0, false, depth) == Gen(c, false, depth) + [];
  }

  /** Every other rule node is recorded first, at its own depth; in verbose mode every rule node is. */
  lemma KeptNodeFirst(t: Tree, verbose: bool, depth: nat)
    requires t.Rule? && (verbose || !IsChain(t))
    ensures Gen(t, verbose, depth) != []
    ensures Gen(t, verbose, depth)[0] == Row(depth, t.name, GetText(t))
  {
  }

  /** The rule nodes of `t` in pre-order, each with its depth in the tree below `depth`. */
  function RuleNodes(t: Tree, depth: nat): (r: seq<(nat, Tree)>)
    ensures forall k | 0 <= k < |r| :: r[k].1.Rule?
    decreases t, 1
  {
    match t
    case Token(_) => []
    case Rule(_, _) => [(depth, t)] + RuleNodesFrom(t, 0, depth + 1)
  }

  function RuleNodesFrom(t: Tree, i: nat, depth: nat): (r: seq<(nat, Tree)>)
    requires t.Rule?
    ensures forall k | 0 <= k < |r| :: r[k].1.Rule?
    decreases t, 0, |t.children| - i
  {
    if i >= |t.children| then [] else RuleNodes(t.children[i], depth) + RuleNodesFrom(t, i + 1, depth)
  }

  /** The row each listed rule node would record. */
  function Describe(ns: seq<(nat, Tree)>): (r: seq<Row>)
    requires forall k | 0 <= k < |ns| :: ns[k].1.Rule?
    ensures |r| == |ns|
  {
    seq(|ns|, k requires 0 <= k < |ns| => Row(ns[k].0, ns[k].1.name, GetText(ns[k].1)))
  }

  lemma DescribeConcat(a: seq<(nat, Tree)>, b: seq<(nat, Tree)>)
    requires forall k | 0 <= k < |a| :: a[k].1.Rule?
    requires forall k | 0 <= k < |b| :: b[k].1.Rule?
    ensures Describe(a + b) == Describe(a) + Describe(b)
  {
  }

  /** Verbose mode records every rule node, in pre-order, at its depth in the tree. */
  lemma {:induction false} VerboseListsEveryRule(t: Tree, depth: nat)
    ensures Gen(t, true, depth) == Describe(RuleNodes(t, depth))
    decreases t, 1
  {
    match t
    case Token(_) =>
    case Rule(_, _) =>
      VerboseListsEveryRuleFrom(t, 0, depth + 1);
      DescribeConcat([(depth, t)], RuleNodesFrom(t, 0, depth + 1));
  }

  lemma {:induction false} VerboseListsEveryRuleFrom(t: Tree, i: nat, depth: nat)
    requires t.Rule?
    ensures GenFrom(t, i, true, depth) == Describe(RuleNodesFrom(t, i, depth))
    decreases t, 0, |t.children| - i
  {
    if i < |t.children| {
      VerboseListsEveryRule(t.children[i], depth);
      VerboseListsEveryRuleFrom(t, i + 1, depth);
      DescribeConcat(RuleNodes(t.children[i], depth), RuleNodesFrom(t, i + 1, depth));
    }
  }

  /** How many rule nodes the tree has, and how many of them are elided in compact mode. */
  function RuleCount(t: Tree): nat
    decreases t, 1
  {
    match t
    case Token(_) => 0
    case Rule(_, _) => 1 + RuleCountFrom(t, 0)
  }

  function RuleCountFrom(t: Tree, i: nat): nat
    requires t.Rule?
    decreases t, 0, |t.children| - i
  {
    if i >= |t.children| then 0 else RuleCount(t.children[i]) + RuleCountFrom(t, i + 1)
  }

  function ChainCount(t: Tree): nat
    decreases t, 1
  {
    match t
    case Token(_) => 0
    case Rule(_, _) => (if IsChain(t) then 1 else 0) + ChainCountFrom(t, 0)
  }

  function ChainCountFrom(t: Tree, i: nat): nat
    requires t.Rule?
    decreases t, 0, |t.children| - i
  {
    if i >= |t.children| then 0 else ChainCount(t.children[i]) + ChainCountFrom(t, i + 1)
  }

  /** Verbose mode has a row per rule node; compact mode drops exactly the chain nodes. */
  lemma {:induction false} RowCounts(t: Tree, depth: nat)
    ensures |Gen(t, true, depth)| == RuleCount(t)
    ensures |Gen(t, false, depth)| == RuleCount(t) - ChainCount(t)
    ensures ChainCount(t) <= RuleCount(t)
    decreases t, 1
  {
    if t.Rule? {
      var ignored := IsChain(t);
      RowCountsFrom(t, 0, depth + 1);
      RowCountsFrom(t, 0, if ignored then depth else depth + 1);
    }
  }

  lemma {:induction false} RowCountsFrom(t: Tree, i: nat, depth: nat)
    requires t.Rule?
    ensures |GenFrom(t, i, true, depth)| == RuleCountFrom(t, i)
    ensures |GenFrom(t, i, false, depth)| == RuleCountFrom(t, i) - ChainCountFrom(t, i)
    ensures ChainCountFrom(t, i) <= RuleCountFrom(t, i)
    decreases t, 0, |t.children| - i
  {
    if i < |t.children| {
      RowCounts(t.children[i], depth);
      RowCountsFrom(t, i + 1, depth);
    }
  }

  // ---------------------------------------------------------------------------
  // The shape of the depth column

  /** Each depth is at most one more than the one before. */
  predicate Steps(rows: seq<Row>) {
    forall i | 1 <= i < |rows| :: rows[i].depth <= rows[i - 1].depth + 1
  }

  /** Rows of a sequence of sibling subtrees at depth `d`: never shallower, and starting at `d`. */
  predicate Forest(rows: seq<Row>, d: nat) {
    && Steps(rows)
    && (forall i | 0 <= i < |rows| :: rows[i].depth >= d)
    && (rows != [] ==> rows[0].depth == d)
  }

  /** Rows of one subtree at depth `d`: the first at `d`, all later ones deeper. */
  predicate Nested(rows: seq<Row>, d: nat) {
    && rows != [] && rows[0].depth == d && Steps(rows)
    && forall i | 1 <= i < |rows| :: rows[i].depth > d
  }

  lemma ForestConcat(a: seq<Row>, b: seq<Row>, d: nat)
    requires Forest(a, d) && Forest(b, d)
    ensures Forest(a + b, d)
  {
    var r := a + b;
    forall i | 1 <= i < |r|
      ensures r[i].depth <= r[i - 1].depth + 1
    {
      if i < |a| {
        assert r[i] == a[i] && r[i - 1] == a[i - 1];
      } else if i == |a| {
        assert r[i] == b[0] && r[i - 1] == a[|a| - 1];
      } else {
        assert r[i] == b[i - |a|] && r[i - 1] == b[i - |a| - 1];
      }
    }
  }

  /** A node's row followed by its children's rows one level down nests. */
  lemma NestUnder(row: Row, rest: seq<Row>)
    requires Forest(rest, row.depth + 1)
    ensures Nested([row] + rest, row.depth)
  {
    var r := [row] + rest;
    forall i | 1 <= i < |r|
      ensures r[i].depth <= r[i - 1].depth + 1
    {
      assert r[i] == rest[i - 1];
      if i > 1 {
        assert r[i - 1] == rest[i - 2];
      }
    }
  }

  /**
    The rows of a rule node nest under its own row: never empty, the first
    at the starting depth, all others deeper, and each at most one level
    below the row before it.
   */
  lemma {:induction false} GenNested(t: Tree, verbose: bool, depth: nat)
    requires t.Rule?
    ensures Nested(Gen(t, verbose, depth), depth)
    decreases t, 1
  {
    if !verbose && IsChain(t) {
      var c := t.children[0];
      GenNested(c, verbose, depth);
      assert GenFrom(t, 1, verbose, depth) == [];
      assert Gen(t, verbose, depth) == GenFrom(t, 0, verbose, depth) == Gen(c, verbose, depth) + [];
    } else {
      var row, rest := Row(depth, t.name, GetText(t)), GenFrom(t, 0, verbose, depth + 1);
      assert Gen(t, verbose, depth) == [row] + rest;
      GenFromForest(t, 0, verbose, depth + 1);
      NestUnder(row, rest);
    }
  }

  lemma {:induction false} GenFromForest(t: Tree, i: nat, verbose: bool, depth: nat)
    requires t.Rule?
    ensures Forest(GenFrom(t, i, verbose, depth), depth)
    decreases t, 0, |t.children| - i
  {
    if i < |t.children| {
      var c := t.children[i];
      GenFromForest(t, i + 1, verbose, depth);
      if c.Rule? {
        GenNested(c, verbose, depth);
      }
      ForestConcat(Gen(c, verbose, depth), GenFrom(t, i + 1, verbose, depth), depth);
    }
  }

  /** The rows `processJavaFile` writes: the compact walk from the root at depth 0. */
  function Rows(root: Tree): seq<Row> {
    Gen(root, false, 0)
  }

  /** For a rule root: rows exist, the first at depth 0 and no other at 0, each step at most one deeper. */
  lemma RowsShape(root: Tree)
    requires root.Rule?
    ensures var rows := Rows(root);
      && rows != [] && rows[0].depth == 0
      && (forall i | 1 <= i < |rows| :: rows[i].depth > 0)
      && Steps(rows)
  {
    GenNested(root, false, 0);
  }

  // ---------------------------------------------------------------------------
  // getPos: the source of each edge

  /** The last index below `limit` whose row has depth `n`, or 0 when there is none. */
  function LastAt(rows: seq<Row>, n: int, limit: nat): (r: nat)
    requires limit <= |rows|
    ensures limit == 0 ==> r == 0
    ensures (exists j | 0 <= j < limit :: rows[j].depth == n) ==>
      r < limit && rows[r].depth == n && forall k | r < k < limit :: rows[k].depth != n
    ensures (forall j | 0 <= j < limit :: rows[j].depth != n) ==> r == 0
  {
    if limit == 0 then 0
    else if rows[limit - 1].depth == n then limit - 1
    else LastAt(rows, n, limit - 1)
  }

  /** `getPos(n, limit)`: a forward scan that remembers the last match. */
  method GetPos(rows: seq<Row>, n: int, limit: nat) returns (pos: nat)
    requires limit <= |rows|
    ensures pos == LastAt(rows, n, limit)
    ensures pos == 0 || (pos < limit && rows[pos].depth == n)
    ensures forall k | pos < k < limit :: rows[k].depth != n
  {
    pos := 0;
    var i := 0;
    while i < limit
      invariant 0 <= i <= limit
      invariant pos == LastAt(rows, n, i)
    {
      if rows[i].depth == n {
        pos := i;
      }
      i := i + 1;
    }
  }

  /** The source row `writeDOT` picks for row `i`: the last earlier row one level up. */
  function Parent(rows: seq<Row>, i: nat): nat
    requires i < |rows|
  {
    LastAt(rows, rows[i].depth - 1, i)
  }

  /** Depth rises one step at a time, so on the way up to a deeper row it passes every level between. */
  lemma {:induction false} Climb(rows: seq<Row>, a: nat, b: nat, v: int)
    requires Steps(rows) && a < b < |rows|
    requires rows[a].depth <= v < rows[b].depth
    ensures exists m | a <= m < b :: rows[m].depth == v
    decreases b - a
  {
    if rows[b - 1].depth <= v {
      assert rows[b - 1].depth == v;
    } else {
      Climb(rows, a, b - 1, v);
    }
  }

  /** Rows after the last one at level `v` and before a deeper row all lie deeper than `v`. */
  lemma {:induction false} StaysAbove(rows: seq<Row>, a: nat, b: nat, v: int)
    requires Steps(rows) && a <= b < |rows| && rows[b].depth > v
    requires forall m | a <= m < b :: rows[m].depth != v
    ensures forall m | a <= m <= b :: rows[m].depth > v
    decreases b - a
  {
    if a < b {
      assert rows[b - 1].depth >= v && rows[b - 1].depth != v;
      StaysAbove(rows, a, b - 1, v);
    }
  }

  /**
    In rows that nest from depth 0, each row after the first gets as edge
    source the nearest earlier row one level up, and every row between the
    two lies deeper: the source is the row's parent in the tree.
   */
  lemma ParentIsNearestShallower(rows: seq<Row>, i: nat)
    requires Nested(rows, 0) && 1 <= i < |rows|
    ensures var p := Parent(rows, i);
      && p < i && rows[p].depth + 1 == rows[i].depth
      && forall k | p < k < i :: rows[k].depth >= rows[i].depth
  {
    var v := rows[i].depth - 1;
    Climb(rows, 0, i, v);
    var p := Parent(rows, i);
    StaysAbove(rows, p + 1, i, v);
  }

  /** `writeDOT`'s edges as (source, target) row indices. */
  function Edges(rows: seq<Row>): seq<(nat, nat)> {
    seq(if rows == [] then 0 else |rows| - 1, k requires 0 <= k < |rows| - 1 => (Parent(rows, k + 1), k + 1))
  }

  /**
    The edges make the rows a tree rooted at the first row: one edge into
    every other row, none into the first, each from an earlier row one
    level up.
   */
  lemma EdgesFormTree(rows: seq<Row>)
    requires Nested(rows, 0)
    ensures var es := Edges(rows);
      && |es| == |rows| - 1
      && (forall k | 0 <= k < |es| :: es[k].1 == k + 1)
      && (forall k | 0 <= k < |es| :: es[k].0 < es[k].1 && rows[es[k].0].depth + 1 == rows[es[k].1].depth)
  {
    var es := Edges(rows);
    forall k | 0 <= k < |es|
      ensures es[k].0 < es[k].1 && rows[es[k].0].depth + 1 == rows[es[k].1].depth
    {
      ParentIsNearestShallower(rows, k + 1);
    }
  }

  // ---------------------------------------------------------------------------
  // writeLabel: node lines

  /** The label table: backslash, double quote, and the three control characters as `n`, `r`, `t`. */
  function LabelCode(c: char): Option<char> {
    if c == '\\' || c == '"' then Some(c)
    else if c == '\n' then Some('n')
    else if c == '\r' then Some('r')
    else if c == '\t' then Some('t')
    else None
  }

  /** Reading the label table back. */
  function LabelDecode(e: char): Option<char> {
    if e == '\\' || e == '"' then Some(e)
    else if e == 'n' then Some('\n')
    else if e == 'r' then Some('\r')
    else if e == 't' then Some('\t')
    else None
  }

  /** The five `replace` calls of `writeLabel`, backslash first. */
  function EscapeLabel(s: String): (r: String)
    ensures r == EscapeWith(LabelCode, s)
  {
    EscapeLabelTable(s);
    ReplaceAll(ReplaceAll(ReplaceAll(ReplaceAll(ReplaceAll(s, "\\", "\\\\"), "\"", "\\\""), "\n", "\\n"), "\r", "\\r"), "\t", "\\t")
  }

  lemma EscapeLabelTable(s: String)
    ensures ReplaceAll(ReplaceAll(ReplaceAll(ReplaceAll(ReplaceAll(s, "\\", "\\\\"), "\"", "\\\""), "\n", "\\n"), "\r", "\\r"), "\t", "\\t")
      == EscapeWith(LabelCode, s)
  {
    TabStep(s);
    forall c ensures TabTable()(c) == LabelCode(c) {
      WithAt(ReturnTable(), '\t', 't', c);
      WithAt(BreakTable(), '\r', 'r', c);
      WithAt(QuoteTable(), '\n', 'n', c);
      WithAt(BackslashOnly, '"', '"', c);
    }
    EscapeSameTable(TabTable(), LabelCode, s);
  }

  // The tables after each `replace` of the chain.
  function QuoteTable(): char -> Option<char> { With(BackslashOnly, '"', '"') }
  function BreakTable(): char -> Option<char> { With(QuoteTable(), '\n', 'n') }
  function ReturnTable(): char -> Option<char> { With(BreakTable(), '\r', 'r') }
  function TabTable(): char -> Option<char> { With(ReturnTable(), '\t', 't') }

  lemma QuoteStep(s: String)
    ensures ReplaceAll(ReplaceAll(s, "\\", "\\\\"), "\"", "\\\"") == EscapeWith(QuoteTable(), s)
  {
    EscapeFirst(s);
    BackslashFresh('"');
    EscapeStep(BackslashOnly, '"', '"', s);
  }

  lemma BreakStep(s: String)
    ensures ReplaceAll(ReplaceAll(ReplaceAll(s, "\\", "\\\\"), "\"", "\\\""), "\n", "\\n") == EscapeWith(BreakTable(), s)
  {
    QuoteStep(s);
    BackslashFresh('\n');
    WithFresh(BackslashOnly, '"', '"', '\n');
    EscapeStep(QuoteTable(), '\n', 'n', s);
  }

  lemma ReturnStep(s: String)
    ensures ReplaceAll(ReplaceAll(ReplaceAll(ReplaceAll(s, "\\", "\\\\"), "\"", "\\\""), "\n", "\\n"), "\r", "\\r")
      == EscapeWith(ReturnTable(), s)
  {
    BreakStep(s);
    BackslashFresh('\r');
    WithFresh(BackslashOnly, '"', '"', '\r');
    WithFresh(QuoteTable(), '\n', 'n', '\r');
    EscapeStep(BreakTable(), '\r', 'r', s);
  }

  lemma TabStep(s: String)
    ensures ReplaceAll(ReplaceAll(ReplaceAll(ReplaceAll(ReplaceAll(s, "\\", "\\\\"), "\"", "\\\""), "\n", "\\n"), "\r", "\\r"), "\t", "\\t")
      == EscapeWith(TabTable(), s)
  {
    ReturnStep(s);
    BackslashFresh('\t');
    WithFresh(BackslashOnly, '"', '"', '\t');
    WithFresh(QuoteTable(), '\n', 'n', '\t');
    WithFresh(BreakTable(), '\r', 'r', '\t');
    EscapeStep(ReturnTable(), '\t', 't', s);
  }

  /** Label text loses nothing: reading the escapes back gives the node's text. */
  lemma LabelRoundTrip(s: String)
    ensures UnescapeWith(LabelDecode, EscapeLabel(s)) == s
  {
    UnescapeEscape(LabelCode, LabelDecode, s);
  }

  /** No line break, carriage return or tab survives in an escaped label. */
  lemma LabelOneLine(s: String)
    ensures '\n' !in EscapeLabel(s) && '\r' !in EscapeLabel(s) && '\t' !in EscapeLabel(s)
  {
    EscapedHidesChar(LabelCode, s, '\n');
    EscapedHidesChar(LabelCode, s, '\r');
    EscapedHidesChar(LabelCode, s, '\t');
  }

  // ---------------------------------------------------------------------------
  // writeDOT: the file

  /** A node's name as written: its `LineNum` entry, then its index. */
  function NodeId(depth: int, i: nat): String {
    IntToString(depth) + Dec(i)
  }

  /** A node's name by its index alone. */
  function IndexId(depth: int, i: nat): String {
    Dec(i)
  }

  /** One node line: the name, then the rule name and the escaped text as the label. */
  function LabelLine(id: String, row: Row): String {
    id + "[label=\"" + row.name + "\\n " + EscapeLabel(row.text) + " \"]\n"
  }

  /** One edge line. */
  function EdgeLine(from: String, to: String): String {
    from + "->" + to + "\n"
  }

  /**
    The lines of the graph body, naming nodes with `id`: a node line per
    row, then an edge line per row after the first whose source is named
    from the level above and the position `getPos` finds.
   */
  function DotLines(rows: seq<Row>, id: (int, nat) -> String): seq<String> {
    seq(|rows|, i requires 0 <= i < |rows| => LabelLine(id(rows[i].depth, i), rows[i]))
      + seq(if rows == [] then 0 else |rows| - 1, k requires 0 <= k < |rows| - 1 =>
          EdgeLine(id(rows[k + 1].depth - 1, Parent(rows, k + 1)), id(rows[k + 1].depth, k + 1)))
  }

  function Concat(lines: seq<String>): String {
    if lines == [] then [] else lines[0] + Concat(lines[1..])
  }

  /** The `.dot` file `processJavaFile` writes for the rows. */
  function DotFile(rows: seq<Row>, id: (int, nat) -> String): String {
    "digraph G {\n" + Concat(DotLines(rows, id)) + "}\n"
  }

  /** The file as written: nodes named by `NodeId`. */
  function WriteDot(rows: seq<Row>): String {
    DotFile(rows, NodeId)
  }

  /** The node line of row `j`. */
  function NodeLine(rows: seq<Row>, id: (int, nat) -> String, j: nat): String
    requires j < |rows|
  {
    LabelLine(id(rows[j].depth, j), rows[j])
  }

  /**
    Every edge line joins two declared nodes: its ends are named exactly as
    the node lines of the parent row and of the row itself name them.
   */
  lemma EdgesJoinNodes(rows: seq<Row>, id: (int, nat) -> String)
    requires Nested(rows, 0)
    ensures |DotLines(rows, id)| == 2 * |rows| - 1
    ensures forall j | 0 <= j < |rows| :: DotLines(rows, id)[j] == NodeLine(rows, id, j)
    ensures forall j | 1 <= j < |rows| ::
      && Parent(rows, j) < j
      && DotLines(rows, id)[|rows| + j - 1] == EdgeLine(id(rows[Parent(rows, j)].depth, Parent(rows, j)), id(rows[j].depth, j))
  {
    forall j | 1 <= j < |rows|
      ensures Parent(rows, j) < j
      ensures DotLines(rows, id)[|rows| + j - 1] == EdgeLine(id(rows[Parent(rows, j)].depth, Parent(rows, j)), id(rows[j].depth, j))
    {
      EdgeAt(rows, id, j);
    }
  }

  lemma EdgeAt(rows: seq<Row>, id: (int, nat) -> String, j: nat)
    requires Nested(rows, 0) && 1 <= j < |rows|
    ensures Parent(rows, j) < j
    ensures DotLines(rows, id)[|rows| + j - 1] == EdgeLine(id(rows[Parent(rows, j)].depth, Parent(rows, j)), id(rows[j].depth, j))
  {
    ParentIsNearestShallower(rows, j);
    var p := Parent(rows, j);
    assert rows[j].depth - 1 == rows[p].depth;
  }

  /** A node line is one line when the rule name is: the escaped text never breaks it. */
  lemma LabelLineOneLine(id: String, row: Row)
    requires '\n' !in id && '\n' !in row.name
    ensures var l := LabelLine(id, row);
      l != [] && l[|l| - 1] == '\n' && '\n' !in l[..|l| - 1]
  {
    LabelOneLine(row.text);
    var l := LabelLine(id, row);
    assert l[..|l| - 1] == id + "[label=\"" + row.name + "\\n " + EscapeLabel(row.text) + " \"]";
  }

  /** Node names as written collide: depth 1 at index 1100 and depth 11 at index 100 are both `11100`. */
  lemma NodeIdsCollide()
    ensures NodeId(1, 1100) == NodeId(11, 100)
  {
    assert DigitChar(0) == '0' && DigitChar(1) == '1';
    assert Dec(1) == "1";
    assert Dec(11) == "11";
    assert Dec(110) == "110";
    assert Dec(1100) == "1100";
    assert Dec(10) == "10";
    assert Dec(100) == "100";
  }

  /** Named by index alone, distinct rows always get distinct node names. */
  lemma IndexIdsDistinct(d: int, i: nat, e: int, j: nat)
    requires i != j
    ensures IndexId(d, i) != IndexId(e, j)
  {
    if Dec(i) == Dec(j) {
      DecInjective(i, j);
    }
  }

  /**
    The dump of a parse tree draws a tree: one edge into every node line but
    the first, each from an earlier node one level up, both ends declared.
   */
  lemma DumpDrawsTree(root: Tree, id: (int, nat) -> String)
    requires root.Rule?
    ensures var rows := Rows(root);
      && rows != [] && rows[0].depth == 0
      && |DotLines(rows, id)| == 2 * |rows| - 1
      && forall j | 1 <= j < |rows| ::
           && Parent(rows, j) < j && rows[Parent(rows, j)].depth + 1 == rows[j].depth
           && DotLines(rows, id)[|rows| + j - 1] == EdgeLine(id(rows[Parent(rows, j)].depth, Parent(rows, j)), id(rows[j].depth, j))
  {
    GenNested(root, false, 0);
    RowsDrawTree(Rows(root), id);
  }

  /** Rows nested from depth 0 give one edge into every node line but the first, from its parent. */
  lemma RowsDrawTree(rows: seq<Row>, id: (int, nat) -> String)
    requires Nested(rows, 0)
    ensures |DotLines(rows, id)| == 2 * |rows| - 1
    ensures forall j | 1 <= j < |rows| ::
      && Parent(rows, j) < j && rows[Parent(rows, j)].depth + 1 == rows[j].depth
      && DotLines(rows, id)[|rows| + j - 1] == EdgeLine(id(rows[Parent(rows, j)].depth, Parent(rows, j)), id(rows[j].depth, j))
  {
    EdgesJoinNodes(rows, id);
    forall j | 1 <= j < |rows|
      ensures rows[Parent(rows, j)].depth + 1 == rows[j].depth
    {
      ParentIsNearestShallower(rows, j);
    }
  }
}

=== FILE: classify.dfy ===
/**
  The three shape tests that decide how a snippet is wrapped:
  `looksLikeTypeDeclaration`, `looksLikeStatement` and
  `looksLikeMemberDeclaration`.
 */
module Classify {
  import opened Wrappers
  import opened Text
  import opened Comments

  // ---------------------------------------------------------------------------
  // The type-declaration pattern, as the set of texts it matches in full

  /** `[\w$.]`: a character of an annotation name after the first. */
  predicate IsNameChar(c: char) {
    IsWordChar(c) || c == '$' || c == '.'
  }

  predicate AllSpace(s: String) {
    forall k | 0 <= k < |s| :: IsSpace(s[k])
  }

  /** `\s*\([^)]*\)`: white space, then a parenthesised list with no `)` inside. */
  predicate ArgList(w: String) {
    exists q | 0 <= q < |w| ::
      && AllSpace(w[..q]) && w[q] == '(' && q + 2 <= |w| && w[|w| - 1] == ')'
      && forall k | q < k < |w| - 1 :: w[k] != ')'
  }

  /** `@[_A-Za-z][\w$.]*(?:\s*\([^)]*\))?\s*` with the name ending at `n` and the arguments at `p`. */
  predicate AnnotationAt(v: String, n: int, p: int) {
    && 2 <= n <= p <= |v| && v[0] == '@' && IsIdentStart(v[1])
    && (forall k | 2 <= k < n :: IsNameChar(v[k]))
    && (p == n || ArgList(v[n..p]))
    && AllSpace(v[p..])
  }

  predicate Annotation(v: String) {
    exists n, p | 2 <= n <= p <= |v| :: AnnotationAt(v, n, p)
  }

  /** Zero or more annotations, one after another. */
  predicate Annotations(u: String)
    decreases |u|
  {
    u == [] || exists k | 1 <= k <= |u| :: Annotation(u[..k]) && Annotations(u[k..])
  }

  const TypeModifiers: seq<String> := ["public", "protected", "private", "abstract", "static", "final", "strictfp"]

  /** `m\s+` for the modifier `m`. */
  predicate ModifierThen(v: String, m: String) {
    |m| < |v| && v[..|m|] == m && AllSpace(v[|m|..])
  }

  /** `(?:public|protected|private|abstract|static|final|strictfp)\s+`. */
  predicate ModifierUnit(v: String) {
    exists i | 0 <= i < |TypeModifiers| :: ModifierThen(v, TypeModifiers[i])
  }

  predicate Modifiers(u: String)
    decreases |u|
  {
    u == [] || exists k | 1 <= k <= |u| :: ModifierUnit(u[..k]) && Modifiers(u[k..])
  }

  const TypeKeywords: seq<String> := ["class", "interface", "enum"]

  /** `(class|interface|enum)\b.*`, where `.` stops at line terminators. */
  predicate KeywordLine(w: String) {
    exists i | 0 <= i < |TypeKeywords| :: KeywordThen(w, TypeKeywords[i])
  }

  /** `kw\b.*`. */
  predicate KeywordThen(w: String, kw: String) {
    && StartsWith(w, kw)
    && (|w| == |kw| || !IsWordChar(w[|kw|]))
    && forall k | |kw| <= k < |w| :: !IsLineTerminator(w[k])
  }

  /** `t.matches(typePattern)`: `t` splits into annotations, modifiers and a keyword line. */
  predicate TypeHeader(t: String) {
    exists i, j | 0 <= i <= j <= |t| :: Annotations(t[..i]) && Modifiers(t[i..j]) && KeywordLine(t[j..])
  }

  /** `looksLikeTypeDeclaration(snippet)`. */
  predicate LooksLikeTypeDeclaration(snippet: String) {
    var trimmed := Trim(StripLeadingComments(Some(snippet)));
    var lower := ToLower(trimmed);
    StartsWith(lower, "package ") || StartsWith(lower, "import ") || TypeHeader(trimmed)
  }

  // ---------------------------------------------------------------------------
  // Statements and members

  const StatementPrefixes: seq<String> := [
    "if ", "if(", "for ", "for(", "while ", "while(", "switch ", "switch(", "try ", "try{",
    "return ", "return;", "throw ", "do ", "break", "continue", "case ", "default"
  ]

  /** The lower-cased, trimmed text as `looksLikeStatement` and `looksLikeMemberDeclaration` see it. */
  function Lowered(s: String): String {
    Trim(ToLower(s))
  }

  /** `looksLikeStatement(snippet)`. */
  predicate LooksLikeStatement(snippet: String) {
    exists i | 0 <= i < |StatementPrefixes| :: StartsWith(Lowered(snippet), StatementPrefixes[i])
  }

  /** `looksLikeMemberDeclaration(snippet)`; the bracket tests look at the text as given. */
  predicate LooksLikeMemberDeclaration(snippet: String) {
    var lower := Lowered(snippet);
    if StartsWith(lower, "@") then true
    else if LooksLikeStatement(lower) then false
    else
      (Contains(snippet, "(") && Contains(snippet, ")") && Contains(snippet, "{") && Contains(snippet, "}"))
      || (Contains(snippet, ";") && !Contains(snippet, "class "))
  }

  // ---------------------------------------------------------------------------
  // Properties of the pattern

  /** Annotations start with `@`. */
  lemma AnnotationsStart(u: String)
    requires Annotations(u) && u != []
    ensures u[0] == '@'
  {
    var k :| 1 <= k <= |u| && Annotation(u[..k]) && Annotations(u[k..]);
    assert u[..k][0] == u[0];
  }

  /** Modifiers start with the first letter of one of them. */
  lemma ModifiersStart(u: String)
    requires Modifiers(u) && u != []
    ensures u[0] in "pasf"
  {
    var k :| 1 <= k <= |u| && ModifierUnit(u[..k]) && Modifiers(u[k..]);
    var v := u[..k];
    var i :| 0 <= i < |TypeModifiers| && ModifierThen(v, TypeModifiers[i]);
    assert v[0] == TypeModifiers[i][0];
  }

  /**
    Text that opens with neither `@` nor the first letter of a modifier can
    only match through the keyword line: it is a type header exactly when it
    starts with `class`, `interface` or `enum` as a whole word and the rest
    of it stays on one line.
   */
  lemma PlainTypeHeader(t: String)
    requires |t| > 0 && t[0] !in "@pasf"
    ensures TypeHeader(t) <==> KeywordLine(t)
  {
    if TypeHeader(t) {
      var i, j :| 0 <= i <= j <= |t| && Annotations(t[..i]) && Modifiers(t[i..j]) && KeywordLine(t[j..]);
      if i > 0 {
        AnnotationsStart(t[..i]);
      }
      if j > i {
        ModifiersStart(t[i..j]);
      }
      assert t[j..] == t;
    }
    if KeywordLine(t) {
      assert t[..0] == [] && t[0..0] == [] && t[0..] == t;
      assert Annotations(t[..0]) && Modifiers(t[0..0]) && KeywordLine(t[0..]);
    }
  }

  /**
    Backtracking into the annotation name: an annotation glued to the
    keyword, as in `@Fooclass X`, still matches, read as `@Foo` followed by
    `class X`.
   */
  lemma AnnotationGluedToKeyword(a: String, w: String)
    requires |a| >= 2 && a[0] == '@' && IsIdentStart(a[1])
    requires forall k | 2 <= k < |a| :: IsNameChar(a[k])
    requires KeywordLine(w)
    ensures TypeHeader(a + w)
  {
    var t := a + w;
    var n := |a|;
    assert t[..n] == a && t[n..] == w && t[n..n] == [];
    assert AnnotationAt(a, n, n);
    assert a[..n] == a && a[n..] == [];
    assert Annotations(a);
    assert Annotations(t[..n]) && Modifiers(t[n..n]) && KeywordLine(t[n..]);
  }

  lemma AnnotationBacktracks(t: String)
    requires t == "@Fooclass X"
    ensures TypeHeader(t)
  {
    var a, w := t[..4], t[4..];
    assert KeywordThen(w, TypeKeywords[0]) by {
      assert w[..5] == TypeKeywords[0];
      assert !IsWordChar(w[5]);
    }
    assert forall k | 2 <= k < |a| :: IsNameChar(a[k]);
    AnnotationGluedToKeyword(a, w);
    assert a + w == t;
  }

  lemma StartsWithFirst(s: String, p: String)
    requires |p| > 0 && StartsWith(s, p)
    ensures s[0] == p[0]
  {
    assert s[..|p|][0] == s[0];
  }

  /** Among the type keywords, text opening with `class` can only match `class`. */
  lemma KeywordLineClass(w: String)
    requires StartsWith(w, "class")
    ensures KeywordLine(w) <==> KeywordThen(w, "class")
  {
    StartsWithFirst(w, "class");
    if StartsWith(w, TypeKeywords[1]) {
      StartsWithFirst(w, TypeKeywords[1]);
    }
    if StartsWith(w, TypeKeywords[2]) {
      StartsWithFirst(w, TypeKeywords[2]);
    }
    assert TypeKeywords[0] == "class";
  }

  /**
    Text opening with the word `class` is a type declaration exactly when
    the whole declaration sits on one line.
   */
  lemma ClassOnOneLine(t: String)
    requires Trimmed(t) && StartsWith(t, "class") && (|t| == 5 || !IsWordChar(t[5]))
    ensures LooksLikeTypeDeclaration(t) <==> forall k | 5 <= k < |t| :: !IsLineTerminator(t[k])
  {
    StartsWithFirst(t, "class");
    StripNoComment(t);
    TrimOfTrimmed(t);
    var lower := ToLower(t);
    if StartsWith(lower, "package ") {
      StartsWithFirst(lower, "package ");
    }
    if StartsWith(lower, "import ") {
      StartsWithFirst(lower, "import ");
    }
    PlainTypeHeader(t);
    KeywordLineClass(t);
  }

  // ---------------------------------------------------------------------------
  // Statements are not members

  /** Lower-casing and trimming twice is lower-casing and trimming once. */
  lemma LoweredIdempotent(s: String)
    ensures Lowered(Lowered(s)) == Lowered(s)
  {
    ToLowerTrim(ToLower(s));
    ToLowerIdempotent(s);
    TrimIdempotent(ToLower(s));
  }

  /** Text that trims to something starting with `@` is a member. */
  lemma AtIsMember(s: String)
    requires StartsWith(Trim(s), "@")
    ensures LooksLikeMemberDeclaration(s)
  {
    ToLowerTrim(s);
    assert Lowered(s)[0] == LowerChar(Trim(s)[0]);
  }

  lemma PrefixesStartWithLetter()
    ensures forall i | 0 <= i < |StatementPrefixes| :: |StatementPrefixes[i]| > 0 && IsLetter(StatementPrefixes[i][0])
  {
  }

  /** No text is both a statement and a member declaration. */
  lemma StatementNotMember(s: String)
    requires LooksLikeStatement(s)
    ensures !LooksLikeMemberDeclaration(s)
  {
    var i :| 0 <= i < |StatementPrefixes| && StartsWith(Lowered(s), StatementPrefixes[i]);
    PrefixesStartWithLetter();
    StartsWithFirst(Lowered(s), StatementPrefixes[i]);
    assert !StartsWith(Lowered(s), "@");
    LoweredIdempotent(s);
    assert LooksLikeStatement(Lowered(s));
  }

  /** `default` needs no delimiter: `defaultValue = 1;` reads as a statement, so not as a member. */
  lemma DefaultValueIsStatement(s: String)
    requires s == "defaultValue = 1;"
    ensures LooksLikeStatement(s) && !LooksLikeMemberDeclaration(s)
  {
    var l := ToLower(s);
    assert Trimmed(l);
    TrimOfTrimmed(l);
    assert l[..7] == "default";
    assert StartsWith(Lowered(s), StatementPrefixes[17]);
    StatementNotMember(s);
  }
}

=== FILE: comments.dfy ===
/**
  `stripLeadingComments`: trim the snippet, then repeatedly drop a leading
  line comment or block comment (and trim again) until neither is left.
 */
module Comments {
  import opened Wrappers
  import opened Text

  /** Text that opens with a line or block comment. */
  predicate OpensComment(s: String) {
    StartsWith(s, "//") || StartsWith(s, "/*")
  }

  // One round of the loop and the rounds after it, from the text left so far.
  // A line comment ends at the first `\n`; a block comment at the first `*/`,
  // which `indexOf` may find overlapping the opener, as in `/*/`. A comment
  // with no end swallows the rest.
  function StripFrom(s: String): (r: String)
    ensures !OpensComment(r)
    ensures Trimmed(s) ==> Trimmed(r)
    ensures OpensComment(s) || r == s
    decreases |s|
  {
    if StartsWith(s, "//") then
      var nl := IndexOf(s, "\n");
      if nl >= 0 then StripFrom(Rest(s, nl + 1)) else []
    else if StartsWith(s, "/*") then
      var end := IndexOf(s, "*/");
      if end >= 0 then StripFrom(Rest(s, end + 2)) else []
    else s
  }

  /** `remaining.substring(from).trim()`. */
  function Rest(s: String, from: nat): (r: String)
    requires 0 < from <= |s|
    ensures |r| < |s| && Trimmed(r)
  {
    Trim(s[from..])
  }

  /** `stripLeadingComments(snippet)`; `None` stands for `null`. */
  function StripLeadingComments(snippet: Option<String>): (r: String)
    ensures !OpensComment(r) && Trimmed(r)
    ensures snippet.None? ==> r == []
  {
    match snippet
    case None => []
    case Some(s) => StripFrom(Trim(s))
  }

  /** Text the loop leaves behind is a fixed point: stripping again changes nothing. */
  lemma StripIdempotent(snippet: Option<String>)
    ensures StripLeadingComments(Some(StripLeadingComments(snippet))) == StripLeadingComments(snippet)
  {
    var r := StripLeadingComments(snippet);
    TrimOfTrimmed(r);
  }

  /** Trimmed text that opens with no comment comes back unchanged. */
  lemma StripNoComment(s: String)
    requires !OpensComment(Trim(s))
    ensures StripLeadingComments(Some(s)) == Trim(s)
  {
  }

  /** A block comment that is never closed swallows the whole snippet. */
  lemma StripUnterminatedBlock(s: String)
    requires StartsWith(Trim(s), "/*") && !Contains(Trim(s), "*/")
    ensures StripLeadingComments(Some(s)) == []
  {
  }

  /** A line comment with no line break after it swallows the whole snippet. */
  lemma StripUnterminatedLine(s: String)
    requires StartsWith(Trim(s), "//") && !Contains(Trim(s), "\n")
    ensures StripLeadingComments(Some(s)) == []
  {
  }

  /** A line comment and its line break go; stripping continues on the trimmed rest. */
  lemma StripLineComment(c: String, rest: String)
    requires StartsWith(c, "//") && !Contains(c, "\n")
    ensures StripFrom(c + "\n" + rest) == StripFrom(Trim(rest))
  {
    var s := c + "\n" + rest;
    assert s[..2] == c[..2];
    assert MatchAt(s, "\n", |c|);
    forall i | 0 <= i < |c| ensures !MatchAt(s, "\n", i) {
      assert s[i] == c[i];
      assert !MatchAt(c, "\n", i);
    }
    assert IndexOf(s, "\n") == |c|;
    assert s[|c| + 1..] == rest;
  }

  // The overlapping close: `/*/` ends the comment it opens.
  lemma StripOverlappingClose(rest: String)
    ensures StripFrom("/*/" + rest) == StripFrom(Trim(rest))
  {
    var s := "/*/" + rest;
    assert s[0] == '/' && s[1] == '*' && s[2] == '/';
    assert !StartsWith(s, "//");
    assert StartsWith(s, "/*");
    assert MatchAt(s, "*/", 1);
    assert !MatchAt(s, "*/", 0);
    assert IndexOf(s, "*/") == 1;
    assert s[3..] == rest;
    assert StripFrom(s) == StripFrom(Rest(s, 3));
  }
}

=== FILE: dirdot.dfy ===
/**
  The directory converter's two string steps: reading the header comment
  back from the first line of a generated source file, and naming the
  `.dot` output after the `.java` input.
 */
module DirDot {
  import opened Wrappers
  import opened Text
  import opened Escape
  import opened Wrap
  import opened Naming

  /** The text before the first line break, or all of it. */
  function FirstLine(s: String): (r: String)
    ensures '\n' !in r
    ensures StartsWith(s, r)
    ensures |r| < |s| ==> s[|r|] == '\n'
  {
    var nl := IndexOf(s, "\n");
    if nl >= 0 then
      assert forall k | 0 <= k < nl :: s[k] != '\n' by {
        forall k | 0 <= k < nl ensures s[k] != '\n' {
          assert !MatchAt(s, "\n", k);
        }
      }
      s[..nl]
    else
      assert forall k | 0 <= k < |s| :: s[k] != '\n' by {
        forall k | 0 <= k < |s| ensures s[k] != '\n' {
          assert !MatchAt(s, "\n", k);
        }
      }
      s
  }

  /**
    `extractHeader(source)`: the trimmed text after `//` when the trimmed
    first line is a line comment; `None` otherwise, and for a `null` source.
   */
  function ExtractHeader(source: Option<String>): (r: Option<String>)
    ensures source.None? ==> r.None?
    ensures r.Some? ==> Trimmed(r.value) && '\n' !in r.value
    ensures source.Some? ==> (r.Some? <==> StartsWith(Trim(FirstLine(source.value)), "//"))
  {
    if source.None? then None
    else
      var trimmed := Trim(FirstLine(source.value));
      if StartsWith(trimmed, "//") then
        TrimNoBreak(trimmed[2..]);
        Some(Trim(trimmed[2..]))
      else None
  }

  /** Trimming keeps a line a line. */
  lemma TrimNoBreak(s: String)
    ensures '\n' in Trim(s) ==> '\n' in s
  {
    var a := LeadingCut(s);
    var rest := s[a..];
    assert Trim(s) == rest[..TrailingKeep(rest)];
    if '\n' in Trim(s) {
      var i :| 0 <= i < |Trim(s)| && Trim(s)[i] == '\n';
      assert s[a + i] == '\n';
    }
  }

  /** Only the first line counts: whatever follows the first line break is never read. */
  lemma ExtractFirstLineOnly(line: String, rest: String)
    requires '\n' !in line
    ensures ExtractHeader(Some(line + "\n" + rest)) == ExtractHeader(Some(line))
  {
    var s := line + "\n" + rest;
    var f := FirstLine(s);
    WholeLine(line);
    assert s[|line|] == '\n';
    assert forall k | 0 <= k < |line| :: s[k] == line[k] && s[k] != '\n';
    assert |f| == |line|;
    assert f == s[..|f|] == line;
  }

  /** One space before trimmed text is trimmed away. */
  lemma TrimLeadingSpace(h: String)
    requires h != [] && Trimmed(h)
    ensures Trim(" " + h) == h
  {
    var s := " " + h;
    assert s[1..] == h;
    assert LeadingCut(s) == 1;
  }

  /**
    The header comment reads back: a non-empty header with no line break and
    nothing `trim` would cut at its ends comes back unchanged, whatever
    source follows it.
   */
  lemma HeaderRoundTrip(h: String, source: String)
    requires h != [] && '\n' !in h && Trimmed(h)
    ensures ExtractHeader(Some(AddHeaderComment(Some(h), source))) == Some(h)
  {
    var line := "// " + h;
    assert AddHeaderComment(Some(h), source) == line + "\n" + source;
    ExtractFirstLineOnly(line, source);
    CommentLine(h);
  }

  lemma CommentLine(h: String)
    requires h != [] && '\n' !in h && Trimmed(h)
    ensures ExtractHeader(Some("// " + h)) == Some(h)
  {
    var line := "// " + h;
    assert '\n' !in line;
    WholeLine(line);
    assert Trimmed(line) by {
      assert line[0] == '/' && line[|line| - 1] == h[|h| - 1];
    }
    TrimOfTrimmed(line);
    assert StartsWith(line, "//");
    assert line[2..] == " " + h;
    TrimLeadingSpace(h);
  }

  /** Text without a line break is its own first line. */
  lemma WholeLine(s: String)
    requires '\n' !in s
    ensures FirstLine(s) == s
  {
    var r := FirstLine(s);
    assert r == s[..|r|];
  }

  /** Without a header the first line of the source decides alone. */
  lemma NoHeaderPassesThrough(source: String)
    ensures ExtractHeader(Some(AddHeaderComment(None, source))) == ExtractHeader(Some(source))
    ensures ExtractHeader(Some(AddHeaderComment(Some([]), source))) == ExtractHeader(Some(source))
  {
  }

  // ---------------------------------------------------------------------------
  // The generated header survives the round trip

  lemma {:induction false} JoinNoBreak(y: seq<bool>, sep: String)
    requires |y| >= 1 && '\n' !in sep
    ensures '\n' !in JoinBools(y, sep)
  {
    if |y| > 1 {
      JoinNoBreak(y[1..], sep);
    }
  }

  lemma IntNoBreak(i: int)
    ensures '\n' !in IntToString(i)
  {
  }

  /** A header built from a sample whose commit and path have no line break is one trimmed line. */
  lemma BuildHeaderOneLine(entry: SampleEntry, index: int)
    requires entry.commitHash.Some? ==> '\n' !in entry.commitHash.value
    requires entry.filePath.Some? ==> '\n' !in entry.filePath.value
    ensures var h := BuildHeader(entry, index);
      h != [] && '\n' !in h && Trimmed(h)
  {
    var raw := RawHeader(entry, index);
    RawHeaderOneLine(entry, index);
    EscapeKeepsOther(HeaderCode, raw, '\n');
    EscapeEnds(HeaderCode, raw);
  }

  lemma RawHeaderOneLine(entry: SampleEntry, index: int)
    requires entry.commitHash.Some? ==> '\n' !in entry.commitHash.value
    requires entry.filePath.Some? ==> '\n' !in entry.filePath.value
    ensures var raw := RawHeader(entry, index);
      raw != [] && '\n' !in raw && raw[0] == 'j' && raw[|raw| - 1] == ']'
  {
    var fs := HeaderFields(entry);
    var sb := "json_index=" + IntToString(index);
    IntNoBreak(index);
    assert sb[0] == 'j' && '\n' !in sb;
    HeaderFieldsNoBreak(entry);
    FieldsNoBreak(sb, fs);
    FormatYOneLine(entry);
    assert fs[|fs| - 1].1.value == FormatY(entry);
  }

  lemma HeaderFieldsNoBreak(entry: SampleEntry)
    requires entry.commitHash.Some? ==> '\n' !in entry.commitHash.value
    requires entry.filePath.Some? ==> '\n' !in entry.filePath.value
    ensures var fs := HeaderFields(entry);
      forall i | 0 <= i < |fs| :: '\n' !in fs[i].0 && (fs[i].1.Some? ==> '\n' !in fs[i].1.value)
  {
    FormatYOneLine(entry);
    IntNoBreak(entry.startLine);
    IntNoBreak(entry.endLine);
  }

  /** Appending fields without line breaks keeps one line, its first character, and ends with the last value. */
  lemma {:induction false} FieldsNoBreak(sb: String, fs: seq<(String, Option<String>)>)
    requires sb != [] && '\n' !in sb
    requires forall i | 0 <= i < |fs| :: '\n' !in fs[i].0 && (fs[i].1.Some? ==> '\n' !in fs[i].1.value)
    ensures var r := AppendFields(sb, fs);
      && r != [] && '\n' !in r && r[0] == sb[0]
      && (fs != [] && fs[|fs| - 1].1.Some? && fs[|fs| - 1].1.value != [] ==>
            r[|r| - 1] == fs[|fs| - 1].1.value[|fs[|fs| - 1].1.value| - 1])
    decreases |fs|
  {
    if fs != [] {
      var next := AppendHeaderField(sb, fs[0].0, fs[0].1);
      FieldNoBreak(sb, fs[0].0, fs[0].1);
      FieldsNoBreak(next, fs[1..]);
      if |fs| == 1 {
        assert AppendFields(next, fs[1..]) == next;
      }
    }
  }

  lemma FormatYOneLine(entry: SampleEntry)
    ensures var y := FormatY(entry);
      y != [] && '\n' !in y && y[|y| - 1] == ']'
  {
    JoinNoBreak(ResolveY(entry), ", ");
  }

  lemma FieldNoBreak(sb: String, key: String, value: Option<String>)
    requires sb != [] && '\n' !in sb && '\n' !in key
    requires value.Some? ==> '\n' !in value.value
    ensures var r := AppendHeaderField(sb, key, value);
      r != [] && '\n' !in r && r[0] == sb[0]
  {
  }

  /** What `buildJavaSource` writes, `extractHeader` reads back, for any snippet. */
  lemma GeneratedHeaderReadsBack(entry: SampleEntry, index: int, snippet: Option<String>)
    requires entry.commitHash.Some? ==> '\n' !in entry.commitHash.value
    requires entry.filePath.Some? ==> '\n' !in entry.filePath.value
    ensures var h := BuildHeader(entry, index);
      ExtractHeader(Some(BuildJavaSource(snippet, Some(h)))) == Some(h)
  {
    var h := BuildHeader(entry, index);
    BuildHeaderOneLine(entry, index);
    HeaderRoundTrip(h, SelectWrapCandidate(snippet).value.source);
  }

  // ---------------------------------------------------------------------------
  // Output file name

  /** The output name: `.java` replaced by `.dot` at the end, or `.dot` appended. */
  function DotFileName(fileName: String): (r: String)
    ensures EndsWith(r, ".dot")
    ensures EndsWith(fileName, ".java") ==> |r| == |fileName| - 1 && StartsWith(r, fileName[..|fileName| - 5])
    ensures !EndsWith(fileName, ".java") ==> StartsWith(r, fileName) && |r| == |fileName| + 4
  {
    if EndsWith(fileName, ".java") then fileName[..|fileName| - 5] + ".dot"
    else fileName + ".dot"
  }

  /** Two `.java` inputs in one directory never share an output name. */
  lemma DotFileNameInjective(a: String, b: String)
    requires EndsWith(a, ".java") && EndsWith(b, ".java")
    requires DotFileName(a) == DotFileName(b)
    ensures a == b
  {
    var sa, sb := a[..|a| - 5], b[..|b| - 5];
    assert sa == DotFileName(a)[..|sa|];
    assert sb == DotFileName(b)[..|sb|];
    assert a == sa + ".java" && b == sb + ".java";
  }

  /**
    The single-file converter renames with `replace(".java", ".dot")`, which
    rewrites every occurrence; for a name whose only `.java` is its extension
    the two renamings agree.
   */
  lemma RenamesAgree(stem: String)
    requires forall i | 0 <= i < |stem| :: !MatchAt(stem + ".java", ".java", i)
    ensures ReplaceAll(stem + ".java", ".java", ".dot") == DotFileName(stem + ".java")
  {
    var name := stem + ".java";
    ReplaceSkip(stem, ".java", ".java", ".dot");
    assert ".java" + [] == ".java";
    ReplaceHead([], ".java", ".dot");
    assert ReplaceAll(".java", ".java", ".dot") == ".dot";
    assert name[|name| - 5..] == ".java";
    assert name[..|name| - 5] == stem;
  }

  /** A `.java` inside the name is where they part: `a.java.java` gives `a.dot.dot` there and `a.java.dot` here. */
  lemma RenamesDiffer(name: String)
    requires name == "a.java.java"
    ensures ReplaceAll(name, ".java", ".dot") == "a.dot.dot"
    ensures DotFileName(name) == "a.java.dot"
  {
    assert name == "a" + (".java" + ".java");
    assert name[0] == 'a';
    assert !MatchAt(name, ".java", 0);
    ReplaceSkip("a", ".java" + ".java", ".java", ".dot");
    ReplaceHead(".java", ".java", ".dot");
    ReplaceHead([], ".java", ".dot");
    assert ".java" + [] == ".java";
    assert name[..|name| - 5] == "a.java";
  }
}

=== FILE: escape.dfy ===
/**
  Backslash escaping, as a chain of `replace` calls performs it: each
  character is either kept or written as a backslash and a code letter.
  The header line and the node labels both escape this way, with
  different tables.
 */
module Escape {
  import opened Wrappers
  import opened Text

  /** Each character replaced by its image, the images concatenated. */
  function FlatMap(s: String, f: char -> String): (r: String)
    ensures s == [] ==> r == []
  {
    if s == [] then [] else f(s[0]) + FlatMap(s[1..], f)
  }

  lemma {:induction false} FlatMapConcat(a: String, b: String, f: char -> String)
    ensures FlatMap(a + b, f) == FlatMap(a, f) + FlatMap(b, f)
  {
    if a != [] {
      assert (a + b)[1..] == a[1..] + b;
      FlatMapConcat(a[1..], b, f);
    } else {
      assert a + b == b;
    }
  }

  /** Replacing one character everywhere is a flat map. */
  lemma {:induction false} SubstIsFlatMap(s: String, c: char, r: String)
    ensures SubstChar(s, c, r) == FlatMap(s, x => if x == c then r else [x])
  {
    if s != [] {
      SubstIsFlatMap(s[1..], c, r);
    }
  }

  /** Two flat maps in a row are one, with the second applied to each image of the first. */
  lemma {:induction false} FlatMapFuse(s: String, f: char -> String, g: char -> String)
    ensures FlatMap(FlatMap(s, f), g) == FlatMap(s, x => FlatMap(f(x), g))
  {
    if s != [] {
      FlatMapConcat(f(s[0]), FlatMap(s[1..], f), g);
      FlatMapFuse(s[1..], f, g);
    }
  }

  /** Flat maps with the same images agree. */
  lemma {:induction false} FlatMapSame(s: String, f: char -> String, g: char -> String)
    requires forall i | 0 <= i < |s| :: f(s[i]) == g(s[i])
    ensures FlatMap(s, f) == FlatMap(s, g)
  {
    if s != [] {
      FlatMapSame(s[1..], f, g);
    }
  }

  /** `replace` of a one-character pattern, as a flat map. */
  lemma ReplaceIsFlatMap(s: String, c: char, r: String)
    ensures ReplaceAll(s, [c], r) == FlatMap(s, x => if x == c then r else [x])
  {
    ReplaceCharIsSubst(s, c, r);
    SubstIsFlatMap(s, c, r);
  }

  // ---------------------------------------------------------------------------
  // Escape tables

  /** The image of `c` under a table that gives each escaped character its code letter. */
  function EscapeChar(code: char -> Option<char>, c: char): (r: String)
    ensures |r| == 1 <==> code(c).None?
  {
    if code(c).Some? then ['\\', code(c).value] else [c]
  }

  function EscapeWith(code: char -> Option<char>, s: String): (r: String)
  {
    FlatMap(s, c => EscapeChar(code, c))
  }

  /** Reading escapes back: a backslash and a known code letter stand for the character escaped. */
  function UnescapeWith(decode: char -> Option<char>, s: String): (r: String)
    decreases |s|
  {
    if s == [] then []
    else if s[0] == '\\' && |s| >= 2 && decode(s[1]).Some? then [decode(s[1]).value] + UnescapeWith(decode, s[2..])
    else [s[0]] + UnescapeWith(decode, s[1..])
  }

  /** A table whose codes `decode` reads back, and that escapes the backslash itself. */
  ghost predicate Invertible(code: char -> Option<char>, decode: char -> Option<char>) {
    && code('\\').Some?
    && forall c :: code(c).Some? ==> decode(code(c).value) == Some(c)
  }

  /** Escaping loses nothing: reading the escapes back gives the text. */
  lemma {:induction false} UnescapeEscape(code: char -> Option<char>, decode: char -> Option<char>, s: String)
    requires Invertible(code, decode)
    ensures UnescapeWith(decode, EscapeWith(code, s)) == s
  {
    if s != [] {
      var e := EscapeChar(code, s[0]);
      var rest := EscapeWith(code, s[1..]);
      assert EscapeWith(code, s) == e + rest;
      UnescapeEscape(code, decode, s[1..]);
      if code(s[0]).Some? {
        assert (e + rest)[2..] == rest;
      } else {
        assert (e + rest)[1..] == rest;
      }
    }
  }

  /** A character that has a code, and is no code letter, never appears bare in the escaped text. */
  lemma {:induction false} EscapedHidesChar(code: char -> Option<char>, s: String, c: char)
    requires code(c).Some? && c != '\\'
    requires forall x :: code(x) != Some(c)
    ensures c !in EscapeWith(code, s)
  {
    if s != [] {
      EscapedHidesChar(code, s[1..], c);
      assert EscapeWith(code, s) == EscapeChar(code, s[0]) + EscapeWith(code, s[1..]);
    }
  }

  /** A character that is neither escaped nor a code letter appears in the escaped text exactly when it appears in the text. */
  lemma {:induction false} EscapeKeepsOther(code: char -> Option<char>, s: String, c: char)
    requires code(c).None? && c != '\\'
    requires forall x :: code(x) != Some(c)
    ensures c in EscapeWith(code, s) <==> c in s
  {
    if s != [] {
      EscapeKeepsOther(code, s[1..], c);
      assert EscapeWith(code, s) == EscapeChar(code, s[0]) + EscapeWith(code, s[1..]);
      assert s == [s[0]] + s[1..];
    }
  }

  /** Characters without a code stay where they are at both ends. */
  lemma EscapeEnds(code: char -> Option<char>, s: String)
    requires s != [] && code(s[0]).None? && code(s[|s| - 1]).None?
    ensures var e := EscapeWith(code, s);
      e != [] && e[0] == s[0] && e[|e| - 1] == s[|s| - 1]
  {
    var n := |s| - 1;
    assert s == s[..n] + [s[n]];
    FlatMapConcat(s[..n], [s[n]], c => EscapeChar(code, c));
    assert FlatMap([s[n]], c => EscapeChar(code, c)) == [s[n]];
  }

  // ---------------------------------------------------------------------------
  // Building a table one `replace` at a time

  /** The table that escapes only the backslash, by itself. */
  function BackslashOnly(c: char): Option<char> {
    if c == '\\' then Some('\\') else None
  }

  /** The table `code` with `c` escaped as backslash and `e` as well. */
  function With(code: char -> Option<char>, c: char, e: char): char -> Option<char> {
    x => if x == c then Some(e) else code(x)
  }

  /** `d` has no code in the table and is no table's code letter: a `replace` of `d` meets only original occurrences. */
  ghost predicate Fresh(code: char -> Option<char>, d: char) {
    code(d).None? && forall x :: code(x) != Some(d)
  }

  lemma BackslashFresh(d: char)
    requires d != '\\'
    ensures Fresh(BackslashOnly, d)
  {
  }

  /** Adding a code for another character, with another letter, keeps `d` fresh. */
  lemma WithFresh(code: char -> Option<char>, c: char, e: char, d: char)
    requires Fresh(code, d) && d != c && d != e
    ensures Fresh(With(code, c, e), d)
  {
    forall x ensures With(code, c, e)(x) != Some(d) {
      WithAt(code, c, e, x);
    }
    WithAt(code, c, e, d);
  }

  lemma WithAt(code: char -> Option<char>, c: char, e: char, x: char)
    ensures With(code, c, e)(x) == if x == c then Some(e) else code(x)
  {
  }

  /** `s.replace("\\", "\\\\")`: the first step of every escape chain. */
  lemma EscapeFirst(s: String)
    ensures ReplaceAll(s, "\\", "\\\\") == EscapeWith(BackslashOnly, s)
  {
    ReplaceIsFlatMap(s, '\\', "\\\\");
    FlatMapSame(s, x => if x == '\\' then "\\\\" else [x], c => EscapeChar(BackslashOnly, c));
  }

  /**
    One more `replace` of a character by a backslash and a letter extends
    the table, provided the character is not produced by the steps before:
    it is no backslash, not escaped yet, and no code letter.
   */
  lemma EscapeStep(code: char -> Option<char>, c: char, e: char, s: String)
    requires c != '\\' && Fresh(code, c)
    ensures ReplaceAll(EscapeWith(code, s), [c], ['\\', e]) == EscapeWith(With(code, c, e), s)
  {
    var f := x => EscapeChar(code, x);
    var g := x => if x == c then ['\\', e] else [x];
    var h := x => EscapeChar(With(code, c, e), x);
    assert EscapeWith(code, s) == FlatMap(s, f);
    ReplaceIsFlatMap(FlatMap(s, f), c, ['\\', e]);
    assert ReplaceAll(EscapeWith(code, s), [c], ['\\', e]) == FlatMap(FlatMap(s, f), g);
    FlatMapFuse(s, f, g);
    forall i | 0 <= i < |s|
      ensures (x => FlatMap(f(x), g))(s[i]) == h(s[i])
    {
      var x := s[i];
      var img := EscapeChar(code, x);
      if code(x).Some? {
        assert img == ['\\'] + [code(x).value];
        FlatMapConcat(['\\'], [code(x).value], g);
      } else {
        assert FlatMap(img, g) == g(x) + FlatMap([], g);
      }
    }
    FlatMapSame(s, x => FlatMap(f(x), g), h);
    assert EscapeWith(With(code, c, e), s) == FlatMap(s, h);
  }

  /** Tables that agree on every character escape alike. */
  lemma EscapeSameTable(code: char -> Option<char>, other: char -> Option<char>, s: String)
    requires forall c :: code(c) == other(c)
    ensures EscapeWith(code, s) == EscapeWith(other, s)
  {
    var f := x => EscapeChar(code, x);
    var g := x => EscapeChar(other, x);
    FlatMapSame(s, f, g);
    assert EscapeWith(code, s) == FlatMap(s, f);
    assert EscapeWith(other, s) == FlatMap(s, g);
  }
}

=== FILE: masking.dfy ===
/**
  String and character literal masking (`maskStringLiterals` /
  `unmaskStringLiterals`): every literal of a fragment is replaced by a
  numbered placeholder `__STR<i>__` before the normaliser rewrites the text,
  and put back afterwards.
 */
module Masking {
  import opened Text

  /** A literal together with the plain text that precedes it. */
  datatype Piece = Piece(pre: String, lit: String)

  /** The fragment split at its literals: pieces in order, then trailing plain text. */
  datatype Split = Split(pieces: seq<Piece>, tail: String)

  /** The pair `maskStringLiterals` returns. */
  datatype MaskedText = MaskedText(text: String, literals: seq<String>)

  predicate IsQuote(c: char) {
    c == '"' || c == '\''
  }

  /** The placeholder standing for literal number `i`. */
  function Placeholder(i: nat): (t: String)
    ensures |t| == 7 + |Dec(i)|
    ensures t[..5] == "__STR" && t[|t| - 2..] == "__"
  {
    "__STR" + Dec(i) + "__"
  }

  // ---------------------------------------------------------------------------
  // The scanner

  /**
    Reads the inside of a literal opened by `quote`, up to and including the
    closing quote: the first quote of its kind that no backslash escapes.
    Returns the characters read and the text after them; at end of input the
    literal is cut off where the text ends.
   */
  function ScanLiteral(s: String, quote: char, escaped: bool): (r: (String, String))
    ensures r.0 + r.1 == s
    ensures r.1 != [] ==> |r.0| > 0 && r.0[|r.0| - 1] == quote
    ensures forall k | 0 <= k < |r.0| - 1 :: !Closes(r.0, quote, escaped, k)
    ensures r.1 != [] ==> Closes(r.0, quote, escaped, |r.0| - 1)
  {
    if s == [] then ([], [])
    else if escaped then
      var (body, rest) := ScanLiteral(s[1..], quote, false);
      ClosesAfterFirst(s[0], body, quote, escaped);
      ([s[0]] + body, rest)
    else if s[0] == quote then ([s[0]], s[1..])
    else
      var (body, rest) := ScanLiteral(s[1..], quote, s[0] == '\\');
      ClosesAfterFirst(s[0], body, quote, escaped);
      ([s[0]] + body, rest)
  }

  /**
    Whether the character at `k` of a literal's inside is escaped, when the
    first one is escaped exactly if `e`: a backslash that is not itself
    escaped escapes the character after it, and only that one.
   */
  predicate EscapedAt(s: String, e: bool, k: nat)
    requires k <= |s|
  {
    if k == 0 then e else !EscapedAt(s, e, k - 1) && s[k - 1] == '\\'
  }

  /** The character at `k` is `quote` and no backslash escapes it: it closes the literal. */
  predicate Closes(s: String, quote: char, e: bool, k: nat)
    requires k < |s|
  {
    s[k] == quote && !EscapedAt(s, e, k)
  }

  /** Dropping the first character carries its escape state over to the rest. */
  lemma {:induction false} EscapedShift(s: String, e: bool, k: nat)
    requires 1 <= k <= |s|
    ensures EscapedAt(s[1..], EscapedAt(s, e, 1), k - 1) == EscapedAt(s, e, k)
  {
    if k > 1 {
      EscapedShift(s, e, k - 1);
      assert s[1..][k - 2] == s[k - 1];
    }
  }

  lemma ClosesShift(s: String, quote: char, e: bool, k: nat)
    requires 1 <= k < |s|
    ensures Closes(s[1..], quote, EscapedAt(s, e, 1), k - 1) == Closes(s, quote, e, k)
  {
    EscapedShift(s, e, k);
  }

  /** Past the first character, closing is decided by the rest with the escape state the first leaves. */
  lemma ClosesAfterFirst(c: char, body: String, quote: char, e: bool)
    ensures var t := [c] + body;
      forall k | 1 <= k < |t| :: Closes(t, quote, e, k) == Closes(body, quote, !e && c == '\\', k - 1)
  {
    var t := [c] + body;
    assert t[1..] == body;
    forall k | 1 <= k < |t| ensures Closes(t, quote, e, k) == Closes(body, quote, !e && c == '\\', k - 1) {
      ClosesShift(t, quote, e, k);
    }
  }

  /** A backslash that is not itself escaped keeps the quote after it from closing the literal. */
  lemma EscapedQuoteStaysOpen(s: String, quote: char, e: bool, k: nat)
    requires k + 1 < |s| && s[k] == '\\' && s[k + 1] == quote && !EscapedAt(s, e, k)
    ensures var r := ScanLiteral(s, quote, e);
      !(r.1 != [] && |r.0| == k + 2)
  {
    var r := ScanLiteral(s, quote, e);
    if r.1 != [] && |r.0| == k + 2 {
      EscapedPrefix(r.0, s, e, k);
      assert false;
    }
  }

  /** The escape state at `k` depends only on the characters before `k`. */
  lemma {:induction false} EscapedPrefix(a: String, s: String, e: bool, k: nat)
    requires k <= |a| <= |s| && a == s[..|a|]
    ensures EscapedAt(a, e, k) == EscapedAt(s, e, k)
  {
    if k > 0 {
      EscapedPrefix(a, s, e, k - 1);
      assert a[k - 1] == s[k - 1];
    }
  }

  /** The three-state scan of `maskStringLiterals`, outside any literal. */
  function Scan(s: String): (r: Split)
    decreases |s|
    ensures Orig(r.pieces) + r.tail == s
    ensures WellFormed(r)
    ensures forall i | 0 <= i < |r.tail| :: !IsQuote(r.tail[i])
    ensures Lexed(r)
  {
    if s == [] then Split([], [])
    else if IsQuote(s[0]) then
      var (body, rest) := ScanLiteral(s[1..], s[0], false);
      var sp := Scan(rest);
      assert s == ([s[0]] + body) + rest;
      QuotedLiteral(s[1..], s[0]);
      LexedAddLiteral([s[0]] + body, sp);
      AddLiteral([s[0]] + body, sp)
    else
      var sp := Scan(s[1..]);
      assert s == [s[0]] + s[1..];
      LexedAddPlain(s[0], sp);
      AddPlain(s[0], sp)
  }

  /** A literal in front of the rest of the split. */
  function AddLiteral(lit: String, sp: Split): (r: Split)
    requires |lit| > 0 && IsQuote(lit[0]) && WellFormed(sp)
    requires Sealed(lit) || (sp.pieces == [] && sp.tail == [])
    ensures Orig(r.pieces) + r.tail == lit + (Orig(sp.pieces) + sp.tail)
    ensures WellFormed(r) && r.tail == sp.tail
  {
    var r := Split([Piece([], lit)] + sp.pieces, sp.tail);
    assert r.pieces[1..] == sp.pieces;
    r
  }

  /** A plain character in front of the rest of the split. */
  function AddPlain(c: char, sp: Split): (r: Split)
    requires !IsQuote(c) && WellFormed(sp)
    requires forall i | 0 <= i < |sp.tail| :: !IsQuote(sp.tail[i])
    ensures Orig(r.pieces) + r.tail == [c] + (Orig(sp.pieces) + sp.tail)
    ensures WellFormed(r)
    ensures forall i | 0 <= i < |r.tail| :: !IsQuote(r.tail[i])
  {
    if sp.pieces == [] then Split([], [c] + sp.tail)
    else
      var r := Split([Piece([c] + sp.pieces[0].pre, sp.pieces[0].lit)] + sp.pieces[1..], sp.tail);
      assert r.pieces[1..] == sp.pieces[1..];
      assert Orig(sp.pieces) == sp.pieces[0].pre + sp.pieces[0].lit + Orig(sp.pieces[1..]);
      r
  }

  /**
    What the scanner promises of its pieces: every literal starts with its
    quote, and every literal but a cut-off last one also ends with it.
   */
  predicate WellFormed(sp: Split) {
    && (forall i | 0 <= i < |sp.pieces| :: |sp.pieces[i].lit| > 0 && IsQuote(sp.pieces[i].lit[0]))
    && (forall i | 0 <= i < |sp.pieces| ::
          Sealed(sp.pieces[i].lit) || (i == |sp.pieces| - 1 && sp.tail == []))
  }

  predicate NoQuote(s: String) {
    forall i | 0 <= i < |s| :: !IsQuote(s[i])
  }

  /** A literal as the scanner reads it: opened by a quote, and closed by nothing before its last character. */
  predicate OpenLiteral(lit: String) {
    |lit| > 0 && IsQuote(lit[0]) && forall k | 0 <= k < |lit| - 2 :: !Closes(lit[1..], lit[0], false, k)
  }

  /** The last character of the literal closes it. */
  predicate ClosedLiteral(lit: String) {
    |lit| >= 2 && Closes(lit[1..], lit[0], false, |lit| - 2)
  }

  /**
    Where the scanner puts its literals: plain text holds no quote, every
    literal opens at a quote and runs to the first quote of its kind that no
    backslash escapes, and only a literal that reaches the end of the text
    may stay open.
   */
  predicate Lexed(sp: Split) {
    && (forall i | 0 <= i < |sp.pieces| :: NoQuote(sp.pieces[i].pre) && OpenLiteral(sp.pieces[i].lit))
    && (forall i | 0 <= i < |sp.pieces| ::
          ClosedLiteral(sp.pieces[i].lit) || (i == |sp.pieces| - 1 && sp.tail == []))
    && NoQuote(sp.tail)
  }

  /** The literal ends with the quote that opened it. */
  predicate Sealed(lit: String) {
    |lit| >= 2 && lit[|lit| - 1] == lit[0]
  }

  /** A quote and what `ScanLiteral` reads after it form a literal, closed when text follows. */
  lemma QuotedLiteral(t: String, quote: char)
    requires IsQuote(quote)
    ensures var r := ScanLiteral(t, quote, false);
      OpenLiteral([quote] + r.0) && (r.1 != [] ==> ClosedLiteral([quote] + r.0))
  {
    var lit := [quote] + ScanLiteral(t, quote, false).0;
    assert lit[1..] == ScanLiteral(t, quote, false).0 && lit[0] == quote;
    forall k | 0 <= k < |lit| - 2 ensures !Closes(lit[1..], lit[0], false, k) {
      assert !Closes(ScanLiteral(t, quote, false).0, quote, false, k);
    }
  }

  lemma LexedAddLiteral(lit: String, sp: Split)
    requires |lit| > 0 && IsQuote(lit[0]) && WellFormed(sp)
    requires Sealed(lit) || (sp.pieces == [] && sp.tail == [])
    requires OpenLiteral(lit) && Lexed(sp)
    requires ClosedLiteral(lit) || (sp.pieces == [] && sp.tail == [])
    ensures Lexed(AddLiteral(lit, sp))
  {
    var r := AddLiteral(lit, sp);
    assert r.pieces[0].pre == [];
    assert forall i | 1 <= i < |r.pieces| :: r.pieces[i] == sp.pieces[i - 1];
  }

  lemma LexedAddPlain(c: char, sp: Split)
    requires !IsQuote(c) && WellFormed(sp) && Lexed(sp)
    requires forall i | 0 <= i < |sp.tail| :: !IsQuote(sp.tail[i])
    ensures Lexed(AddPlain(c, sp))
  {
    var r := AddPlain(c, sp);
    if sp.pieces != [] {
      assert r.pieces[0].pre == [c] + sp.pieces[0].pre;
      assert forall i | 1 <= i < |r.pieces| :: r.pieces[i] == sp.pieces[i];
    }
  }

  /** The original text: each piece's plain text followed by its literal. */
  function Orig(ps: seq<Piece>): String {
    if ps == [] then [] else ps[0].pre + ps[0].lit + Orig(ps[1..])
  }

  /** The masked text: each literal replaced by its placeholder, numbered from `k`. */
  function Masked(ps: seq<Piece>, k: nat): String {
    if ps == [] then [] else ps[0].pre + Placeholder(k) + Masked(ps[1..], k + 1)
  }

  function Lits(ps: seq<Piece>): (ls: seq<String>)
    ensures |ls| == |ps| && forall i | 0 <= i < |ps| :: ls[i] == ps[i].lit
  {
    seq(|ps|, i requires 0 <= i < |ps| => ps[i].lit)
  }

  /**
    `maskStringLiterals`: the text with literal `i` replaced by `__STR<i>__`,
    and the literals in order. Text and literals interleave back into the input.
   */
  function Mask(input: String): (r: MaskedText)
    ensures var sp := Scan(input);
      && Orig(sp.pieces) + sp.tail == input
      && r.text == Masked(sp.pieces, 0) + sp.tail
      && r.literals == Lits(sp.pieces)
    ensures forall i | 0 <= i < |r.literals| ::
      |r.literals[i]| > 0 && IsQuote(r.literals[i][0])
  {
    var sp := Scan(input);
    MaskedText(Masked(sp.pieces, 0) + sp.tail, Lits(sp.pieces))
  }

  /** `unmaskStringLiterals`: replace every `__STR<i>__` by literal `i`, for i = 0, 1, ... in turn. */
  function Unmask(text: String, literals: seq<String>): String {
    UnmaskFrom(text, literals, 0)
  }

  function UnmaskFrom(text: String, literals: seq<String>, i: nat): String
    decreases |literals| - i
  {
    if i >= |literals| then text
    else UnmaskFrom(ReplaceAll(text, Placeholder(i), literals[i]), literals, i + 1)
  }

  // ---------------------------------------------------------------------------
  // Text free of "STR"

  predicate StrAt(s: String, i: int) {
    0 <= i && i + 3 <= |s| && s[i] == 'S' && s[i + 1] == 'T' && s[i + 2] == 'R'
  }

  predicate StrFree(s: String) {
    forall i | 0 <= i < |s| :: !StrAt(s, i)
  }

  lemma StrFreeIffNoMatch(s: String)
    ensures StrFree(s) <==> !Contains(s, "STR")
  {
    if !StrFree(s) {
      var i :| 0 <= i < |s| && StrAt(s, i);
      assert s[i..i + 3] == [s[i], s[i + 1], s[i + 2]];
      assert MatchAt(s, "STR", i);
    }
    if Contains(s, "STR") {
      var i :| 0 <= i <= |s| && MatchAt(s, "STR", i);
      assert s[i..i + 3] == "STR";
      assert StrAt(s, i);
    }
  }

  /** A piece of "STR"-free text is "STR"-free. */
  lemma StrFreeSlice(s: String, i: int, j: int)
    requires 0 <= i <= j <= |s|
    requires StrFree(s)
    ensures StrFree(s[i..j])
  {
    forall k ensures !StrAt(s[i..j], k) {
      if StrAt(s[i..j], k) {
        assert StrAt(s, i + k);
      }
    }
  }

  lemma StrFreeParts(a: String, b: String)
    requires StrFree(a + b)
    ensures StrFree(a) && StrFree(b)
  {
    assert a == (a + b)[..|a|];
    assert b == (a + b)[|a|..];
    StrFreeSlice(a + b, 0, |a|);
    StrFreeSlice(a + b, |a|, |a + b|);
    assert (a + b)[|a|..|a + b|] == b;
  }

  /** Two "STR"-free texts stay so when joined, unless "S|TR" or "ST|R" forms at the seam. */
  lemma StrFreeJoin(a: String, b: String)
    requires StrFree(a) && StrFree(b)
    requires a == [] || b == [] || !(a[|a| - 1] in "ST") || !(b[0] in "TR")
    ensures StrFree(a + b)
  {
    forall i ensures !StrAt(a + b, i) {
      if StrAt(a + b, i) {
        if i + 3 <= |a| {
          assert StrAt(a, i);
        } else if i >= |a| {
          assert StrAt(b, i - |a|);
        }
      }
    }
  }

  /**
    In "STR"-free text followed by nothing, or by something that starts with
    "__", no "STR" starts before the second character after the text.
   */
  lemma NoStrNear(a: String, w: String)
    requires StrFree(a)
    requires w == [] || (|w| >= 2 && w[0] == '_' && w[1] == '_')
    ensures forall i | 0 <= i < |a| + 2 :: !StrAt(a + w, i)
  {
    forall i | 0 <= i < |a| + 2 ensures !StrAt(a + w, i) {
      if StrAt(a + w, i) {
        if i + 3 <= |a| {
          assert StrAt(a, i);
        }
      }
    }
  }

  lemma StrAtSuffix(a: String, b: String, i: int)
    requires StrAt(a + b, i) && i >= |a|
    ensures StrAt(b, i - |a|)
  {
  }

  lemma MatchSuffix(a: String, b: String, p: String, q: int)
    requires MatchAt(a + b, p, q) && q >= |a|
    ensures MatchAt(b, p, q - |a|)
  {
    assert (a + b)[q..q + |p|] == b[q - |a|..q - |a| + |p|];
  }

  /** A placeholder occurrence carries its "STR" two characters in. */
  lemma PlaceholderStr(s: String, n: nat, q: int)
    requires MatchAt(s, Placeholder(n), q)
    ensures StrAt(s, q + 2)
  {
    var t := Placeholder(n);
    assert s[q..q + |t|] == t;
    assert s[q + 2] == t[2] && s[q + 3] == t[3] && s[q + 4] == t[4];
  }

  /** Past its "STR", a placeholder holds only digits and underscores. */
  lemma PlaceholderTail(m: nat, k: int)
    requires 3 <= k < |Placeholder(m)|
    ensures Placeholder(m)[k] != 'S'
  {
    var d := Dec(m);
    if 5 <= k < 5 + |d| {
      assert Placeholder(m)[k] == d[k - 5];
    }
  }

  /** One placeholder begins another only when the numbers agree. */
  lemma PlaceholderPrefix(n: nat, m: nat, r: String)
    requires MatchAt(Placeholder(m) + r, Placeholder(n), 0)
    ensures n == m
  {
    var s := Placeholder(m) + r;
    var dn := Dec(n);
    var dm := Dec(m);
    assert s[..|Placeholder(n)|] == Placeholder(n);
    assert forall k | 0 <= k < |dn| :: s[5 + k] == dn[k] by {
      forall k | 0 <= k < |dn| ensures s[5 + k] == dn[k] {
        assert s[5 + k] == Placeholder(n)[5 + k];
      }
    }
    assert forall k | 0 <= k < |dm| :: s[5 + k] == dm[k] by {
      forall k | 0 <= k < |dm| ensures s[5 + k] == dm[k] {
        assert s[5 + k] == Placeholder(m)[5 + k];
      }
    }
    assert s[5 + |dn|] == '_' by {
      assert s[5 + |dn|] == Placeholder(n)[5 + |dn|];
    }
    assert s[5 + |dm|] == '_' by {
      assert s[5 + |dm|] == Placeholder(m)[5 + |dm|];
    }
    DigitRunsAgree(s, dn, dm);
    DecInjective(n, m);
  }

  /** Two digit runs read from the same place, each ended by `_`, are the same run. */
  lemma DigitRunsAgree(s: String, dn: String, dm: String)
    requires AllDigits(dn) && AllDigits(dm)
    requires 5 + |dn| < |s| && 5 + |dm| < |s|
    requires forall k | 0 <= k < |dn| :: s[5 + k] == dn[k]
    requires forall k | 0 <= k < |dm| :: s[5 + k] == dm[k]
    requires s[5 + |dn|] == '_' && s[5 + |dm|] == '_'
    ensures dn == dm
  {
    assert forall i | 5 <= i < 5 + |dn| :: IsDigit(s[i]) by {
      forall i | 5 <= i < 5 + |dn| ensures IsDigit(s[i]) {
        assert s[5 + (i - 5)] == dn[i - 5];
      }
    }
    assert forall i | 5 <= i < 5 + |dm| :: IsDigit(s[i]) by {
      forall i | 5 <= i < 5 + |dm| ensures IsDigit(s[i]) {
        assert s[5 + (i - 5)] == dm[i - 5];
      }
    }
    assert !IsDigit(s[5 + |dn|]) && !IsDigit(s[5 + |dm|]);
    assert |dn| == |dm|;
  }

  // ---------------------------------------------------------------------------
  // The round trip

  predicate PlainStrFree(ps: seq<Piece>, tail: String) {
    StrFree(tail) && forall i | 0 <= i < |ps| :: StrFree(ps[i].pre)
  }

  /** Masked text starts with no "STR" at its first two positions. */
  lemma HeadNoStr(ps: seq<Piece>, m: nat, tail: String)
    requires PlainStrFree(ps, tail)
    ensures !StrAt(Masked(ps, m) + tail, 0) && !StrAt(Masked(ps, m) + tail, 1)
  {
    if ps == [] {
      assert Masked(ps, m) + tail == tail;
    } else {
      var rest := Masked(ps[1..], m + 1) + tail;
      assert Masked(ps, m) + tail == ps[0].pre + (Placeholder(m) + rest);
      NoStrNear(ps[0].pre, Placeholder(m) + rest);
    }
  }

  /**
    No placeholder `n` starts at `q` in a plain text, then placeholder `m`,
    then text whose first two positions hold no "STR".
   */
  lemma NoMatchAround(pre: String, m: nat, rest: String, n: nat, q: int)
    requires n != m
    requires StrFree(pre)
    requires !StrAt(rest, 0) && !StrAt(rest, 1)
    requires q < |pre| + |Placeholder(m)|
    ensures !MatchAt(pre + Placeholder(m) + rest, Placeholder(n), q)
  {
    var t := Placeholder(m);
    var s := pre + t + rest;
    assert s == pre + (t + rest);
    if MatchAt(s, Placeholder(n), q) {
      PlaceholderStr(s, n, q);
      NoStrNear(pre, t + rest);
      if q == |pre| {
        MatchSuffix(pre, t + rest, Placeholder(n), q);
        PlaceholderPrefix(n, m, rest);
      } else if q > |pre| {
        StrAtSuffix(pre, t + rest, q + 2);
        var o := q - |pre|;
        if o + 2 < |t| {
          PlaceholderTail(m, o + 2);
        } else {
          StrAtSuffix(t, rest, o + 2);
        }
      }
    }
  }

  /** Placeholders numbered from `m` on never match the placeholder of an earlier `n`. */
  lemma {:induction false} NoLaterMatch(ps: seq<Piece>, m: nat, tail: String, n: nat)
    requires n < m
    requires PlainStrFree(ps, tail)
    ensures forall q :: !MatchAt(Masked(ps, m) + tail, Placeholder(n), q)
    decreases |ps|
  {
    if ps == [] {
      forall q ensures !MatchAt(Masked(ps, m) + tail, Placeholder(n), q) {
        if MatchAt(Masked(ps, m) + tail, Placeholder(n), q) {
          assert Masked(ps, m) + tail == tail;
          PlaceholderStr(tail, n, q);
        }
      }
    } else {
      var pre := ps[0].pre;
      var t := Placeholder(m);
      var rest := Masked(ps[1..], m + 1) + tail;
      var s := Masked(ps, m) + tail;
      assert s == pre + t + rest;
      assert PlainStrFree(ps[1..], tail);
      NoLaterMatch(ps[1..], m + 1, tail, n);
      HeadNoStr(ps[1..], m + 1, tail);
      forall q ensures !MatchAt(s, Placeholder(n), q) {
        if q < |pre| + |t| {
          NoMatchAround(pre, m, rest, n, q);
        } else if MatchAt(s, Placeholder(n), q) {
          MatchSuffix(pre + t, rest, Placeholder(n), q);
        }
      }
    }
  }

  lemma {:induction false} OrigAppend(a: seq<Piece>, b: seq<Piece>)
    ensures Orig(a + b) == Orig(a) + Orig(b)
  {
    if a == [] {
      assert a + b == b;
    } else {
      assert (a + b)[1..] == a[1..] + b;
      OrigAppend(a[1..], b);
    }
  }

  /** The text after `n` of the placeholders have been replaced by their literals. */
  function Mixed(ps: seq<Piece>, tail: String, n: nat): String
    requires n <= |ps|
  {
    Orig(ps[..n]) + Masked(ps[n..], n) + tail
  }

  /** The original splits around piece `n` as the mixed text does. */
  lemma OrigAround(ps: seq<Piece>, n: nat)
    requires n < |ps|
    ensures Orig(ps) == Orig(ps[..n]) + ps[n].pre + ps[n].lit + Orig(ps[n + 1..])
    ensures Orig(ps[..n + 1]) == Orig(ps[..n]) + ps[n].pre + ps[n].lit
  {
    OrigGrow(ps, n);
    OrigSplitAt(ps, n + 1);
  }

  lemma OrigGrow(ps: seq<Piece>, n: nat)
    requires n < |ps|
    ensures Orig(ps[..n + 1]) == Orig(ps[..n]) + ps[n].pre + ps[n].lit
  {
    assert ps[..n + 1] == ps[..n] + [ps[n]];
    OrigAppend(ps[..n], [ps[n]]);
    OrigSingle(ps[n]);
  }

  lemma OrigSplitAt(ps: seq<Piece>, n: nat)
    requires n <= |ps|
    ensures Orig(ps) == Orig(ps[..n]) + Orig(ps[n..])
  {
    assert ps == ps[..n] + ps[n..];
    OrigAppend(ps[..n], ps[n..]);
  }

  lemma OrigSingle(x: Piece)
    ensures Orig([x]) == x.pre + x.lit
  {
    assert [x][1..] == [];
  }

  /** Replacing placeholder `n` turns exactly one more placeholder back into its literal. */
  lemma UnmaskStep(ps: seq<Piece>, tail: String, n: nat)
    requires n < |ps|
    requires StrFree(Orig(ps) + tail)
    ensures ReplaceAll(Mixed(ps, tail, n), Placeholder(n), ps[n].lit) == Mixed(ps, tail, n + 1)
  {
    var p := Placeholder(n);
    var lit := ps[n].lit;
    var u := Orig(ps[..n]) + ps[n].pre;
    var rest := Masked(ps[n + 1..], n + 1) + tail;
    MixedAround(ps, tail, n);
    StepFree(ps, tail, n);
    ReplaceAfterPrefix(u, n, rest, lit);
    NoLaterMatch(ps[n + 1..], n + 1, tail, n);
    ReplaceNone(rest, p, lit);
  }

  lemma MixedAround(ps: seq<Piece>, tail: String, n: nat)
    requires n < |ps|
    ensures Mixed(ps, tail, n)
      == (Orig(ps[..n]) + ps[n].pre) + (Placeholder(n) + (Masked(ps[n + 1..], n + 1) + tail))
    ensures Mixed(ps, tail, n + 1)
      == (Orig(ps[..n]) + ps[n].pre) + ps[n].lit + (Masked(ps[n + 1..], n + 1) + tail)
  {
    var a, m := Orig(ps[..n]), Masked(ps[n + 1..], n + 1);
    assert ps[n..][1..] == ps[n + 1..];
    assert Masked(ps[n..], n) == ps[n].pre + Placeholder(n) + m;
    Regroup4(a, ps[n].pre, Placeholder(n), m, tail);
    OrigGrow(ps, n);
    assert Mixed(ps, tail, n + 1) == (a + ps[n].pre + ps[n].lit) + m + tail;
    Regroup4(a + ps[n].pre, ps[n].lit, [], m, tail);
  }

  lemma Regroup4(a: String, b: String, c: String, d: String, e: String)
    ensures a + (b + c + d) + e == (a + b) + (c + (d + e))
    ensures (a + b + c) + d + e == (a + b) + c + (d + e)
  {
  }

  lemma Regroup(a: String, b: String, c: String, d: String, e: String)
    ensures a + b + c + d + e == (a + b) + (c + d + e)
  {
  }

  /** The text before placeholder `n`, and all plain text after it, is "STR"-free. */
  lemma StepFree(ps: seq<Piece>, tail: String, n: nat)
    requires n < |ps|
    requires StrFree(Orig(ps) + tail)
    ensures StrFree(Orig(ps[..n]) + ps[n].pre)
    ensures PlainStrFree(ps[n + 1..], tail)
  {
    var u := Orig(ps[..n]) + ps[n].pre;
    var v := ps[n].lit + Orig(ps[n + 1..]) + tail;
    OrigAround(ps, n);
    Regroup(Orig(ps[..n]), ps[n].pre, ps[n].lit, Orig(ps[n + 1..]), tail);
    StrFreeParts(u, v);
    StepFreeAfter(ps, tail, n);
  }

  lemma StepFreeAfter(ps: seq<Piece>, tail: String, n: nat)
    requires n < |ps|
    requires StrFree(Orig(ps) + tail)
    ensures PlainStrFree(ps[n + 1..], tail)
  {
    var b := Orig(ps[..n + 1]);
    OrigSplitAt(ps, n + 1);
    assert Orig(ps) + tail == b + Orig(ps[n + 1..]) + tail;
    PlainPartsFree(ps[n + 1..], tail, b);
  }

  /** In "STR"-free text followed by placeholder `n`, the first occurrence is that placeholder. */
  lemma ReplaceAfterPrefix(u: String, n: nat, rest: String, lit: String)
    requires StrFree(u)
    ensures ReplaceAll(u + (Placeholder(n) + rest), Placeholder(n), lit)
      == u + lit + ReplaceAll(rest, Placeholder(n), lit)
  {
    var p := Placeholder(n);
    NoStrNear(u, p + rest);
    forall q | 0 <= q < |u| ensures !MatchAt(u + (p + rest), p, q) {
      if MatchAt(u + (p + rest), p, q) {
        PlaceholderStr(u + (p + rest), n, q);
      }
    }
    ReplaceSkip(u, p + rest, p, lit);
    ReplaceHead(rest, p, lit);
  }

  /** Each plain text of a suffix of the pieces is "STR"-free when the whole original is. */
  lemma {:induction false} PlainPartsFree(ps: seq<Piece>, tail: String, before: String)
    requires StrFree(before + Orig(ps) + tail)
    ensures PlainStrFree(ps, tail)
    decreases |ps|
  {
    if ps == [] {
      assert before + Orig(ps) + tail == before + tail;
      StrFreeParts(before, tail);
    } else {
      var x, y, l := ps[0].pre, ps[0].lit, Orig(ps[1..]);
      assert Orig(ps) == x + y + l;
      Assoc5(before, x, y, l, tail);
      PlainPartsFree(ps[1..], tail, before + x + y);
      StrFreeParts(before, x + (y + l + tail));
      StrFreeParts(x, y + l + tail);
    }
  }

  lemma Assoc5(a: String, b: String, c: String, d: String, e: String)
    ensures a + (b + c + d) + e == (a + b + c) + d + e
    ensures a + (b + c + d) + e == a + (b + (c + d + e))
  {
  }

  lemma {:induction false} UnmaskFromMixed(ps: seq<Piece>, tail: String, n: nat)
    requires n <= |ps|
    requires StrFree(Orig(ps) + tail)
    ensures UnmaskFrom(Mixed(ps, tail, n), Lits(ps), n) == Orig(ps) + tail
    decreases |ps| - n
  {
    if n == |ps| {
      assert ps[..n] == ps;
      assert Masked(ps[n..], n) == [];
    } else {
      UnmaskStep(ps, tail, n);
      UnmaskFromMixed(ps, tail, n + 1);
    }
  }

  /**
    Unmasking inverts masking for any split whose original text has no "STR":
    placeholder `i` is found exactly where literal `i` was.
   */
  lemma UnmaskMasked(ps: seq<Piece>, tail: String)
    requires StrFree(Orig(ps) + tail)
    ensures Unmask(Masked(ps, 0) + tail, Lits(ps)) == Orig(ps) + tail
  {
    assert ps[..0] == [] && ps[0..] == ps;
    assert Mixed(ps, tail, 0) == Masked(ps, 0) + tail;
    UnmaskFromMixed(ps, tail, 0);
  }

  /** The masking round trip: for text without "STR", unmasking the mask gives the text back. */
  lemma MaskRoundTrip(input: String)
    requires !Contains(input, "STR")
    ensures Unmask(Mask(input).text, Mask(input).literals) == input
  {
    StrFreeIffNoMatch(input);
    var sp := Scan(input);
    UnmaskMasked(sp.pieces, sp.tail);
  }

  /** Text without quotes masks to itself, with no literals. */
  lemma MaskWithoutQuotes(input: String)
    requires forall i | 0 <= i < |input| :: !IsQuote(input[i])
    ensures Mask(input) == MaskedText(input, [])
  {
    FirstLiteralAtQuote(input);
  }

  /** The first literal of a scan starts at a quote of the text. */
  lemma FirstLiteralAtQuote(input: String)
    ensures var sp := Scan(input);
      sp.pieces != [] ==> |sp.pieces[0].pre| < |input| && IsQuote(input[|sp.pieces[0].pre|])
  {
    var sp := Scan(input);
    if sp.pieces != [] {
      var p := sp.pieces[0];
      var after := Orig(sp.pieces[1..]);
      assert |p.lit| > 0 && IsQuote(p.lit[0]);
      assert Orig(sp.pieces) == p.pre + p.lit + after;
      Assoc3(p.pre, p.lit, after, sp.tail);
      CharAfter(p.pre, p.lit, after + sp.tail);
    }
  }

  lemma Assoc3(a: String, b: String, c: String, d: String)
    ensures (a + b + c) + d == a + b + (c + d)
  {
  }

  /** The character just after a prefix is the first of what follows it. */
  lemma CharAfter(a: String, b: String, c: String)
    requires b != []
    ensures |a| < |a + b + c| && (a + b + c)[|a|] == b[0]
  {
  }
}

=== FILE: naming.dfy ===
/**
  How a sample is named and labelled on disk: the base file name built from
  the commit, the line range, the smell vector and the file name; the
  `_NNN` suffix for repeated names; and the escaped header line.
 */
module Naming {
  import opened Wrappers
  import opened Text
  import opened Escape

  /** One label of a sample; every field may be `null`. */
  datatype LabelInfo = LabelInfo(severity: Option<String>, present: Option<bool>, voteCount: Option<int>)

  /**
    One sample as read from the input list. Reference fields may be `null`;
    `startLine` and `endLine` are primitive and always present.
   */
  datatype SampleEntry = SampleEntry(
    repoUrl: Option<String>,
    commitHash: Option<String>,
    filePath: Option<String>,
    startLine: int,
    endLine: int,
    codeSnippet: Option<String>,
    smell: Option<String>,
    severity: Option<String>,
    labels: Option<map<String, LabelInfo>>,
    y: Option<seq<bool>>)

  // ---------------------------------------------------------------------------
  // Runs of characters replaced by `_`

  /** `s` without its leading run of characters in the class. */
  function SkipRun(s: String, inRun: char -> bool): (r: String)
    ensures |r| <= |s| && r == s[|s| - |r|..]
    ensures r == [] || !inRun(r[0])
    ensures forall k | 0 <= k < |s| - |r| :: inRun(s[k])
    ensures s != [] && inRun(s[0]) ==> |r| < |s|
  {
    if s != [] && inRun(s[0]) then SkipRun(s[1..], inRun) else s
  }

  /**
    `s.replaceAll("[class]+", "_")`: every maximal run of characters in the
    class becomes one `_`, everything else is kept.
   */
  function SquashRuns(s: String, inRun: char -> bool): (r: String)
    ensures forall i | 0 <= i < |r| :: r[i] == '_' || (r[i] in s && !inRun(r[i]))
    ensures s == [] <==> r == []
    ensures s != [] && inRun(s[0]) ==> r[0] == '_'
    ensures s != [] && !inRun(s[0]) ==> r[0] == s[0]
    ensures inRun('_') ==> forall i | 0 <= i < |r| - 1 :: !(r[i] == '_' && r[i + 1] == '_')
    decreases |s|
  {
    if s == [] then []
    else if inRun(s[0]) then "_" + SquashRuns(SkipRun(s, inRun), inRun)
    else [s[0]] + SquashRuns(s[1..], inRun)
  }

  // ---------------------------------------------------------------------------
  // safeToken

  /** `[a-z0-9]`. */
  predicate IsTokenChar(c: char) {
    'a' <= c <= 'z' || '0' <= c <= '9'
  }

  /** The class `[^a-z0-9]` whose runs `safeToken` squashes. */
  predicate NotTokenChar(c: char) {
    !IsTokenChar(c)
  }

  /** Token characters and `_`, with no `_` next to another. */
  predicate Squashed(t: String) {
    && (forall i | 0 <= i < |t| :: IsTokenChar(t[i]) || t[i] == '_')
    && (forall i | 0 <= i < |t| - 1 :: !(t[i] == '_' && t[i + 1] == '_'))
  }

  /** What `safeToken` returns: non-empty, squashed, and with no `_` at either end. */
  predicate Token(t: String) {
    |t| > 0 && Squashed(t) && t[0] != '_' && t[|t| - 1] != '_'
  }

  function DropLeadingUnderscores(s: String): (r: String)
    ensures |r| <= |s| && r == s[|s| - |r|..]
    ensures r == [] || r[0] != '_'
    ensures forall k | 0 <= k < |s| - |r| :: s[k] == '_'
  {
    if s != [] && s[0] == '_' then DropLeadingUnderscores(s[1..]) else s
  }

  function DropTrailingUnderscores(s: String): (r: String)
    ensures |r| <= |s| && r == s[..|r|]
    ensures r == [] || r[|r| - 1] != '_'
    ensures forall k | |r| <= k < |s| :: s[k] == '_'
  {
    if s != [] && s[|s| - 1] == '_' then DropTrailingUnderscores(s[..|s| - 1]) else s
  }

  /** The text `safeToken` squashes: trimmed, then lower-cased. */
  function TrimLower(v: String): String {
    ToLower(Trim(v))
  }

  /**
    `safeToken(value)`: lower-case, turn every run of characters other than
    `[a-z0-9]` into `_`, drop `_` at both ends; `unknown` when nothing is left
    or the value is null or empty.
   */
  function SafeToken(value: Option<String>): (r: String)
    ensures Token(r)
  {
    if value.None? || value.value == [] then "unknown"
    else
      var squashed := SquashRuns(TrimLower(value.value), NotTokenChar);
      var t := DropTrailingUnderscores(DropLeadingUnderscores(squashed));
      SquashedStrip(squashed);
      if t == [] then "unknown" else t
  }

  /** Stripping `_` from both ends of squashed text leaves a token, if anything. */
  lemma SquashedStrip(s: String)
    requires Squashed(s)
    ensures var t := DropTrailingUnderscores(DropLeadingUnderscores(s));
      t == [] || Token(t)
  {
    var a := DropLeadingUnderscores(s);
    SquashedSlice(s, |s| - |a|, |s|);
    var t := DropTrailingUnderscores(a);
    SquashedSlice(a, 0, |t|);
  }

  lemma SquashedSlice(s: String, i: nat, j: nat)
    requires Squashed(s) && i <= j <= |s|
    ensures Squashed(s[i..j])
  {
    var t := s[i..j];
    assert forall k | 0 <= k < |t| :: t[k] == s[i + k];
  }

  /** The letters and digits of `s`, in order. */
  function TokenChars(s: String): (r: String)
  {
    if s == [] then [] else (if IsTokenChar(s[0]) then [s[0]] else []) + TokenChars(s[1..])
  }

  lemma {:induction false} TokenCharsConcat(a: String, b: String)
    ensures TokenChars(a + b) == TokenChars(a) + TokenChars(b)
  {
    if a == [] {
      assert a + b == b;
    } else {
      var h := if IsTokenChar(a[0]) then [a[0]] else [];
      assert (a + b)[0] == a[0];
      assert (a + b)[1..] == a[1..] + b;
      TokenCharsConcat(a[1..], b);
      assert TokenChars(a + b) == h + TokenChars(a[1..] + b);
      assert TokenChars(a) == h + TokenChars(a[1..]);
    }
  }

  lemma {:induction false} TokenCharsNone(s: String)
    requires forall k | 0 <= k < |s| :: !IsTokenChar(s[k])
    ensures TokenChars(s) == []
  {
    if s != [] {
      TokenCharsNone(s[1..]);
    }
  }

  /** Squashing keeps every letter and digit, in order. */
  lemma {:induction false} SquashKeepsTokenChars(s: String)
    ensures TokenChars(SquashRuns(s, NotTokenChar)) == TokenChars(s)
    decreases |s|
  {
    if s != [] {
      if NotTokenChar(s[0]) {
        var rest := SkipRun(s, NotTokenChar);
        SquashKeepsTokenChars(rest);
        SquashRunStep(s, rest);
      } else {
        SquashKeepsTokenChars(s[1..]);
        TokenCharsConcat([s[0]], SquashRuns(s[1..], NotTokenChar));
        TokenCharsConcat([s[0]], s[1..]);
        assert [s[0]] + s[1..] == s;
      }
    }
  }

  /** A run of other characters contributes nothing, before or after squashing. */
  lemma SquashRunStep(s: String, rest: String)
    requires s != [] && NotTokenChar(s[0]) && rest == SkipRun(s, NotTokenChar)
    requires TokenChars(SquashRuns(rest, NotTokenChar)) == TokenChars(rest)
    ensures TokenChars(SquashRuns(s, NotTokenChar)) == TokenChars(s)
  {
    RunHasNoTokenChars(s);
    assert SquashRuns(s, NotTokenChar) == "_" + SquashRuns(rest, NotTokenChar);
    UnderscoreHasNoTokenChars(SquashRuns(rest, NotTokenChar));
  }

  lemma RunHasNoTokenChars(s: String)
    ensures TokenChars(s) == TokenChars(SkipRun(s, NotTokenChar))
  {
    var rest := SkipRun(s, NotTokenChar);
    var run := s[..|s| - |rest|];
    assert s == run + rest;
    TokenCharsConcat(run, rest);
    TokenCharsNone(run);
  }

  lemma UnderscoreHasNoTokenChars(x: String)
    ensures TokenChars("_" + x) == TokenChars(x)
  {
    assert ("_" + x)[1..] == x;
  }

  /** Dropping `_` from both ends keeps every letter and digit. */
  lemma StripKeepsTokenChars(s: String)
    ensures TokenChars(DropTrailingUnderscores(DropLeadingUnderscores(s))) == TokenChars(s)
  {
    DropLeadingKeeps(s);
    DropTrailingKeeps(DropLeadingUnderscores(s));
  }

  lemma DropLeadingKeeps(s: String)
    ensures TokenChars(DropLeadingUnderscores(s)) == TokenChars(s)
  {
    var a := DropLeadingUnderscores(s);
    var u := s[..|s| - |a|];
    assert s == u + a;
    TokenCharsConcat(u, a);
    TokenCharsNone(u);
  }

  lemma DropTrailingKeeps(a: String)
    ensures TokenChars(DropTrailingUnderscores(a)) == TokenChars(a)
  {
    var t := DropTrailingUnderscores(a);
    var u := a[|t|..];
    assert a == t + u;
    TokenCharsConcat(t, u);
    TokenCharsNone(u);
  }

  /**
    The letters and digits survive: `safeToken` keeps exactly the lower-cased
    letters and digits of the trimmed value, in order, and says `unknown`
    when there are none.
   */
  lemma SafeTokenKeepsTokenChars(v: String)
    ensures var k := TokenChars(TrimLower(v));
      && (k == [] ==> SafeToken(Some(v)) == "unknown")
      && (k != [] ==> TokenChars(SafeToken(Some(v))) == k)
  {
    var inRun := NotTokenChar;
    if v != [] {
      var squashed := SquashRuns(TrimLower(v), inRun);
      SquashKeepsTokenChars(TrimLower(v));
      StripKeepsTokenChars(squashed);
    }
  }

  /** A token character, or a lone `_` before one, squashes to itself. */
  lemma SquashKeepsHead(t: String, rest: String, tail: String)
    requires t != [] && rest == t[1..] && tail == SquashRuns(rest, NotTokenChar)
    requires IsTokenChar(t[0]) || t[0] == '_'
    requires t[0] == '_' ==> rest == [] || IsTokenChar(rest[0])
    ensures SquashRuns(t, NotTokenChar) == [t[0]] + tail
  {
    if t[0] == '_' {
      assert SkipRun(t, NotTokenChar) == SkipRun(rest, NotTokenChar) == rest;
    }
  }

  /** A token squashes to itself. */
  lemma {:induction false} SquashSquashed(t: String)
    requires Squashed(t)
    ensures SquashRuns(t, NotTokenChar) == t
  {
    if t != [] {
      var rest := t[1..];
      SquashedTail(t, rest);
      SquashSquashed(rest);
      SquashKeepsHead(t, rest, rest);
      assert t == [t[0]] + rest;
    }
  }

  lemma SquashedTail(t: String, rest: String)
    requires Squashed(t) && t != [] && rest == t[1..]
    ensures Squashed(rest) && (IsTokenChar(t[0]) || t[0] == '_')
    ensures t[0] == '_' ==> rest == [] || IsTokenChar(rest[0])
  {
    if t[0] == '_' && rest != [] {
      assert rest[0] == t[1];
    }
  }

  /** Tokens are the fixed points of `safeToken`. */
  lemma SafeTokenOfToken(t: String)
    requires Token(t)
    ensures SafeToken(Some(t)) == t
  {
    assert Trimmed(t);
    TrimOfTrimmed(t);
    assert ToLower(t) == t;
    SquashSquashed(t);
  }

  /** `safeToken` is idempotent. */
  lemma SafeTokenIdempotent(value: Option<String>)
    ensures SafeToken(Some(SafeToken(value))) == SafeToken(value)
  {
    SafeTokenOfToken(SafeToken(value));
  }

  // ---------------------------------------------------------------------------
  // extractFileName

  /** `s.lastIndexOf(c)`: the last position holding `c`, or -1. */
  function LastIndexOf(s: String, c: char): (r: int)
    ensures -1 <= r < |s|
    ensures r >= 0 ==> s[r] == c
    ensures forall k | r < k < |s| :: s[k] != c
  {
    if s == [] then -1
    else if s[|s| - 1] == c then |s| - 1
    else LastIndexOf(s[..|s| - 1], c)
  }

  /**
    `extractFileName(path)`: the text after the last `/`, or the whole path
    when it has none; `unknown` for a null or empty path. The result is the
    longest suffix of the path without a `/`.
   */
  function ExtractFileName(path: Option<String>): (r: String)
    ensures '/' !in r
    ensures path.None? || path.value == [] ==> r == "unknown"
    ensures path.Some? && path.value != [] ==>
      && EndsWith(path.value, r)
      && (|r| < |path.value| ==> path.value[|path.value| - |r| - 1] == '/')
  {
    if path.None? || path.value == [] then "unknown"
    else
      var p := path.value;
      var lastSlash := LastIndexOf(p, '/');
      if lastSlash >= 0 then p[lastSlash + 1..] else p
  }

  /** A directory and a name with no `/` joined by `/` give back the name. */
  lemma FileNameOfJoin(dir: String, name: String)
    requires '/' !in name
    ensures ExtractFileName(Some(dir + "/" + name)) == name
  {
    var p := dir + "/" + name;
    var r := ExtractFileName(Some(p));
    assert p[|dir|] == '/';
    assert p[|dir| + 1..] == name;
  }

  // ---------------------------------------------------------------------------
  // The smell vector

  /** The label keys `resolveY` falls back on, in the order of the vector. */
  const SmellKeys: seq<String> := ["feature envy", "long method", "blob", "data class"]

  /** `labelPresent(entry, key)`: the label exists and its `present` is `TRUE`. */
  predicate LabelPresent(entry: SampleEntry, key: String) {
    && entry.labels.Some?
    && key in entry.labels.value
    && entry.labels.value[key].present == Some(true)
  }

  /**
    `resolveY(entry)`: the first four entries of `y` when it has at least
    four, otherwise the presence of the four smell labels.
   */
  function ResolveY(entry: SampleEntry): (r: seq<bool>)
    ensures |r| == 4
  {
    if entry.y.Some? && |entry.y.value| >= 4 then entry.y.value[..4]
    else seq(4, i requires 0 <= i < 4 => LabelPresent(entry, SmellKeys[i]))
  }

  /** With four or more `y` entries the labels are never consulted, and entries past the fourth do not matter. */
  lemma ResolveYIgnoresLabels(entry: SampleEntry, labels: Option<map<String, LabelInfo>>, extra: seq<bool>)
    requires entry.y.Some? && |entry.y.value| >= 4
    ensures ResolveY(entry.(labels := labels)) == ResolveY(entry)
    ensures ResolveY(entry.(y := Some(entry.y.value + extra))) == ResolveY(entry)
  {
    var e := entry.(y := Some(entry.y.value + extra));
    assert e.y.value[..4] == entry.y.value[..4];
  }

  /** A `y` of exactly four flags is the vector itself. */
  lemma ResolveYOfFour(entry: SampleEntry)
    requires entry.y.Some? && |entry.y.value| == 4
    ensures ResolveY(entry) == entry.y.value
  {
    assert entry.y.value[..4] == entry.y.value;
  }

  /** With fewer than four `y` entries the vector comes from the labels alone, as if `y` were `null`. */
  lemma ResolveYIgnoresShortY(entry: SampleEntry)
    requires !(entry.y.Some? && |entry.y.value| >= 4)
    ensures ResolveY(entry) == ResolveY(entry.(y := None))
  {
  }

  /** Without labels and without a full `y`, every smell is absent. */
  lemma ResolveYNoLabels(entry: SampleEntry)
    requires !(entry.y.Some? && |entry.y.value| >= 4) && entry.labels.None?
    ensures ResolveY(entry) == [false, false, false, false]
  {
  }

  /** A smell label counts only when it is there and marked present; its severity and votes never matter. */
  lemma ResolveYReadsPresence(entry: SampleEntry, key: String, info: LabelInfo)
    requires !(entry.y.Some? && |entry.y.value| >= 4) && entry.labels.Some?
    requires key in SmellKeys
    ensures var e := entry.(labels := Some(entry.labels.value[key := info]));
      forall i | 0 <= i < 4 && SmellKeys[i] == key :: ResolveY(e)[i] == (info.present == Some(true))
  {
  }

  /** A smell key missing from a present label map reads as absent. */
  lemma ResolveYMissingKey(entry: SampleEntry, i: int)
    requires !(entry.y.Some? && |entry.y.value| >= 4) && entry.labels.Some?
    requires 0 <= i < 4 && SmellKeys[i] !in entry.labels.value
    ensures !ResolveY(entry)[i]
  {
  }

  /** The values between brackets, separated by `sep`. */
  function FormatBools(y: seq<bool>, sep: String): String
    requires |y| >= 1
  {
    "[" + JoinBools(y, sep) + "]"
  }

  function JoinBools(y: seq<bool>, sep: String): String
    requires |y| >= 1
  {
    if |y| == 1 then BoolToString(y[0]) else BoolToString(y[0]) + sep + JoinBools(y[1..], sep)
  }

  /** `formatY(entry)`: `[a, b, c, d]`. */
  function FormatY(entry: SampleEntry): String {
    FormatBools(ResolveY(entry), ", ")
  }

  /** `formatYCompact(entry)`: `[a,b,c,d]`. */
  function FormatYCompact(entry: SampleEntry): String {
    FormatBools(ResolveY(entry), ",")
  }

  /** Reading a vector back: `true` or `false` items between brackets, separated by `sep`. */
  function ParseBools(s: String, sep: String): Option<seq<bool>>
    requires |sep| > 0
  {
    if |s| < 2 || s[0] != '[' || s[|s| - 1] != ']' then None
    else ParseItems(s[1..|s| - 1], sep)
  }

  function ParseItems(s: String, sep: String): Option<seq<bool>>
    requires |sep| > 0
    decreases |s|, 1
  {
    if StartsWith(s, "true") then ParseRest(true, s[4..], sep)
    else if StartsWith(s, "false") then ParseRest(false, s[5..], sep)
    else None
  }

  function ParseRest(b: bool, rest: String, sep: String): Option<seq<bool>>
    requires |sep| > 0
    decreases |rest|, 0
  {
    if rest == [] then Some([b])
    else if StartsWith(rest, sep) then
      match ParseItems(rest[|sep|..], sep)
      case Some(bs) => Some([b] + bs)
      case None => None
    else None
  }

  lemma ParseItemsBool(b: bool, rest: String, sep: String)
    requires |sep| > 0
    ensures ParseItems(BoolToString(b) + rest, sep) == ParseRest(b, rest, sep)
  {
    var s := BoolToString(b) + rest;
    if b {
      assert s[..4] == "true" && s[4..] == rest;
    } else {
      assert s[3] == 's';
      assert s[..5] == "false" && s[5..] == rest;
    }
  }

  /** Joined values read back, whatever separator was used. */
  lemma {:induction false} ParseJoin(y: seq<bool>, sep: String)
    requires |y| >= 1 && |sep| > 0
    ensures ParseItems(JoinBools(y, sep), sep) == Some(y)
  {
    if |y| == 1 {
      ParseItemsBool(y[0], [], sep);
      assert BoolToString(y[0]) + [] == JoinBools(y, sep);
      assert y == [y[0]];
    } else {
      var rest := sep + JoinBools(y[1..], sep);
      assert JoinBools(y, sep) == BoolToString(y[0]) + rest;
      ParseItemsBool(y[0], rest, sep);
      assert rest[..|sep|] == sep && rest[|sep|..] == JoinBools(y[1..], sep);
      ParseJoin(y[1..], sep);
      assert [y[0]] + y[1..] == y;
    }
  }

  lemma ParseFormat(y: seq<bool>, sep: String)
    requires |y| >= 1 && |sep| > 0
    ensures ParseBools(FormatBools(y, sep), sep) == Some(y)
  {
    var s := FormatBools(y, sep);
    assert s[1..|s| - 1] == JoinBools(y, sep);
    ParseJoin(y, sep);
  }

  /** Both renderings of the vector read back as the resolved values. */
  lemma ParseFormatY(entry: SampleEntry)
    ensures ParseBools(FormatY(entry), ", ") == Some(ResolveY(entry))
    ensures ParseBools(FormatYCompact(entry), ",") == Some(ResolveY(entry))
  {
    ParseFormat(ResolveY(entry), ", ");
    ParseFormat(ResolveY(entry), ",");
  }

  // ---------------------------------------------------------------------------
  // buildBaseName

  /** Text that can stand as one file-name segment: no `/` and no white space. */
  predicate PathSegment(s: String) {
    forall i | 0 <= i < |s| :: s[i] != '/' && !IsSpace(s[i])
  }

  lemma SegmentConcat(a: String, b: String)
    requires PathSegment(a) && PathSegment(b)
    ensures PathSegment(a + b)
  {
    assert forall i | |a| <= i < |a + b| :: (a + b)[i] == b[i - |a|];
  }

  /** The file-name part of the base name: white-space runs become `_`. */
  function FilePart(entry: SampleEntry): String {
    SquashRuns(ExtractFileName(entry.filePath), IsSpace)
  }

  /** The middle of a base name: start line, end line and compact smell vector, joined by `_`. */
  function BaseNameMiddle(entry: SampleEntry): String {
    IntToString(entry.startLine) + "_" + IntToString(entry.endLine) + "_" + FormatYCompact(entry)
  }

  /**
    `buildBaseName(entry)`: commit token, start line, end line, compact smell
    vector and file name, joined by `_`. The result is a single path segment.
   */
  function BuildBaseName(entry: SampleEntry): (r: String)
    ensures PathSegment(r)
    ensures StartsWith(r, SafeToken(entry.commitHash) + "_")
    ensures EndsWith(r, "_" + FilePart(entry))
  {
    var pre := SafeToken(entry.commitHash) + "_";
    var mid := BaseNameMiddle(entry);
    var post := "_" + FilePart(entry);
    BaseNameParts(entry);
    Framed(pre, mid, post);
    pre + (mid + post)
  }

  /**
    Between the commit token with its `_` and the `_` with the file part, the
    base name holds exactly the line range and the smell vector.
   */
  lemma BaseNameMiddleIs(entry: SampleEntry, r: String, pre: String, mid: String, post: String)
    requires r == BuildBaseName(entry) && mid == BaseNameMiddle(entry)
    requires pre == SafeToken(entry.commitHash) + "_" && post == "_" + FilePart(entry)
    ensures |pre| + |post| <= |r| && r[|pre|..|r| - |post|] == mid
  {
    BaseNameJoin(entry, pre, mid, post);
    FramedMiddle(r, pre, mid, post);
  }

  lemma BaseNameJoin(entry: SampleEntry, pre: String, mid: String, post: String)
    requires pre == SafeToken(entry.commitHash) + "_" && mid == BaseNameMiddle(entry) && post == "_" + FilePart(entry)
    ensures BuildBaseName(entry) == pre + (mid + post)
  {
  }

  lemma Framed(a: String, m: String, b: String)
    ensures StartsWith(a + (m + b), a) && EndsWith(a + (m + b), b)
  {
    var r := a + (m + b);
    assert r[..|a|] == a;
    assert r[|r| - |b|..] == b;
  }

  /** The middle of a framed text is what was framed. */
  lemma FramedMiddle(r: String, a: String, m: String, b: String)
    requires r == a + (m + b)
    ensures |a| + |b| <= |r| && r[|a|..|r| - |b|] == m
  {
    assert r[|a|..|r| - |b|] == m;
  }

  lemma BaseNameParts(entry: SampleEntry)
    ensures PathSegment((SafeToken(entry.commitHash) + "_") + (BaseNameMiddle(entry) + ("_" + FilePart(entry))))
  {
    TokenSegment(SafeToken(entry.commitHash));
    VectorSegment(ResolveY(entry), ",");
    FileSegment(ExtractFileName(entry.filePath));
    SegmentJoin(SafeToken(entry.commitHash), IntToString(entry.startLine), IntToString(entry.endLine),
      FormatYCompact(entry), FilePart(entry));
  }

  lemma TokenSegment(t: String)
    requires Squashed(t)
    ensures PathSegment(t)
  {
    forall i | 0 <= i < |t| ensures t[i] != '/' && !IsSpace(t[i]) {
      assert IsTokenChar(t[i]) || t[i] == '_';
    }
  }

  lemma FileSegment(name: String)
    requires '/' !in name
    ensures PathSegment(SquashRuns(name, IsSpace))
  {
    var file := SquashRuns(name, IsSpace);
    forall i | 0 <= i < |file| ensures file[i] != '/' && !IsSpace(file[i]) {
      assert file[i] == '_' || (file[i] in name && !IsSpace(file[i]));
    }
  }

  lemma SegmentJoin(commit: String, start: String, end: String, y: String, file: String)
    requires PathSegment(commit) && PathSegment(y) && PathSegment(file)
    requires AllDigits(start) || (start != [] && start[0] == '-' && AllDigits(start[1..]))
    requires AllDigits(end) || (end != [] && end[0] == '-' && AllDigits(end[1..]))
    ensures PathSegment((commit + "_") + ((start + "_" + end + "_" + y) + ("_" + file)))
  {
    NumberSegment(start);
    NumberSegment(end);
    var mid := start + "_" + end + "_" + y;
    SegmentConcat(start, "_");
    SegmentConcat(start + "_", end);
    SegmentConcat(start + "_" + end, "_");
    SegmentConcat(start + "_" + end + "_", y);
    SegmentConcat("_", file);
    SegmentConcat(commit, "_");
    SegmentConcat(mid, "_" + file);
    SegmentConcat(commit + "_", mid + ("_" + file));
  }

  lemma NumberSegment(n: String)
    requires AllDigits(n) || (n != [] && n[0] == '-' && AllDigits(n[1..]))
    ensures PathSegment(n)
  {
    if !AllDigits(n) {
      assert forall i | 1 <= i < |n| :: n[i] == n[1..][i - 1];
    }
  }

  lemma {:induction false} VectorSegment(y: seq<bool>, sep: String)
    requires |y| >= 1 && PathSegment(sep)
    ensures PathSegment(JoinBools(y, sep)) && PathSegment(FormatBools(y, sep))
  {
    assert PathSegment(BoolToString(y[0]));
    if |y| > 1 {
      VectorSegment(y[1..], sep);
      SegmentConcat(BoolToString(y[0]), sep);
      SegmentConcat(BoolToString(y[0]) + sep, JoinBools(y[1..], sep));
    }
    SegmentConcat("[", JoinBools(y, sep));
    SegmentConcat("[" + JoinBools(y, sep), "]");
  }

  /** A file name without white space is kept as it is. */
  lemma {:induction false} SquashNoRun(s: String, inRun: char -> bool)
    requires forall i | 0 <= i < |s| :: !inRun(s[i])
    ensures SquashRuns(s, inRun) == s
  {
    if s != [] {
      SquashNoRun(s[1..], inRun);
    }
  }

  /** A file name with no white space ends the base name unchanged. */
  lemma BaseNameKeepsPlainFileName(entry: SampleEntry)
    requires forall i | 0 <= i < |ExtractFileName(entry.filePath)| :: !IsSpace(ExtractFileName(entry.filePath)[i])
    ensures EndsWith(BuildBaseName(entry), "_" + ExtractFileName(entry.filePath))
  {
    SquashNoRun(ExtractFileName(entry.filePath), IsSpace);
  }

  // ---------------------------------------------------------------------------
  // buildHeader

  /** `appendHeaderField(sb, key, value)`: ` key=value`, with `null` written as nothing. */
  function AppendHeaderField(sb: String, key: String, value: Option<String>): (r: String)
    ensures StartsWith(r, sb + " " + key + "=")
    ensures value.None? ==> r == sb + " " + key + "="
    ensures value.Some? ==> EndsWith(r, "=" + value.value)
    ensures value.Some? ==> |r| == |sb| + |key| + 2 + |value.value|
  {
    sb + " " + key + "=" + value.GetOr([])
  }

  /** The fields `buildHeader` appends after the index, in order. */
  function HeaderFields(entry: SampleEntry): seq<(String, Option<String>)> {
    [ ("commit_hash", entry.commitHash),
      ("file_path", entry.filePath),
      ("start_line", Some(IntToString(entry.startLine))),
      ("end_line", Some(IntToString(entry.endLine))),
      ("y", Some(FormatY(entry))) ]
  }

  /** `appendHeaderField` for each field in turn. */
  function AppendFields(sb: String, fields: seq<(String, Option<String>)>): String
    decreases |fields|
  {
    if fields == [] then sb
    else AppendFields(AppendHeaderField(sb, fields[0].0, fields[0].1), fields[1..])
  }

  /** The header before escaping. */
  function RawHeader(entry: SampleEntry, index: int): String {
    AppendFields("json_index=" + IntToString(index), HeaderFields(entry))
  }

  /** The header table: backslash and double quote, each coded by itself. */
  function HeaderCode(c: char): Option<char> {
    if c == '\\' || c == '"' then Some(c) else None
  }

  /** `escapeHeader(header)`: backslashes doubled first, then double quotes escaped. */
  function EscapeHeader(h: String): (r: String)
    ensures r == EscapeWith(HeaderCode, h)
  {
    EscapeHeaderTable(h);
    ReplaceAll(ReplaceAll(h, "\\", "\\\\"), "\"", "\\\"")
  }

  lemma EscapeHeaderTable(h: String)
    ensures ReplaceAll(ReplaceAll(h, "\\", "\\\\"), "\"", "\\\"") == EscapeWith(HeaderCode, h)
  {
    EscapeFirst(h);
    BackslashFresh('"');
    EscapeStep(BackslashOnly, '"', '"', h);
    EscapeSameTable(With(BackslashOnly, '"', '"'), HeaderCode, h);
  }

  /** `buildHeader(entry, index)`: the escaped `key=value` line. */
  function BuildHeader(entry: SampleEntry, index: int): (r: String)
    ensures UnescapeWith(HeaderCode, r) == RawHeader(entry, index)
  {
    UnescapeEscape(HeaderCode, HeaderCode, RawHeader(entry, index));
    EscapeHeader(RawHeader(entry, index))
  }

  // ---------------------------------------------------------------------------
  // applySuffix

  function Zeros(k: nat): (r: String)
    ensures |r| == k && AllDigits(r)
    ensures forall i | 0 <= i < k :: r[i] == '0'
  {
    if k == 0 then [] else "0" + Zeros(k - 1)
  }

  /** `String.format("%03d", n)`: at least three digits, padded with leading zeros. */
  function Pad3(n: nat): (r: String)
    ensures |r| >= 3 && AllDigits(r)
    ensures |r| == if |Dec(n)| < 3 then 3 else |Dec(n)|
  {
    var d := Dec(n);
    var z := if |d| >= 3 then [] else Zeros(3 - |d|);
    assert AllDigits(z + d) by {
      assert forall i | |z| <= i < |z + d| :: (z + d)[i] == d[i - |z|];
    }
    z + d
  }

  /** The padding is zeros, and the count's own digits end the text. */
  lemma Pad3Digits(n: nat)
    ensures var r, d := Pad3(n), Dec(n);
      && r[|r| - |d|..] == d
      && forall i | 0 <= i < |r| - |d| :: r[i] == '0'
  {
  }

  /** Leading zeros do not change the value read. */
  lemma {:induction false} ParseDecZeros(k: nat, d: String)
    requires AllDigits(d)
    ensures ParseDec(Zeros(k) + d) == ParseDec(d)
    decreases |d|, k
  {
    var s := Zeros(k) + d;
    if d == [] {
      assert s == Zeros(k);
      if k > 0 {
        assert s[..|s| - 1] == Zeros(k - 1);
        ParseDecZeros(k - 1, []);
        assert Zeros(k - 1) + [] == Zeros(k - 1);
      }
    } else {
      assert s[..|s| - 1] == Zeros(k) + d[..|d| - 1];
      ParseDecZeros(k, d[..|d| - 1]);
    }
  }

  lemma ParsePad3(n: nat)
    ensures ParseDec(Pad3(n)) == n
  {
    var d := Dec(n);
    ParseDecOfDec(n);
    if |d| < 3 {
      ParseDecZeros(3 - |d|, d);
    } else {
      assert Pad3(n) == [] + d;
      assert Pad3(n) == d;
    }
  }

  /**
    `applySuffix(baseName, count)`: the first use of a name keeps it; later
    ones get `_NNN` before a `.java` extension, or at the end.
   */
  function ApplySuffix(baseName: String, count: int): (r: String)
    ensures count <= 1 ==> r == baseName
    ensures count > 1 ==> |r| > |baseName| + 3
    ensures EndsWith(r, ".java") <==> EndsWith(baseName, ".java")
    ensures count > 1 && EndsWith(baseName, ".java") ==> StartsWith(r, baseName[..|baseName| - 5] + "_")
    ensures count > 1 && !EndsWith(baseName, ".java") ==> StartsWith(r, baseName + "_")
  {
    if count <= 1 then baseName
    else
      var suffix := "_" + Pad3(count);
      assert suffix[|suffix| - 1] != 'a';
      if EndsWith(baseName, ".java") then baseName[..|baseName| - 5] + suffix + ".java"
      else
        var r := baseName + suffix;
        assert r[|r| - 1] == suffix[|suffix| - 1];
        r
  }

  /** Different counts give different names: a repeated base name never overwrites an earlier file. */
  lemma ApplySuffixInjective(baseName: String, m: int, n: int)
    requires 1 <= m && 1 <= n
    requires ApplySuffix(baseName, m) == ApplySuffix(baseName, n)
    ensures m == n
  {
    if m > 1 && n > 1 {
      var stem, ext := SuffixShape(baseName, m);
      var stem', ext' := SuffixShape(baseName, n);
      SameMiddle(stem + "_", Pad3(m), Pad3(n), ext);
      ParsePad3(m);
      ParsePad3(n);
    }
  }

  /** A suffixed name is the stem, `_`, the padded count and the extension, if any. */
  lemma SuffixShape(baseName: String, count: int) returns (stem: String, ext: String)
    requires count > 1
    ensures stem == (if EndsWith(baseName, ".java") then baseName[..|baseName| - 5] else baseName)
    ensures ext == (if EndsWith(baseName, ".java") then ".java" else "")
    ensures ApplySuffix(baseName, count) == stem + "_" + Pad3(count) + ext
  {
    if EndsWith(baseName, ".java") {
      stem, ext := baseName[..|baseName| - 5], ".java";
    } else {
      stem, ext := baseName, "";
      assert baseName + ("_" + Pad3(count)) == stem + "_" + Pad3(count) + ext;
    }
  }

  lemma SameMiddle(pre: String, a: String, b: String, post: String)
    requires pre + a + post == pre + b + post
    ensures a == b
  {
    assert a == (pre + a + post)[|pre|..|pre| + |a|];
    assert b == (pre + b + post)[|pre|..|pre| + |b|];
  }
}

=== FILE: normalize.dfy ===
/**
  `normalizeSnippet`: mask the string literals, run a fixed chain of
  `replaceAll` passes over the masked text, and put the literals back.
  Every pass matches one character, so each is a `Rule` for `Rewrite.Apply`.
 */
module Normalize {
  import opened Wrappers
  import opened Text
  import opened Masking
  import opened Rewrite

  /** The modifiers the aggressive mode separates from a following identifier, in the order applied. */
  const Modifiers: seq<String> :=
    ["public", "protected", "private", "static", "final", "abstract", "native", "strictfp", "synchronized"]

  /** The look-ahead `(?=[A-Za-z_])`. */
  predicate IdentAhead(after: Option<char>) {
    after.Some? && IsIdentStart(after.value)
  }

  /** The look-behind `(?<=[a-zA-Z_])`. */
  predicate IdentBehind(before: String) {
    |before| > 0 && IsIdentStart(before[|before| - 1])
  }

  /**
    `c` is the last character of a match of `\b<kw>(?=[A-Za-z_])`: the text up
    to `c` ends with `kw`, nothing word-like precedes that occurrence, and an
    identifier start follows. Matches of a keyword made of letters cannot
    overlap, so deciding each position on its own is what `replaceAll` does.
   */
  predicate KeywordEnd(kw: String, before: String, c: char, after: Option<char>) {
    var t := before + [c];
    && 0 < |kw| <= |t| && t[|t| - |kw|..] == kw
    && (|t| == |kw| || !IsWordChar(t[|t| - |kw| - 1]))
    && IdentAhead(after)
  }

  /** `replaceAll("\\b" + kw + "(?=[A-Za-z_])", kw + " ")`. */
  function KeywordRule(kw: String): Rule {
    (b: String, c: char, a: Option<char>) => if KeywordEnd(kw, b, c, a) then [c, ' '] else [c]
  }

  /** `replaceAll("(?<=[a-zA-Z_])\\(", " (")`, and the same for `{`. */
  function OpenRule(open: char): Rule {
    (b: String, c: char, a: Option<char>) => if c == open && IdentBehind(b) then [' ', c] else [c]
  }

  /** `replaceAll("\\)(?=[A-Za-z_])", ") ")`, and the same for `}`. */
  function CloseRule(close: char): Rule {
    (b: String, c: char, a: Option<char>) => if c == close && IdentAhead(a) then [c, ' '] else [c]
  }

  /** `replaceAll("(?<=[^\\s])([;])", "$1 ")`: a `;` right after anything but white space. */
  function SemicolonRule(): Rule {
    (b: String, c: char, a: Option<char>) =>
      if c == ';' && |b| > 0 && !IsSpace(b[|b| - 1]) then [c, ' '] else [c]
  }

  /**
    `replaceAll("[\\t\\x0B\\f\\r ]+", " ")`: the first character of a run of
    horizontal white space becomes one space, the rest of the run disappears.
   */
  function CollapseRule(): Rule {
    (b: String, c: char, a: Option<char>) =>
      if !IsHorizontalSpace(c) then [c]
      else if |b| > 0 && IsHorizontalSpace(b[|b| - 1]) then []
      else [' ']
  }

  /** The passes in the order `normalizeSnippet` applies them. */
  function Rules(aggressive: bool): (rs: seq<Rule>)
    ensures |rs| == (if aggressive then |Modifiers| else 0) + 6
  {
    (if aggressive then seq(|Modifiers|, i requires 0 <= i < |Modifiers| => KeywordRule(Modifiers[i])) else [])
      + [OpenRule('('), CloseRule(')'), OpenRule('{'), CloseRule('}'), SemicolonRule(), CollapseRule()]
  }

  /** The passes applied one after another to the whole text. */
  function Passes(t: String, rules: seq<Rule>): String
    decreases |rules|
  {
    if rules == [] then t else Passes(Pass(t, rules[0]), rules[1..])
  }

  /** `normalizeSnippet(snippet, aggressive)`; `None` stands for `null`. */
  function NormalizeSnippet(snippet: Option<String>, aggressive: bool): (r: Option<String>)
    ensures r.None? <==> snippet.None?
  {
    match snippet
    case None => None
    case Some(s) =>
      var m := Mask(s);
      Some(Unmask(Passes(m.text, Rules(aggressive)), m.literals))
  }

  // ---------------------------------------------------------------------------
  // Every pass is tame

  /** What the proof needs of a pass: it only moves blanks, cannot form "STR", and spares placeholders. */
  ghost predicate Tame(f: Rule) {
    OnlyBlanks(f) && KeepsStrApart(f) && SparesPlaceholders(f)
  }

  /** Adding a space next to a character leaves its solid text alone. */
  lemma DropPair(c: char)
    ensures DropBlanks([c, ' ']) == DropBlanks([c]) == DropBlanks([' ', c])
    ensures DropBlanks([c]) == if IsHorizontalSpace(c) then [] else [c]
    ensures DropBlanks([' ']) == [] && DropBlanks([]) == []
  {
    assert [c, ' '][1..] == [' '];
    assert [' ', c][1..] == [c];
    assert [c][1..] == [];
  }

  lemma KeywordTame(kw: String)
    requires |kw| > 0 && 'a' <= kw[|kw| - 1] <= 'z'
    ensures Tame(KeywordRule(kw))
  {
    var f := KeywordRule(kw);
    forall b, c, a ensures DropBlanks(f(b, c, a)) == DropBlanks([c]) {
      DropPair(c);
    }
    forall b, c, a | KeywordEnd(kw, b, c, a) ensures c == kw[|kw| - 1] {
      var t := b + [c];
      assert t[|t| - 1] == kw[|kw| - 1];
    }
  }

  /** A rule that keeps each character, at most padding one that is no placeholder character with a space. */
  ghost predicate PadsOnly(f: Rule) {
    forall b, c, a :: f(b, c, a) == [c] || (!IsPlaceholderChar(c) && (f(b, c, a) == [c, ' '] || f(b, c, a) == [' ', c]))
  }

  lemma PadsOnlyTame(f: Rule)
    requires PadsOnly(f)
    ensures Tame(f)
  {
    forall b, c, a ensures DropBlanks(f(b, c, a)) == DropBlanks([c]) {
      DropPair(c);
    }
    forall b, c, a
      ensures IsStrChar(c) ==> f(b, c, a) == [c]
      ensures !IsStrChar(c) ==> NoStrChar(f(b, c, a))
      ensures f(b, c, a) != []
    {
      assert f(b, c, a) == [c] || f(b, c, a) == [c, ' '] || f(b, c, a) == [' ', c];
    }
  }

  lemma OpenTame(open: char)
    requires open == '(' || open == '{'
    ensures Tame(OpenRule(open))
  {
    PadsOnlyTame(OpenRule(open));
  }

  lemma CloseTame(close: char)
    requires close == ')' || close == '}'
    ensures Tame(CloseRule(close))
  {
    PadsOnlyTame(CloseRule(close));
  }

  lemma SemicolonTame()
    ensures Tame(SemicolonRule())
  {
    PadsOnlyTame(SemicolonRule());
  }

  lemma CollapseTame()
    ensures Tame(CollapseRule())
  {
    var f := CollapseRule();
    forall b, c, a
      ensures DropBlanks(f(b, c, a)) == DropBlanks([c])
      ensures IsStrChar(c) ==> f(b, c, a) == [c]
      ensures !IsStrChar(c) ==> NoStrChar(f(b, c, a))
      ensures f(b, c, a) == [] ==> |b| > 0 && !IsStrChar(b[|b| - 1])
      ensures IsPlaceholderChar(c) ==> f(b, c, a) == [c]
    {
      DropPair(c);
      if !IsHorizontalSpace(c) {
        assert f(b, c, a) == [c];
      } else if |b| > 0 && IsHorizontalSpace(b[|b| - 1]) {
        assert f(b, c, a) == [];
      } else {
        assert f(b, c, a) == [' '];
      }
    }
  }

  lemma RulesTame(aggressive: bool)
    ensures forall i | 0 <= i < |Rules(aggressive)| :: Tame(Rules(aggressive)[i])
  {
    var rs := Rules(aggressive);
    var n := if aggressive then |Modifiers| else 0;
    forall i | 0 <= i < |rs| ensures Tame(rs[i]) {
      if i < n {
        KeywordTame(Modifiers[i]);
      } else if i == n {
        OpenTame('(');
      } else if i == n + 1 {
        CloseTame(')');
      } else if i == n + 2 {
        OpenTame('{');
      } else if i == n + 3 {
        CloseTame('}');
      } else if i == n + 4 {
        SemicolonTame();
      } else {
        CollapseTame();
      }
    }
  }

  // ---------------------------------------------------------------------------
  // Passes over masked text, split by split

  /** The masked text a split stands for. */
  function View(sp: Split): String {
    Masked(sp.pieces, 0) + sp.tail
  }

  /** The split after one pass: plain parts rewritten in context, literals kept. */
  function StepSplit(sp: Split, f: Rule): Split {
    Split(ApplyPieces(sp.pieces, 0, [], f), Apply(sp.tail, Masked(sp.pieces, 0), None, f))
  }

  function StepAll(sp: Split, rules: seq<Rule>): Split
    decreases |rules|
  {
    if rules == [] then sp else StepAll(StepSplit(sp, rules[0]), rules[1..])
  }

  lemma PassView(sp: Split, f: Rule)
    requires SparesPlaceholders(f)
    ensures Pass(View(sp), f) == View(StepSplit(sp, f))
  {
    ApplyMasked(sp.pieces, 0, sp.tail, [], f);
    assert [] + Masked(sp.pieces, 0) == Masked(sp.pieces, 0);
  }

  lemma {:induction false} PassesView(sp: Split, rules: seq<Rule>)
    requires forall i | 0 <= i < |rules| :: Tame(rules[i])
    ensures Passes(View(sp), rules) == View(StepAll(sp, rules))
    decreases |rules|
  {
    if rules != [] {
      PassView(sp, rules[0]);
      PassesView(StepSplit(sp, rules[0]), rules[1..]);
    }
  }

  /**
    `sp` is what the passes have made of `sp0` so far: same literals, same
    solid text in every plain part, no "STR" in plain text, and an empty tail
    stays empty.
   */
  ghost predicate Faithful(sp0: Split, sp: Split) {
    && |sp.pieces| == |sp0.pieces|
    && (forall i | 0 <= i < |sp.pieces| ::
          sp.pieces[i].lit == sp0.pieces[i].lit
          && DropBlanks(sp.pieces[i].pre) == DropBlanks(sp0.pieces[i].pre))
    && DropBlanks(sp.tail) == DropBlanks(sp0.tail)
    && (sp0.tail == [] ==> sp.tail == [])
    && PlainStrFree(sp.pieces, sp.tail)
  }

  lemma StepFaithful(sp0: Split, sp: Split, f: Rule)
    requires Tame(f) && Faithful(sp0, sp)
    ensures Faithful(sp0, StepSplit(sp, f))
  {
    var sp' := StepSplit(sp, f);
    ApplyPiecesSolid(sp.pieces, 0, [], f);
    ApplyPiecesStrFree(sp.pieces, 0, [], f);
    ApplyKeepsSolid(sp.tail, Masked(sp.pieces, 0), None, f);
    ApplyStrFree(sp.tail, Masked(sp.pieces, 0), None, f);
    assert PlainDropEq(sp.pieces, sp'.pieces);
    forall i | 0 <= i < |sp'.pieces|
      ensures sp'.pieces[i].lit == sp0.pieces[i].lit
      ensures DropBlanks(sp'.pieces[i].pre) == DropBlanks(sp0.pieces[i].pre)
    {
    }
    assert sp.tail == [] ==> sp'.tail == [];
    var qs := ApplyPieces(sp.pieces, 0, [], f);
    assert sp'.pieces == qs;
  }

  lemma {:induction false} StepAllFaithful(sp0: Split, sp: Split, rules: seq<Rule>)
    requires forall i | 0 <= i < |rules| :: Tame(rules[i])
    requires Faithful(sp0, sp)
    ensures Faithful(sp0, StepAll(sp, rules))
    decreases |rules|
  {
    if rules != [] {
      StepFaithful(sp0, sp, rules[0]);
      StepAllFaithful(sp0, StepSplit(sp, rules[0]), rules[1..]);
    }
  }

  lemma FaithfulWellFormed(sp0: Split, sp: Split)
    requires WellFormed(sp0) && Faithful(sp0, sp)
    ensures WellFormed(sp)
  {
  }

  // ---------------------------------------------------------------------------
  // Putting the literals back

  /** Every literal of a split of "STR"-free text is itself "STR"-free. */
  lemma {:induction false} LitsFree(ps: seq<Piece>, tail: String, before: String)
    requires StrFree(before + Orig(ps) + tail)
    ensures forall i | 0 <= i < |ps| :: StrFree(ps[i].lit)
    decreases |ps|
  {
    if ps != [] {
      var b := before + ps[0].pre + ps[0].lit;
      var rest := Orig(ps[1..]) + tail;
      assert before + Orig(ps) + tail == b + Orig(ps[1..]) + tail;
      LitsFree(ps[1..], tail, b);
      assert before + Orig(ps) + tail == (before + ps[0].pre) + (ps[0].lit + rest);
      StrFreeParts(before + ps[0].pre, ps[0].lit + rest);
      StrFreeParts(ps[0].lit, rest);
      forall i | 0 <= i < |ps| ensures StrFree(ps[i].lit) {
        if i > 0 {
          assert ps[i] == ps[1..][i - 1];
        }
      }
    }
  }

  /**
    Plain parts, literals and tail free of "STR" give an original text free of
    it: each literal starts with a quote, and ends with one unless nothing
    follows it.
   */
  lemma {:induction false} OrigFree(ps: seq<Piece>, tail: String)
    requires WellFormed(Split(ps, tail)) && PlainStrFree(ps, tail)
    requires forall i | 0 <= i < |ps| :: StrFree(ps[i].lit)
    ensures StrFree(Orig(ps) + tail)
    decreases |ps|
  {
    if ps == [] {
      assert Orig(ps) + tail == tail;
    } else {
      var pre, lit := ps[0].pre, ps[0].lit;
      var rest := Orig(ps[1..]) + tail;
      forall i | 0 <= i < |ps[1..]|
        ensures Sealed(ps[1..][i].lit) || (i == |ps[1..]| - 1 && tail == [])
      {
        assert ps[1..][i] == ps[i + 1];
      }
      OrigFree(ps[1..], tail);
      if !Sealed(lit) {
        assert |ps| == 1 && tail == [];
        assert rest == [];
      }
      StrFreeJoin(lit, rest);
      StrFreeJoin(pre, lit + rest);
      assert Orig(ps) + tail == pre + (lit + rest);
    }
  }

  /** Two splits whose plain parts have the same solid text have originals with the same solid text. */
  lemma {:induction false} DropOrig(ps0: seq<Piece>, ps: seq<Piece>)
    requires |ps| == |ps0|
    requires forall i | 0 <= i < |ps| ::
      ps[i].lit == ps0[i].lit && DropBlanks(ps[i].pre) == DropBlanks(ps0[i].pre)
    ensures DropBlanks(Orig(ps)) == DropBlanks(Orig(ps0))
    decreases |ps|
  {
    if ps != [] {
      DropOrig(ps0[1..], ps[1..]);
      DropBlanksConcat(ps[0].pre + ps[0].lit, Orig(ps[1..]));
      DropBlanksConcat(ps[0].pre, ps[0].lit);
      DropBlanksConcat(ps0[0].pre + ps0[0].lit, Orig(ps0[1..]));
      DropBlanksConcat(ps0[0].pre, ps0[0].lit);
    }
  }

  /** After tame passes the split still describes the original, and its original text has no "STR". */
  lemma FinalSplit(sp0: Split, rules: seq<Rule>)
    requires forall i | 0 <= i < |rules| :: Tame(rules[i])
    requires WellFormed(sp0) && StrFree(Orig(sp0.pieces) + sp0.tail)
    ensures Faithful(sp0, StepAll(sp0, rules))
    ensures StrFree(Orig(StepAll(sp0, rules).pieces) + StepAll(sp0, rules).tail)
  {
    SelfFaithful(sp0);
    StepAllFaithful(sp0, sp0, rules);
    FaithfulFree(sp0, StepAll(sp0, rules));
  }

  /** A well-formed split without "STR" describes itself. */
  lemma SelfFaithful(sp0: Split)
    requires WellFormed(sp0) && StrFree(Orig(sp0.pieces) + sp0.tail)
    ensures Faithful(sp0, sp0)
  {
    assert [] + Orig(sp0.pieces) + sp0.tail == Orig(sp0.pieces) + sp0.tail;
    PlainPartsFree(sp0.pieces, sp0.tail, []);
  }

  /** What faithfully describes "STR"-free text has an original free of "STR" too. */
  lemma FaithfulFree(sp0: Split, sp: Split)
    requires WellFormed(sp0) && StrFree(Orig(sp0.pieces) + sp0.tail)
    requires Faithful(sp0, sp)
    ensures StrFree(Orig(sp.pieces) + sp.tail)
  {
    assert [] + Orig(sp0.pieces) + sp0.tail == Orig(sp0.pieces) + sp0.tail;
    LitsFree(sp0.pieces, sp0.tail, []);
    FaithfulWellFormed(sp0, sp);
    assert forall i | 0 <= i < |sp.pieces| :: StrFree(sp.pieces[i].lit) by {
      forall i | 0 <= i < |sp.pieces| ensures StrFree(sp.pieces[i].lit) {
        assert sp.pieces[i].lit == sp0.pieces[i].lit;
      }
    }
    OrigFree(sp.pieces, sp.tail);
  }

  lemma DropSplit(sp0: Split, sp: Split)
    requires Faithful(sp0, sp)
    ensures DropBlanks(Orig(sp.pieces) + sp.tail) == DropBlanks(Orig(sp0.pieces) + sp0.tail)
  {
    DropOrig(sp0.pieces, sp.pieces);
    DropBlanksConcat(Orig(sp.pieces), sp.tail);
    DropBlanksConcat(Orig(sp0.pieces), sp0.tail);
  }

  /** Passes that are all tame, run over a masked split and unmasked, keep its solid text. */
  lemma PassesKeepSolid(sp0: Split, rules: seq<Rule>)
    requires forall i | 0 <= i < |rules| :: Tame(rules[i])
    requires WellFormed(sp0) && StrFree(Orig(sp0.pieces) + sp0.tail)
    ensures DropBlanks(Unmask(Passes(View(sp0), rules), Lits(sp0.pieces)))
      == DropBlanks(Orig(sp0.pieces) + sp0.tail)
  {
    FinalSplit(sp0, rules);
    var sp := StepAll(sp0, rules);
    PassesView(sp0, rules);
    assert Lits(sp.pieces) == Lits(sp0.pieces);
    UnmaskMasked(sp.pieces, sp.tail);
    DropSplit(sp0, sp);
  }

  /**
    The normaliser only moves horizontal white space: deleting space, tab,
    vertical tab, form feed and carriage return from its result gives what
    deleting them from the input gives, in both modes. Line breaks, literal
    contents and every other character survive in order.
   */
  lemma NormalizeKeepsSolid(s: String, aggressive: bool)
    requires !Contains(s, "STR")
    ensures NormalizeSnippet(Some(s), aggressive).Some?
    ensures DropBlanks(NormalizeSnippet(Some(s), aggressive).value) == DropBlanks(s)
  {
    RulesTame(aggressive);
    MaskedPassesKeepSolid(s, Rules(aggressive));
  }

  /** Tame passes over the masked text, unmasked, keep the text's solid characters. */
  lemma MaskedPassesKeepSolid(s: String, rules: seq<Rule>)
    requires !Contains(s, "STR")
    requires forall i | 0 <= i < |rules| :: Tame(rules[i])
    ensures DropBlanks(Unmask(Passes(Mask(s).text, rules), Mask(s).literals)) == DropBlanks(s)
  {
    StrFreeIffNoMatch(s);
    var sp, m := Scan(s), Mask(s);
    assert m.text == View(sp) && m.literals == Lits(sp.pieces);
    PassesKeepSolid(sp, rules);
  }

  // ---------------------------------------------------------------------------
  // What single passes do

  /** Horizontal white space occurs only as single spaces. */
  predicate NoBlankRun(t: String) {
    forall i | 0 <= i < |t| :: IsHorizontalSpace(t[i]) ==>
      t[i] == ' ' && (i + 1 < |t| ==> !IsHorizontalSpace(t[i + 1]))
  }

  /** The collapse pass leaves single spaces only, and after a blank it starts with no blank. */
  lemma {:induction false} CollapseApply(s: String, before: String, after: Option<char>)
    ensures NoBlankRun(Apply(s, before, after, CollapseRule()))
    ensures |before| > 0 && IsHorizontalSpace(before[|before| - 1]) ==>
      var t := Apply(s, before, after, CollapseRule());
      t == [] || !IsHorizontalSpace(t[0])
    decreases |s|
  {
    if s != [] {
      var f := CollapseRule();
      var nx := if |s| > 1 then Some(s[1]) else after;
      var o := f(before, s[0], nx);
      var b' := before + [s[0]];
      var rest := Apply(s[1..], b', after, f);
      CollapseApply(s[1..], b', after);
      assert Apply(s, before, after, f) == o + rest;
      assert IsHorizontalSpace(s[0]) ==> rest == [] || !IsHorizontalSpace(rest[0]);
      var t := o + rest;
      forall i | 0 <= i < |t| && IsHorizontalSpace(t[i])
        ensures t[i] == ' ' && (i + 1 < |t| ==> !IsHorizontalSpace(t[i + 1]))
      {
        if i >= |o| {
          assert t[i] == rest[i - |o|];
        }
      }
    }
  }

  lemma CollapsePass(s: String)
    ensures NoBlankRun(Pass(s, CollapseRule()))
  {
    CollapseApply(s, [], None);
  }

  /** The keyword pass, run over the keyword itself at the start of the text with an identifier start after it, appends one space. */
  lemma {:induction false} KeywordPrefix(kw: String, j: nat, c: char)
    requires j < |kw| && IsIdentStart(c)
    ensures Apply(kw[j..], kw[..j], Some(c), KeywordRule(kw)) == kw[j..] + " "
    decreases |kw| - j
  {
    var f := KeywordRule(kw);
    assert kw[..j] + [kw[j]] == kw[..j + 1];
    if j == |kw| - 1 {
      assert kw[..j + 1] == kw;
      assert KeywordEnd(kw, kw[..j], kw[j], Some(c));
      assert kw[j..] == [kw[j]];
    } else {
      KeywordPrefix(kw, j + 1, c);
      assert kw[j..][1..] == kw[j + 1..];
      assert !KeywordEnd(kw, kw[..j], kw[j], Some(kw[j + 1]));
      assert kw[j..] == [kw[j]] + kw[j + 1..];
    }
  }

  /**
    The aggressive pass splits an identifier that starts with a modifier:
    text that opens with the keyword glued to an identifier start opens with
    the keyword, a space, and that character, whatever follows.
   */
  lemma KeywordGluedSplits(kw: String, c: char, rest: String)
    requires kw != [] && IsIdentStart(c)
    ensures StartsWith(Pass(kw + [c] + rest, KeywordRule(kw)), kw + " " + [c])
  {
    var f := KeywordRule(kw);
    var tail := [c] + rest;
    assert kw + [c] + rest == kw + tail;
    ApplyConcat(kw, tail, [], None, f);
    assert kw[0..] == kw && kw[..0] == [];
    KeywordPrefix(kw, 0, c);
    var second := Apply(tail, [] + kw, None, f);
    assert second[0] == c;
    var r := Pass(kw + tail, f);
    assert r == (kw + " ") + second;
    assert r[..|kw| + 2] == kw + " " + [c];
  }

  /** `finalize` becomes `final ize` in aggressive mode. */
  lemma FinalizeSplits()
    ensures StartsWith(Pass("finalize", KeywordRule("final")), "final i")
  {
    assert "finalize" == "final" + ['i'] + "ze";
    KeywordGluedSplits("final", 'i', "ze");
  }
}

=== FILE: rewrite.dfy ===
/**
  The regular-expression passes of `normalizeSnippet` each match a single
  character, possibly guarded by a look-behind or look-ahead, and replace it.
  Java's `replaceAll` evaluates every lookaround against the text the pass
  started from, so such a pass is a per-character rule that sees the whole
  text before the character and the character after it. This module defines
  that rewrite once and proves what the normaliser needs of it.
 */
module Rewrite {
  import opened Wrappers
  import opened Text
  import opened Masking

  /** What replaces character `c`, given the pass input before it and the character after it. */
  type Rule = (String, char, Option<char>) -> String

  /** Rewrite `s`, which follows `before` and precedes `after` in the pass input. */
  function Apply(s: String, before: String, after: Option<char>, f: Rule): String
    decreases |s|
  {
    if s == [] then []
    else f(before, s[0], if |s| > 1 then Some(s[1]) else after) + Apply(s[1..], before + [s[0]], after, f)
  }

  /** One `replaceAll` pass over a whole text. */
  function Pass(s: String, f: Rule): String {
    Apply(s, [], None, f)
  }

  function FirstOr(s: String, after: Option<char>): Option<char> {
    if s == [] then after else Some(s[0])
  }

  /** A pass over a concatenation is the pass over each part, each seeing the other as context. */
  lemma {:induction false} ApplyConcat(a: String, b: String, before: String, after: Option<char>, f: Rule)
    ensures Apply(a + b, before, after, f)
      == Apply(a, before, FirstOr(b, after), f) + Apply(b, before + a, after, f)
    decreases |a|
  {
    if a == [] {
      assert a + b == b;
      assert before + a == before;
    } else {
      assert (a + b)[1..] == a[1..] + b;
      assert (a + b)[0] == a[0];
      ApplyConcat(a[1..], b, before + [a[0]], after, f);
      assert before + [a[0]] + a[1..] == before + a;
    }
  }

  // ---------------------------------------------------------------------------
  // Horizontal white space

  /** The text with every `[\t\x0B\f\r ]` character removed. */
  function DropBlanks(s: String): (r: String)
    ensures |r| <= |s|
  {
    if s == [] then []
    else (if IsHorizontalSpace(s[0]) then [] else [s[0]]) + DropBlanks(s[1..])
  }

  lemma {:induction false} DropBlanksConcat(a: String, b: String)
    ensures DropBlanks(a + b) == DropBlanks(a) + DropBlanks(b)
    decreases |a|
  {
    if a == [] {
      assert a + b == b;
    } else {
      assert (a + b)[1..] == a[1..] + b;
      DropBlanksConcat(a[1..], b);
    }
  }

  /** A rule that only adds or removes horizontal white space. */
  ghost predicate OnlyBlanks(f: Rule) {
    forall b, c, a :: DropBlanks(f(b, c, a)) == DropBlanks([c])
  }

  lemma {:induction false} ApplyKeepsSolid(s: String, before: String, after: Option<char>, f: Rule)
    requires OnlyBlanks(f)
    ensures DropBlanks(Apply(s, before, after, f)) == DropBlanks(s)
    decreases |s|
  {
    if s != [] {
      var nx := if |s| > 1 then Some(s[1]) else after;
      ApplyKeepsSolid(s[1..], before + [s[0]], after, f);
      DropBlanksConcat(f(before, s[0], nx), Apply(s[1..], before + [s[0]], after, f));
      DropBlanksConcat([s[0]], s[1..]);
      assert [s[0]] + s[1..] == s;
    }
  }

  // ---------------------------------------------------------------------------
  // Keeping text free of "STR"

  predicate IsStrChar(c: char) {
    c == 'S' || c == 'T' || c == 'R'
  }

  predicate NoStrChar(o: String) {
    forall k | 0 <= k < |o| :: !IsStrChar(o[k])
  }

  /**
    A rule that leaves `S`, `T` and `R` alone, never produces them from other
    characters, and deletes a character only right after one that is not `S`
    or `T`: such a rule cannot create "STR".
   */
  ghost predicate KeepsStrApart(f: Rule) {
    forall b, c, a ::
      && (IsStrChar(c) ==> f(b, c, a) == [c])
      && (!IsStrChar(c) ==> NoStrChar(f(b, c, a)))
      && (f(b, c, a) == [] ==> |b| > 0 && !IsStrChar(b[|b| - 1]))
  }

  /** After `S` or `T`, output starting with one of `S`, `T`, `R` starts with that very input character. */
  lemma ApplyHead(t: String, before: String, after: Option<char>, f: Rule, x: char)
    requires KeepsStrApart(f)
    requires |before| > 0 && IsStrChar(before[|before| - 1])
    requires IsStrChar(x)
    requires |Apply(t, before, after, f)| > 0 && Apply(t, before, after, f)[0] == x
    ensures |t| > 0 && t[0] == x
    ensures Apply(t, before, after, f) == [x] + Apply(t[1..], before + [x], after, f)
  {
    var nx := if |t| > 1 then Some(t[1]) else after;
    var o := f(before, t[0], nx);
    if o == [] {
      assert false;
    }
  }

  lemma {:induction false} ApplyStrFree(s: String, before: String, after: Option<char>, f: Rule)
    requires KeepsStrApart(f)
    requires StrFree(s)
    ensures StrFree(Apply(s, before, after, f))
    decreases |s|
  {
    if s != [] {
      var nx := if |s| > 1 then Some(s[1]) else after;
      var o := f(before, s[0], nx);
      var rest := Apply(s[1..], before + [s[0]], after, f);
      var out := Apply(s, before, after, f);
      assert out == o + rest;
      StrFreeParts([s[0]], s[1..]) by {
        assert [s[0]] + s[1..] == s;
      }
      ApplyStrFree(s[1..], before + [s[0]], after, f);
      forall j | 0 <= j < |out| ensures !StrAt(out, j) {
        if StrAt(out, j) {
          if j >= |o| {
            StrAtSuffix(o, rest, j);
          } else {
            assert IsStrChar(s[0]);
            assert o == [s[0]] && j == 0 && s[0] == 'S';
            ApplyHead(s[1..], before + [s[0]], after, f, 'T');
            var rest2 := Apply(s[2..], before + [s[0]] + [s[1]], after, f);
            assert s[1..][1..] == s[2..];
            assert rest == ['T'] + rest2;
            ApplyHead(s[2..], before + [s[0]] + [s[1]], after, f, 'R');
            assert StrAt(s, 0);
          }
        }
      }
    }
  }

  // ---------------------------------------------------------------------------
  // Passes over masked text

  /** Placeholder characters: underscores, `S`, `T`, `R` and digits. */
  predicate IsPlaceholderChar(c: char) {
    c == '_' || IsStrChar(c) || IsDigit(c)
  }

  /** A rule that never touches a placeholder character, whatever surrounds it. */
  ghost predicate SparesPlaceholders(f: Rule) {
    forall b, c, a :: IsPlaceholderChar(c) ==> f(b, c, a) == [c]
  }

  lemma {:induction false} ApplySpares(s: String, before: String, after: Option<char>, f: Rule)
    requires SparesPlaceholders(f)
    requires forall i | 0 <= i < |s| :: IsPlaceholderChar(s[i])
    ensures Apply(s, before, after, f) == s
    decreases |s|
  {
    if s != [] {
      ApplySpares(s[1..], before + [s[0]], after, f);
    }
  }

  lemma PlaceholderChars(k: nat)
    ensures forall i | 0 <= i < |Placeholder(k)| :: IsPlaceholderChar(Placeholder(k)[i])
  {
    var d := Dec(k);
    forall i | 0 <= i < |Placeholder(k)| ensures IsPlaceholderChar(Placeholder(k)[i]) {
      if 5 <= i < 5 + |d| {
        assert Placeholder(k)[i] == d[i - 5];
      }
    }
  }

  /** The plain text of each piece rewritten in its context; literals untouched. */
  function ApplyPieces(ps: seq<Piece>, k: nat, before: String, f: Rule): (qs: seq<Piece>)
    ensures |qs| == |ps|
    ensures forall i | 0 <= i < |ps| :: qs[i].lit == ps[i].lit
  {
    if ps == [] then []
    else
      [Piece(Apply(ps[0].pre, before, Some('_'), f), ps[0].lit)]
        + ApplyPieces(ps[1..], k + 1, before + ps[0].pre + Placeholder(k), f)
  }

  /**
    A pass that spares placeholders maps masked text to masked text: each
    plain part is rewritten, every placeholder stays where it was.
   */
  lemma {:induction false} ApplyMasked(ps: seq<Piece>, k: nat, tail: String, before: String, f: Rule)
    requires SparesPlaceholders(f)
    ensures Apply(Masked(ps, k) + tail, before, None, f)
      == Masked(ApplyPieces(ps, k, before, f), k) + Apply(tail, before + Masked(ps, k), None, f)
    decreases |ps|
  {
    if ps == [] {
      assert Masked(ps, k) + tail == tail;
      assert before + Masked(ps, k) == before;
    } else {
      var pre, t, m1 := ps[0].pre, Placeholder(k), Masked(ps[1..], k + 1);
      var before1 := before + pre + t;
      var pre' := Apply(pre, before, Some('_'), f);
      var qs1 := ApplyPieces(ps[1..], k + 1, before1, f);
      var a := Apply(tail, before1 + m1, None, f);
      calc {
        Apply(Masked(ps, k) + tail, before, None, f);
        { MaskedUnfold(ps, k, tail, before); }
        Apply(pre + t + (m1 + tail), before, None, f);
        { ApplyPiece(pre, k, m1 + tail, before, f); }
        pre' + t + Apply(m1 + tail, before1, None, f);
        { ApplyMasked(ps[1..], k + 1, tail, before1, f); }
        pre' + t + (Masked(qs1, k + 1) + a);
        { MaskedHead(ps, k, before, f); }
        Masked(ApplyPieces(ps, k, before, f), k) + a;
      }
      MaskedUnfold(ps, k, tail, before);
    }
  }

  lemma MaskedUnfold(ps: seq<Piece>, k: nat, tail: String, before: String)
    requires ps != []
    ensures Masked(ps, k) + tail == ps[0].pre + Placeholder(k) + (Masked(ps[1..], k + 1) + tail)
    ensures before + ps[0].pre + Placeholder(k) + Masked(ps[1..], k + 1) == before + Masked(ps, k)
  {
  }

  lemma MaskedHead(ps: seq<Piece>, k: nat, before: String, f: Rule)
    requires ps != []
    ensures Masked(ApplyPieces(ps, k, before, f), k)
      == Apply(ps[0].pre, before, Some('_'), f) + Placeholder(k)
        + Masked(ApplyPieces(ps[1..], k + 1, before + ps[0].pre + Placeholder(k), f), k + 1)
  {
    var qs := ApplyPieces(ps, k, before, f);
    assert qs[1..] == ApplyPieces(ps[1..], k + 1, before + ps[0].pre + Placeholder(k), f);
  }

  /** One plain part and its placeholder, rewritten. */
  lemma ApplyPiece(pre: String, k: nat, rest: String, before: String, f: Rule)
    requires SparesPlaceholders(f)
    ensures Apply(pre + Placeholder(k) + rest, before, None, f)
      == Apply(pre, before, Some('_'), f) + Placeholder(k)
        + Apply(rest, before + pre + Placeholder(k), None, f)
  {
    var t := Placeholder(k);
    assert pre + t + rest == pre + (t + rest);
    ApplyConcat(pre, t + rest, before, None, f);
    assert FirstOr(t + rest, None) == Some('_');
    ApplyConcat(t, rest, before + pre, None, f);
    PlaceholderChars(k);
    ApplySpares(t, before + pre, FirstOr(rest, None), f);
  }

  /** Splits whose plain text satisfies `P` piecewise. */
  ghost predicate PlainDropEq(ps: seq<Piece>, qs: seq<Piece>)
    requires |ps| == |qs|
  {
    forall i | 0 <= i < |ps| :: DropBlanks(qs[i].pre) == DropBlanks(ps[i].pre) && qs[i].lit == ps[i].lit
  }

  lemma {:induction false} ApplyPiecesSolid(ps: seq<Piece>, k: nat, before: String, f: Rule)
    requires OnlyBlanks(f)
    ensures PlainDropEq(ps, ApplyPieces(ps, k, before, f))
    decreases |ps|
  {
    if ps != [] {
      ApplyKeepsSolid(ps[0].pre, before, Some('_'), f);
      ApplyPiecesSolid(ps[1..], k + 1, before + ps[0].pre + Placeholder(k), f);
    }
  }

  lemma {:induction false} ApplyPiecesStrFree(ps: seq<Piece>, k: nat, before: String, f: Rule)
    requires KeepsStrApart(f)
    requires forall i | 0 <= i < |ps| :: StrFree(ps[i].pre)
    ensures forall i | 0 <= i < |ps| :: StrFree(ApplyPieces(ps, k, before, f)[i].pre)
    decreases |ps|
  {
    if ps != [] {
      var qs := ApplyPieces(ps, k, before, f);
      ApplyStrFree(ps[0].pre, before, Some('_'), f);
      ApplyPiecesStrFree(ps[1..], k + 1, before + ps[0].pre + Placeholder(k), f);
      assert qs[1..] == ApplyPieces(ps[1..], k + 1, before + ps[0].pre + Placeholder(k), f);
      forall i | 0 <= i < |qs| ensures StrFree(qs[i].pre) {
        if i > 0 {
          assert qs[i] == qs[1..][i - 1];
        }
      }
    }
  }
}

=== FILE: text.dfy ===
/** Optional values: the model's stand-in for Java's `null`. */
module Wrappers {

  datatype Option<+T> = None | Some(value: T) {

    /** The value, or `default` when there is none. */
    function GetOr(default: T): T {
      match this
      case Some(v) => v
      case None => default
    }
  }
}

/**
  Character classes and the handful of `java.lang.String` operations the
  generators rely on, over ASCII text: `trim`, `toLowerCase`, `startsWith`,
  `endsWith`, `contains`, `indexOf`, `replace`, and `Integer.toString` /
  `Integer.parseInt` for the decimal form of integers.
 */
module Text {

  type String = seq<char>

  // ---------------------------------------------------------------------------
  // Character classes

  /** ASCII letters, `[A-Za-z]`. */
  predicate IsLetter(c: char) {
    ('a' <= c <= 'z') || ('A' <= c <= 'Z')
  }

  predicate IsDigit(c: char) {
    '0' <= c <= '9'
  }

  /** The lookaround class `[A-Za-z_]` the normaliser uses. */
  predicate IsIdentStart(c: char) {
    IsLetter(c) || c == '_'
  }

  /** Java's `\w` (and the word characters that decide `\b`): `[a-zA-Z_0-9]`. */
  predicate IsWordChar(c: char) {
    IsIdentStart(c) || IsDigit(c)
  }

  /** Java's `\s`: space, tab, newline, vertical tab, form feed, carriage return. */
  predicate IsSpace(c: char) {
    c == ' ' || c == '\t' || c == '\n' || c == '\U{0B}' || c == '\U{0C}' || c == '\r'
  }

  /** The class `[\t\x0B\f\r ]`: `\s` without the newline. */
  predicate IsHorizontalSpace(c: char) {
    IsSpace(c) && c != '\n'
  }

  /** What `String.trim` removes: every character up to and including U+0020. */
  predicate IsTrimmable(c: char) {
    c <= ' '
  }

  /** Line terminators, the characters `.` does not match. */
  predicate IsLineTerminator(c: char) {
    c == '\n' || c == '\r' || c == '\U{85}' || c == '\U{2028}' || c == '\U{2029}'
  }

  /** `Character.toLowerCase` restricted to ASCII. */
  function LowerChar(c: char): char {
    if 'A' <= c <= 'Z' then (c as int - 'A' as int + 'a' as int) as char else c
  }

  // ---------------------------------------------------------------------------
  // Searching

  predicate StartsWith(s: String, p: String) {
    |p| <= |s| && s[..|p|] == p
  }

  predicate EndsWith(s: String, p: String) {
    |p| <= |s| && s[|s| - |p|..] == p
  }

  /** `p` occurs in `s` starting at index `i`. */
  predicate MatchAt(s: String, p: String, i: int) {
    0 <= i && i + |p| <= |s| && s[i..i + |p|] == p
  }

  predicate Contains(s: String, p: String) {
    exists i | 0 <= i <= |s| :: MatchAt(s, p, i)
  }

  /** `s.indexOf(p, from)`: the first occurrence at or after `from`, or -1. */
  function IndexFrom(s: String, p: String, from: nat): (r: int)
    decreases |s| - from
    ensures r == -1 || (from <= r && MatchAt(s, p, r))
    ensures r == -1 ==> forall i | from <= i :: !MatchAt(s, p, i)
    ensures r != -1 ==> forall i | from <= i < r :: !MatchAt(s, p, i)
  {
    if from + |p| > |s| then -1
    else if MatchAt(s, p, from) then from
    else IndexFrom(s, p, from + 1)
  }

  /** `s.indexOf(p)`. */
  function IndexOf(s: String, p: String): (r: int)
    ensures r == -1 <==> !Contains(s, p)
    ensures r != -1 ==> MatchAt(s, p, r) && forall i | 0 <= i < r :: !MatchAt(s, p, i)
  {
    IndexFrom(s, p, 0)
  }

  // ---------------------------------------------------------------------------
  // Trimming and case

  /** How many leading characters `trim` removes. */
  function LeadingCut(s: String): (n: nat)
    ensures n <= |s|
    ensures forall k | 0 <= k < n :: IsTrimmable(s[k])
    ensures n == |s| || !IsTrimmable(s[n])
  {
    if s == [] || !IsTrimmable(s[0]) then 0 else 1 + LeadingCut(s[1..])
  }

  /** How many characters remain once the trailing trimmable run is cut. */
  function TrailingKeep(s: String): (n: nat)
    ensures n <= |s|
    ensures forall k | n <= k < |s| :: IsTrimmable(s[k])
    ensures n == 0 || !IsTrimmable(s[n - 1])
  {
    if s == [] || !IsTrimmable(s[|s| - 1]) then |s| else TrailingKeep(s[..|s| - 1])
  }

  /** `String.trim`: drop every leading and trailing character up to U+0020. */
  function Trim(s: String): (r: String)
    ensures |r| <= |s|
    ensures Trimmed(r)
  {
    var rest := s[LeadingCut(s)..];
    rest[..TrailingKeep(rest)]
  }

  /** Text bordered by characters `trim` keeps. */
  predicate Trimmed(s: String) {
    s == [] || (!IsTrimmable(s[0]) && !IsTrimmable(s[|s| - 1]))
  }

  lemma TrimOfTrimmed(s: String)
    requires Trimmed(s)
    ensures Trim(s) == s
  {
  }

  lemma TrimIdempotent(s: String)
    ensures Trim(Trim(s)) == Trim(s)
  {
  }

  /** `toLowerCase(Locale.ROOT)` on ASCII text. */
  function ToLower(s: String): (r: String)
    ensures |r| == |s|
    ensures forall i | 0 <= i < |s| :: r[i] == LowerChar(s[i])
  {
    seq(|s|, i requires 0 <= i < |s| => LowerChar(s[i]))
  }

  lemma ToLowerIdempotent(s: String)
    ensures ToLower(ToLower(s)) == ToLower(s)
  {
  }

  /** Trimming depends only on which characters are trimmable. */
  lemma TrimSameShape(s: String, t: String)
    requires |s| == |t|
    requires forall k | 0 <= k < |s| :: IsTrimmable(s[k]) == IsTrimmable(t[k])
    ensures LeadingCut(s) == LeadingCut(t)
    ensures TrailingKeep(s[LeadingCut(s)..]) == TrailingKeep(t[LeadingCut(t)..])
  {
    var n := LeadingCut(s);
    var m := LeadingCut(t);
    assert n <= m;
    assert m <= n;
    var a := s[n..];
    var b := t[n..];
    assert forall k | 0 <= k < |a| :: IsTrimmable(a[k]) == IsTrimmable(b[k]) by {
      forall k | 0 <= k < |a| ensures IsTrimmable(a[k]) == IsTrimmable(b[k]) {
        assert a[k] == s[n + k] && b[k] == t[n + k];
      }
    }
    var x := TrailingKeep(a);
    var y := TrailingKeep(b);
    assert x <= y;
    assert y <= x;
  }

  /** Lower-casing changes only letters, so it commutes with trimming. */
  lemma ToLowerTrim(s: String)
    ensures ToLower(Trim(s)) == Trim(ToLower(s))
  {
    var l := ToLower(s);
    assert forall k | 0 <= k < |s| :: IsTrimmable(s[k]) == IsTrimmable(l[k]);
    TrimSameShape(s, l);
  }

  // ---------------------------------------------------------------------------
  // Replacement

  /**
    `s.replace(p, r)`: every occurrence of `p`, found left to right without
    overlap, replaced by `r`.
   */
  function ReplaceAll(s: String, p: String, r: String): String
    requires |p| > 0
    decreases |s|
  {
    if |s| < |p| then s
    else if s[..|p|] == p then r + ReplaceAll(s[|p|..], p, r)
    else [s[0]] + ReplaceAll(s[1..], p, r)
  }

  /** Replacing a character everywhere by `r`, one character at a time. */
  function SubstChar(s: String, c: char, r: String): (t: String)
    ensures c !in r ==> c !in t
  {
    if s == [] then []
    else (if s[0] == c then r else [s[0]]) + SubstChar(s[1..], c, r)
  }

  lemma {:induction false} ReplaceCharIsSubst(s: String, c: char, r: String)
    ensures ReplaceAll(s, [c], r) == SubstChar(s, c, r)
  {
    if s != [] {
      ReplaceCharIsSubst(s[1..], c, r);
    }
  }

  lemma MatchShift(s: String, p: String, i: int)
    requires |s| > 0
    requires MatchAt(s[1..], p, i)
    ensures MatchAt(s, p, i + 1)
  {
    assert s[1..][i..i + |p|] == s[i + 1..i + 1 + |p|];
  }

  /** With no occurrence in reach, `replace` leaves a prefix untouched. */
  lemma {:induction false} ReplaceSkip(a: String, w: String, p: String, r: String)
    requires |p| > 0
    requires forall i | 0 <= i < |a| :: !MatchAt(a + w, p, i)
    ensures ReplaceAll(a + w, p, r) == a + ReplaceAll(w, p, r)
  {
    if a == [] {
      assert a + w == w;
    } else {
      var s := a + w;
      if |s| < |p| {
        assert ReplaceAll(w, p, r) == w;
        assert ReplaceAll(s, p, r) == s;
      } else {
        assert !MatchAt(s, p, 0);
        assert s[..|p|] != p;
        assert s[1..] == a[1..] + w;
        forall i | 0 <= i < |a| - 1
          ensures !MatchAt(a[1..] + w, p, i)
        {
          if MatchAt(a[1..] + w, p, i) {
            MatchShift(s, p, i);
          }
        }
        ReplaceSkip(a[1..], w, p, r);
        assert ReplaceAll(s, p, r) == [s[0]] + ReplaceAll(s[1..], p, r);
        assert [s[0]] + (a[1..] + ReplaceAll(w, p, r)) == a + ReplaceAll(w, p, r);
      }
    }
  }

  /** An occurrence at the very start is replaced. */
  lemma ReplaceHead(w: String, p: String, r: String)
    requires |p| > 0
    ensures ReplaceAll(p + w, p, r) == r + ReplaceAll(w, p, r)
  {
    assert (p + w)[..|p|] == p;
    assert (p + w)[|p|..] == w;
  }

  /** Text with no occurrence at all is left alone. */
  lemma ReplaceNone(s: String, p: String, r: String)
    requires |p| > 0
    requires forall i | 0 <= i < |s| :: !MatchAt(s, p, i)
    ensures ReplaceAll(s, p, r) == s
  {
    assert s + [] == s;
    ReplaceSkip(s, [], p, r);
  }

  // ---------------------------------------------------------------------------
  // Decimal numerals

  function DigitChar(d: nat): (c: char)
    requires d < 10
    ensures IsDigit(c)
  {
    ('0' as int + d) as char
  }

  function DigitValue(c: char): (d: nat)
    requires IsDigit(c)
    ensures d < 10 && DigitChar(d) == c
  {
    c as int - '0' as int
  }

  predicate AllDigits(s: String) {
    forall i | 0 <= i < |s| :: IsDigit(s[i])
  }

  /** `Integer.toString` of a non-negative value. */
  function Dec(n: nat): (r: String)
    ensures |r| > 0 && AllDigits(r)
    ensures (r[0] == '0') == (n == 0)
  {
    if n < 10 then [DigitChar(n)] else Dec(n / 10) + [DigitChar(n % 10)]
  }

  /** `Integer.parseInt` of a string of decimal digits. */
  function ParseDec(s: String): nat
    requires AllDigits(s)
  {
    if s == [] then 0 else ParseDec(s[..|s| - 1]) * 10 + DigitValue(s[|s| - 1])
  }

  lemma {:induction false} ParseDecOfDec(n: nat)
    ensures ParseDec(Dec(n)) == n
  {
    if n >= 10 {
      var d := Dec(n);
      assert d[..|d| - 1] == Dec(n / 10);
      ParseDecOfDec(n / 10);
    }
  }

  lemma DecInjective(m: nat, n: nat)
    requires Dec(m) == Dec(n)
    ensures m == n
  {
    ParseDecOfDec(m);
    ParseDecOfDec(n);
  }

  /** `Integer.toString` of any value, with a minus sign for negatives. */
  function IntToString(i: int): (r: String)
    ensures |r| > 0
    ensures (r[0] == '-') == (i < 0)
    ensures r[0] != '-' ==> AllDigits(r)
  {
    if i < 0 then "-" + Dec(-i) else Dec(i)
  }

  /** `String.valueOf(boolean)`. */
  function BoolToString(b: bool): String {
    if b then "true" else "false"
  }
}

=== FILE: worked.dfy ===
/**
  Three snippets run through the whole pipeline: masking, the passes of
  both modes, unmasking, classification and the choice of wrapper. A
  class declaration stays as it is, an `if` is wrapped in a method, and a
  field declaration is wrapped in a class.
 */
module Worked {
  import opened Wrappers
  import opened Text
  import opened Masking
  import opened Rewrite
  import opened Normalize
  import opened Comments
  import opened Classify
  import opened Wrap

  // ---------------------------------------------------------------------------
  // The pass lists, one pass at a time

  /** The six passes both modes share, in order. */
  function SharedPasses(t: String): String {
    var t1 := Pass(t, OpenRule('('));
    var t2 := Pass(t1, CloseRule(')'));
    var t3 := Pass(t2, OpenRule('{'));
    var t4 := Pass(t3, CloseRule('}'));
    var t5 := Pass(t4, SemicolonRule());
    Pass(t5, CollapseRule())
  }

  /** The nine modifier passes of the aggressive mode, in order. */
  function ModifierPasses(t: String): String {
    var k1 := Pass(t, KeywordRule("public"));
    var k2 := Pass(k1, KeywordRule("protected"));
    var k3 := Pass(k2, KeywordRule("private"));
    var k4 := Pass(k3, KeywordRule("static"));
    var k5 := Pass(k4, KeywordRule("final"));
    var k6 := Pass(k5, KeywordRule("abstract"));
    var k7 := Pass(k6, KeywordRule("native"));
    var k8 := Pass(k7, KeywordRule("strictfp"));
    Pass(k8, KeywordRule("synchronized"))
  }

  lemma {:induction false} PassesAppend(t: String, a: seq<Rule>, b: seq<Rule>)
    ensures Passes(t, a + b) == Passes(Passes(t, a), b)
    decreases |a|
  {
    if a != [] {
      assert (a + b)[0] == a[0] && (a + b)[1..] == a[1..] + b;
      PassesAppend(Pass(t, a[0]), a[1..], b);
    } else {
      assert a + b == b;
    }
  }

  /** One pass taken off the front of the list. */
  lemma PassesHead(t: String, rs: seq<Rule>)
    requires rs != []
    ensures Passes(t, rs) == Passes(Pass(t, rs[0]), rs[1..])
  {
  }

  /** Six passes, one after another. */
  lemma Passes6(t: String, rs: seq<Rule>)
    requires |rs| == 6
    ensures Passes(t, rs) == Pass(Pass(Pass(Pass(Pass(Pass(t, rs[0]), rs[1]), rs[2]), rs[3]), rs[4]), rs[5])
  {
    var t1 := Pass(t, rs[0]);
    var t2 := Pass(t1, rs[1]);
    var t3 := Pass(t2, rs[2]);
    var t4 := Pass(t3, rs[3]);
    var t5 := Pass(t4, rs[4]);
    PassesHead(t, rs);
    PassesHead(t1, rs[1..]);
    PassesHead(t2, rs[2..]);
    assert rs[1..][1..] == rs[2..];
    PassesHead(t3, rs[3..]);
    assert rs[2..][1..] == rs[3..];
    PassesHead(t4, rs[4..]);
    assert rs[3..][1..] == rs[4..];
    PassesHead(t5, rs[5..]);
    assert rs[4..][1..] == rs[5..];
    assert rs[5..][1..] == [];
  }

  /** The minimal mode runs exactly the six shared passes. */
  lemma MinimalPasses(t: String)
    ensures Passes(t, Rules(false)) == SharedPasses(t)
  {
    var rs := Rules(false);
    Passes6(t, rs);
    assert rs[0] == OpenRule('(') && rs[1] == CloseRule(')') && rs[2] == OpenRule('{');
    assert rs[3] == CloseRule('}') && rs[4] == SemicolonRule() && rs[5] == CollapseRule();
  }

  /** The aggressive mode runs the nine modifier passes first, then the six shared ones. */
  lemma AggressivePasses(t: String)
    ensures Passes(t, Rules(true)) == SharedPasses(ModifierPasses(t))
  {
    var rs := Rules(true);
    var ks, tail := rs[..9], rs[9..];
    assert rs == ks + tail;
    PassesAppend(t, ks, tail);
    Passes9(t, ks);
    assert tail == Rules(false);
    MinimalPasses(Passes(t, ks));
    assert ks[0] == KeywordRule("public") && ks[1] == KeywordRule("protected") && ks[2] == KeywordRule("private");
    assert ks[3] == KeywordRule("static") && ks[4] == KeywordRule("final") && ks[5] == KeywordRule("abstract");
    assert ks[6] == KeywordRule("native") && ks[7] == KeywordRule("strictfp") && ks[8] == KeywordRule("synchronized");
  }

  /** Nine passes, one after another. */
  lemma Passes9(t: String, rs: seq<Rule>)
    requires |rs| == 9
    ensures Passes(t, rs)
      == Pass(Pass(Pass(Pass(Pass(Pass(Pass(Pass(Pass(t, rs[0]), rs[1]), rs[2]), rs[3]), rs[4]), rs[5]), rs[6]), rs[7]), rs[8])
  {
    var t1 := Pass(t, rs[0]);
    var t2 := Pass(t1, rs[1]);
    var t3 := Pass(t2, rs[2]);
    PassesHead(t, rs);
    PassesHead(t1, rs[1..]);
    PassesHead(t2, rs[2..]);
    assert rs[1..][1..] == rs[2..];
    assert rs[2..][1..] == rs[3..];
    Passes6(Pass(t2, rs[2]), rs[3..]);
  }

  /** A snippet without quotes is normalised by running the passes on the snippet itself. */
  lemma NormalizeWithoutQuotes(s: String, aggressive: bool)
    requires forall i | 0 <= i < |s| :: !IsQuote(s[i])
    ensures NormalizeSnippet(Some(s), aggressive) == Some(Passes(s, Rules(aggressive)))
  {
    MaskWithoutQuotes(s);
  }

  // ---------------------------------------------------------------------------
  // Passes that change nothing, or add the one space they must

  /** The first step of a pass. */
  lemma ApplyStep(s: String, before: String, after: Option<char>, f: Rule)
    requires s != []
    ensures Apply(s, before, after, f)
      == f(before, s[0], FirstOr(s[1..], after)) + Apply(s[1..], before + [s[0]], after, f)
  {
  }

  lemma {:induction false} SemicolonAbsent(s: String, before: String, after: Option<char>)
    requires ';' !in s
    ensures Apply(s, before, after, SemicolonRule()) == s
    decreases |s|
  {
    if s != [] {
      var f := SemicolonRule();
      ApplyStep(s, before, after, f);
      assert f(before, s[0], FirstOr(s[1..], after)) == [s[0]];
      SemicolonAbsent(s[1..], before + [s[0]], after);
      assert s == [s[0]] + s[1..];
    }
  }

  /** A keyword ends only where its every letter has been seen. */
  lemma KeywordEndSeen(kw: String, before: String, c: char, after: Option<char>, j: nat)
    requires j < |kw|
    ensures KeywordEnd(kw, before, c, after) ==> kw[j] in before + [c]
  {
    if KeywordEnd(kw, before, c, after) {
      var t := before + [c];
      assert t[|t| - |kw|..][j] == t[|t| - |kw| + j];
    }
  }

  /** A keyword pass keeps text that lacks one of the keyword's letters. */
  lemma {:induction false} KeywordAbsent(s: String, before: String, after: Option<char>, kw: String, j: nat)
    requires j < |kw| && kw[j] !in before && kw[j] !in s
    ensures Apply(s, before, after, KeywordRule(kw)) == s
    decreases |s|
  {
    if s != [] {
      var nx := FirstOr(s[1..], after);
      ApplyStep(s, before, after, KeywordRule(kw));
      KeywordEndSeen(kw, before, s[0], nx, j);
      assert kw[j] != s[0] && kw[j] !in before + [s[0]];
      assert KeywordRule(kw)(before, s[0], nx) == [s[0]];
      KeywordAbsent(s[1..], before + [s[0]], after, kw, j);
      assert s == [s[0]] + s[1..];
    }
  }

  /** Every `open` after the first character follows something other than an identifier character. */
  predicate OpenSpaced(s: String, open: char) {
    forall i | 1 <= i < |s| :: s[i] == open ==> !IsIdentStart(s[i - 1])
  }

  /** Every `close` before the last character precedes something other than an identifier start. */
  predicate CloseSpaced(s: String, close: char) {
    forall i | 0 <= i < |s| - 1 :: s[i] == close ==> !IsIdentStart(s[i + 1])
  }

  /** Where a character of `a + [c] + b` comes from. */
  lemma Around(t: String, a: String, b: String, c: char, i: int)
    requires t == a + [c] + b && 0 <= i < |t|
    ensures i < |a| ==> t[i] in a
    ensures i > |a| ==> t[i] in b
  {
    if i < |a| {
      assert t[i] == a[i];
    } else if i > |a| {
      assert t[i] == b[i - |a| - 1];
    }
  }

  lemma OpenSpacedAbsent(t: String, open: char)
    requires open !in t
    ensures OpenSpaced(t, open)
  {
  }

  lemma CloseSpacedAbsent(t: String, close: char)
    requires close !in t
    ensures CloseSpaced(t, close)
  {
  }

  /** A bracket that occurs once, after something other than an identifier character. */
  lemma OpenSpacedOnce(t: String, a: String, b: String, open: char)
    requires t == a + [open] + b
    requires open !in a && open !in b
    requires a != [] ==> !IsIdentStart(a[|a| - 1])
    ensures OpenSpaced(t, open)
  {
    forall i | 1 <= i < |t| && t[i] == open
      ensures !IsIdentStart(t[i - 1])
    {
      Around(t, a, b, open, i);
    }
  }

  /** A bracket that occurs once, before something other than an identifier start. */
  lemma CloseSpacedOnce(t: String, a: String, b: String, close: char)
    requires t == a + [close] + b
    requires close !in a && close !in b
    requires b != [] ==> !IsIdentStart(b[0])
    ensures CloseSpaced(t, close)
  {
    forall i | 0 <= i < |t| - 1 && t[i] == close
      ensures !IsIdentStart(t[i + 1])
    {
      Around(t, a, b, close, i);
    }
  }

  /** An opening-bracket pass keeps text whose brackets never follow an identifier character. */
  lemma {:induction false} OpenSteady(s: String, before: String, after: Option<char>, open: char)
    requires OpenSpaced(s, open)
    requires s != [] && s[0] == open ==> !IdentBehind(before)
    ensures Apply(s, before, after, OpenRule(open)) == s
    decreases |s|
  {
    if s != [] {
      var b' := before + [s[0]];
      ApplyStep(s, before, after, OpenRule(open));
      assert forall i | 1 <= i < |s| :: s[1..][i - 1] == s[i];
      assert b'[|b'| - 1] == s[0];
      assert |s| > 1 ==> s[1..][0] == s[1];
      OpenSteady(s[1..], b', after, open);
      assert s == [s[0]] + s[1..];
    }
  }

  /** A closing-bracket pass keeps text whose brackets never precede an identifier start. */
  lemma {:induction false} CloseSteady(s: String, before: String, after: Option<char>, close: char)
    requires CloseSpaced(s, close)
    requires s != [] && s[|s| - 1] == close ==> !IdentAhead(after)
    ensures Apply(s, before, after, CloseRule(close)) == s
    decreases |s|
  {
    if s != [] {
      ApplyStep(s, before, after, CloseRule(close));
      assert forall i | 1 <= i < |s| :: s[1..][i - 1] == s[i];
      assert |s| > 1 ==> FirstOr(s[1..], after) == Some(s[1]) && s[1..][|s[1..]| - 1] == s[|s| - 1];
      CloseSteady(s[1..], before + [s[0]], after, close);
      assert s == [s[0]] + s[1..];
    }
  }

  /** The one `;` of a text, right after a character that is not white space, gains a space. */
  lemma SemicolonOnce(t: String, a: String, b: String)
    requires t == a + [';'] + b
    requires ';' !in a && ';' !in b
    requires a != [] && !IsSpace(a[|a| - 1])
    ensures Pass(t, SemicolonRule()) == a + "; " + b
  {
    var f := SemicolonRule();
    var tail := [';'] + b;
    assert t == a + tail && a + "; " + b == a + ("; " + b);
    PassSplit(a, tail, f);
    SemicolonAbsent(a, [], FirstOr(tail, None));
    SemicolonGains(a, b);
  }

  /** The `;` itself, after a character that is not white space. */
  lemma SemicolonGains(a: String, b: String)
    requires ';' !in b
    requires a != [] && !IsSpace(a[|a| - 1])
    ensures Apply([';'] + b, a, None, SemicolonRule()) == "; " + b
  {
    var f := SemicolonRule();
    var tail := [';'] + b;
    assert tail[0] == ';' && tail[1..] == b;
    ApplyStep(tail, a, None, f);
    assert f(a, ';', FirstOr(b, None)) == "; ";
    SemicolonAbsent(b, a + [';'], None);
  }

  /** What is left of text without blank runs after its first character. */
  lemma NoBlankRunTail(s: String)
    requires NoBlankRun(s) && s != []
    ensures NoBlankRun(s[1..])
    ensures IsHorizontalSpace(s[0]) ==> s[0] == ' ' && (|s| > 1 ==> !IsHorizontalSpace(s[1]))
  {
    assert forall i | 0 <= i < |s[1..]| :: s[1..][i] == s[i + 1];
  }

  /** One application of the collapse rule to a character it keeps. */
  lemma CollapseKeeps(before: String, c: char, after: Option<char>)
    requires IsHorizontalSpace(c) ==> c == ' ' && !(|before| > 0 && IsHorizontalSpace(before[|before| - 1]))
    ensures CollapseRule()(before, c, after) == [c]
  {
  }

  /** The collapse pass keeps single spaces that do not follow a blank. */
  lemma {:induction false} CollapseSteady(s: String, before: String, after: Option<char>)
    requires NoBlankRun(s)
    requires s != [] && |before| > 0 && IsHorizontalSpace(before[|before| - 1]) ==> !IsHorizontalSpace(s[0])
    ensures Apply(s, before, after, CollapseRule()) == s
    decreases |s|
  {
    if s != [] {
      var b' := before + [s[0]];
      ApplyStep(s, before, after, CollapseRule());
      NoBlankRunTail(s);
      CollapseKeeps(before, s[0], FirstOr(s[1..], after));
      assert b'[|b'| - 1] == s[0];
      assert |s| > 1 ==> s[1..][0] == s[1];
      CollapseSteady(s[1..], b', after);
      assert s == [s[0]] + s[1..];
    }
  }

  /** One application of the collapse rule to a blank after a blank. */
  lemma CollapseDrops(before: String, c: char, after: Option<char>)
    requires IsHorizontalSpace(c) && |before| > 0 && IsHorizontalSpace(before[|before| - 1])
    ensures CollapseRule()(before, c, after) == []
  {
  }

  /** A space after a space disappears, and text without blank runs after it stays. */
  lemma CollapseSecond(a1: String, b: String)
    requires NoBlankRun(b)
    requires |a1| > 0 && a1[|a1| - 1] == ' '
    requires b != [] ==> !IsHorizontalSpace(b[0])
    ensures Apply([' '] + b, a1, None, CollapseRule()) == b
  {
    var t := [' '] + b;
    assert t[0] == ' ' && t[1..] == b;
    ApplyStep(t, a1, None, CollapseRule());
    CollapseDrops(a1, ' ', FirstOr(b, None));
    var a2 := a1 + [' '];
    assert a2[|a2| - 1] == ' ';
    CollapseSteady(b, a2, None);
  }

  /** Two spaces after a character that is not blank, then text without blank runs: one space is left. */
  lemma CollapsePair(a: String, b: String)
    requires NoBlankRun(b)
    requires a != [] && !IsHorizontalSpace(a[|a| - 1])
    requires b != [] ==> !IsHorizontalSpace(b[0])
    ensures Apply("  " + b, a, None, CollapseRule()) == " " + b
  {
    var t := "  " + b;
    var t1 := [' '] + b;
    assert t[0] == ' ' && t[1..] == t1;
    ApplyStep(t, a, None, CollapseRule());
    CollapseKeeps(a, ' ', FirstOr(t1, None));
    var a1 := a + [' '];
    assert a1[|a1| - 1] == ' ';
    CollapseSecond(a1, b);
  }

  /** A pass over text split in two. */
  lemma PassSplit(a: String, b: String, f: Rule)
    ensures Pass(a + b, f) == Apply(a, [], FirstOr(b, None), f) + Apply(b, a, None, f)
  {
    ApplyConcat(a, b, [], None, f);
    assert [] + a == a;
  }

  /** Two spaces between text without blank runs become one. */
  lemma CollapseDouble(t: String, a: String, b: String)
    requires t == a + "  " + b
    requires NoBlankRun(a) && NoBlankRun(b)
    requires a != [] && !IsHorizontalSpace(a[|a| - 1])
    requires b != [] ==> !IsHorizontalSpace(b[0])
    ensures Pass(t, CollapseRule()) == a + " " + b
  {
    var tail := "  " + b;
    assert a + "  " + b == a + tail && a + " " + b == a + (" " + b);
    PassSplit(a, tail, CollapseRule());
    assert FirstOr(tail, None) == Some(' ');
    CollapseSteady(a, [], Some(' '));
    CollapsePair(a, b);
  }

  /** A pattern occurs only where its first character does. */
  lemma ContainsFirst(s: String, p: String)
    requires p != []
    ensures Contains(s, p) ==> p[0] in s
  {
    if Contains(s, p) {
      var i :| 0 <= i <= |s| && MatchAt(s, p, i);
      assert s[i..i + |p|][0] == s[i];
    }
  }

  /** Text without quotes is normalised by running the passes over it directly. */
  lemma NoQuotes(s: String)
    requires '"' !in s && '\'' !in s
    ensures NormalizeSnippet(Some(s), false) == Some(Passes(s, Rules(false)))
    ensures NormalizeSnippet(Some(s), true) == Some(Passes(s, Rules(true)))
  {
    NormalizeWithoutQuotes(s, false);
    NormalizeWithoutQuotes(s, true);
  }

  /** The modifier passes keep text without the letters `p`, `s` and `a`. */
  lemma ModifiersKeep(t: String)
    requires 'p' !in t && 's' !in t && 'a' !in t
    ensures ModifierPasses(t) == t
  {
    KeepsFirstThree(t);
    KeepsMiddleThree(t);
    KeepsLastThree(t);
  }

  lemma KeepsFirstThree(t: String)
    requires 'p' !in t
    ensures Pass(Pass(Pass(t, KeywordRule("public")), KeywordRule("protected")), KeywordRule("private")) == t
  {
    KeywordAbsent(t, [], None, "public", 0);
    KeywordAbsent(t, [], None, "protected", 0);
    KeywordAbsent(t, [], None, "private", 0);
  }

  lemma KeepsMiddleThree(t: String)
    requires 's' !in t && 'a' !in t
    ensures Pass(Pass(Pass(t, KeywordRule("static")), KeywordRule("final")), KeywordRule("abstract")) == t
  {
    KeywordAbsent(t, [], None, "static", 0);
    KeywordAbsent(t, [], None, "final", 3);
    KeywordAbsent(t, [], None, "abstract", 0);
  }

  lemma KeepsLastThree(t: String)
    requires 's' !in t && 'a' !in t
    ensures Pass(Pass(Pass(t, KeywordRule("native")), KeywordRule("strictfp")), KeywordRule("synchronized")) == t
  {
    KeywordAbsent(t, [], None, "native", 1);
    KeywordAbsent(t, [], None, "strictfp", 0);
    KeywordAbsent(t, [], None, "synchronized", 0);
  }

  /** No upper-case ASCII letter. */
  predicate NoUpper(s: String) {
    forall i | 0 <= i < |s| :: !('A' <= s[i] <= 'Z')
  }

  lemma LowerOfNoUpper(s: String)
    requires NoUpper(s)
    ensures ToLower(s) == s
  {
  }

  /** No keyword line starts with `i` unless it is `interface`. */
  lemma NotKeywordLine(t: String)
    requires |t| >= 1 && t[0] == 'i' && !StartsWith(t, "interface")
    ensures !KeywordLine(t)
  {
    assert TypeKeywords[0][0] == 'c' && TypeKeywords[2][0] == 'e' && TypeKeywords[1] == "interface";
  }

  /** Text that opens with `i` but neither `im` nor `interface` is no type declaration. */
  lemma NotTypeDeclaration(t: String)
    requires Trimmed(t) && NoUpper(t) && |t| >= 2 && t[0] == 'i' && t[1] != 'm'
    requires !StartsWith(t, "interface")
    ensures !LooksLikeTypeDeclaration(t)
  {
    TrimOfTrimmed(t);
    StripNoComment(t);
    assert Trim(StripLeadingComments(Some(t))) == t;
    LowerOfNoUpper(t);
    assert !StartsWith(t, "package ") && !StartsWith(t, "import ");
    PlainTypeHeader(t);
    NotKeywordLine(t);
  }

  /** The bracket passes keep text whose brackets are already spaced. */
  lemma BracketsSteady(t: String)
    requires OpenSpaced(t, '(') && CloseSpaced(t, ')') && OpenSpaced(t, '{') && CloseSpaced(t, '}')
    requires t != [] ==> t[0] != '(' && t[0] != '{'
    ensures Pass(Pass(Pass(Pass(t, OpenRule('(')), CloseRule(')')), OpenRule('{')), CloseRule('}')) == t
  {
    OpenSteady(t, [], None, '(');
    CloseSteady(t, [], None, ')');
    OpenSteady(t, [], None, '{');
    CloseSteady(t, [], None, '}');
  }

  /**
    Text ending in `; }`, its brackets spaced and its blanks single: the
    semicolon pass adds a space before the brace, the collapse pass takes it
    away again.
   */
  lemma SharedSteady(t: String, a: String)
    requires t == a + "; }"
    requires OpenSpaced(t, '(') && CloseSpaced(t, ')') && OpenSpaced(t, '{') && CloseSpaced(t, '}')
    requires t[0] != '(' && t[0] != '{'
    requires ';' !in a && a != [] && !IsSpace(a[|a| - 1]) && NoBlankRun(a + ";")
    ensures SharedPasses(t) == t
  {
    BracketsSteady(t);
    SemicolonOnce(t, a, " }");
    var a1 := a + ";";
    BraceRegroup(a);
    assert NoBlankRun("}");
    CollapseDouble(a + "; " + " }", a1, "}");
  }

  lemma BraceRegroup(a: String)
    ensures a + "; " + " }" == (a + ";") + "  " + "}"
    ensures a + "; }" == (a + ";") + " " + "}"
  {
  }

  /** A quote-free text ending in `; }`, spaced as the passes want it, is its own minimal normalisation. */
  lemma MinimalSteady(t: String, a: String)
    requires t == a + "; }" && '"' !in t && '\'' !in t
    requires OpenSpaced(t, '(') && CloseSpaced(t, ')') && OpenSpaced(t, '{') && CloseSpaced(t, '}')
    requires t[0] != '(' && t[0] != '{'
    requires ';' !in a && a != [] && !IsSpace(a[|a| - 1]) && NoBlankRun(a + ";")
    ensures NormalizeSnippet(Some(t), false) == Some(t)
  {
    SharedSteady(t, a);
    MinimalPasses(t);
    NoQuotes(t);
  }

  /** Text ending in its only `;`, its brackets spaced and its blanks single, gains one trailing space. */
  lemma SharedAtEnd(t: String, a: String)
    requires t == a + ";"
    requires OpenSpaced(t, '(') && CloseSpaced(t, ')') && OpenSpaced(t, '{') && CloseSpaced(t, '}')
    requires t[0] != '(' && t[0] != '{' && t[|t| - 1] != ')' && t[|t| - 1] != '}'
    requires ';' !in a && a != [] && !IsSpace(a[|a| - 1]) && NoBlankRun(t + " ")
    ensures SharedPasses(t) == t + " "
  {
    BracketsSteady(t);
    SemicolonOnce(t, a, []);
    assert a + "; " + [] == t + " ";
    CollapseSteady(t + " ", [], None);
  }

  /** The same text, in the aggressive mode, when it has no modifier letters to split. */
  lemma AggressiveSteady(t: String, a: String)
    requires t == a + "; }" && '"' !in t && '\'' !in t
    requires 'p' !in t && 's' !in t && 'a' !in t
    requires OpenSpaced(t, '(') && CloseSpaced(t, ')') && OpenSpaced(t, '{') && CloseSpaced(t, '}')
    requires t[0] != '(' && t[0] != '{'
    requires ';' !in a && a != [] && !IsSpace(a[|a| - 1]) && NoBlankRun(a + ";")
    ensures NormalizeSnippet(Some(t), true) == Some(t)
  {
    ModifiersKeep(t);
    SharedSteady(t, a);
    AggressivePasses(t);
    NoQuotes(t);
  }

  /** A quote-free text ending in its only `;`, spaced as the passes want it, gains one space in both modes. */
  lemma EndSteady(t: String, a: String)
    requires t == a + ";" && '"' !in t && '\'' !in t
    requires 'p' !in t && 's' !in t && 'a' !in t
    requires OpenSpaced(t, '(') && CloseSpaced(t, ')') && OpenSpaced(t, '{') && CloseSpaced(t, '}')
    requires t[0] != '(' && t[0] != '{' && t[|t| - 1] != ')' && t[|t| - 1] != '}'
    requires ';' !in a && a != [] && !IsSpace(a[|a| - 1]) && NoBlankRun(t + " ")
    ensures NormalizeSnippet(Some(t), false) == Some(t + " ")
    ensures NormalizeSnippet(Some(t), true) == Some(t + " ")
  {
    SharedAtEnd(t, a);
    MinimalPasses(t);
    ModifiersKeep(t);
    AggressivePasses(t);
    NoQuotes(t);
  }

  /** `trim` cuts the one space added at the end. */
  lemma TrimTrailingSpace(h: String)
    requires h != [] && Trimmed(h)
    ensures Trim(h + " ") == h
  {
    var s := h + " ";
    assert s[0] == h[0];
    assert LeadingCut(s) == 0;
    assert s[0..] == s;
    assert TrailingKeep(s) == |h| by {
      assert s[..|s| - 1] == h;
      assert TrailingKeep(h) == |h|;
    }
    assert s[..|h|] == h;
  }

  /** Trimmed text without capitals is what the statement and member tests look at. */
  lemma LoweredPlain(t: String)
    requires Trimmed(t) && NoUpper(t)
    ensures Lowered(t) == t
  {
    LowerOfNoUpper(t);
    TrimOfTrimmed(t);
  }

  /** Text that opens with `i` but not `if` starts with no statement keyword. */
  lemma NotStatement(t: String)
    requires Lowered(t) == t && |t| >= 2 && t[0] == 'i' && t[1] != 'f'
    ensures !LooksLikeStatement(t)
  {
    forall i | 0 <= i < |StatementPrefixes|
      ensures !StartsWith(t, StatementPrefixes[i])
    {
      var p := StatementPrefixes[i];
      assert p[0] != 'i' || p[1] == 'f';
    }
  }

  /** Lower-case text with a `;`, no `class ` and no statement keyword in front is a member. */
  lemma MemberBySemicolon(t: String)
    requires Lowered(t) == t && !StartsWith(t, "@") && !LooksLikeStatement(t)
    requires Contains(t, ";") && !Contains(t, "class ")
    ensures LooksLikeMemberDeclaration(t)
  {
  }

  // ---------------------------------------------------------------------------
  // The choice, from the normalised texts

  /** A minimal normalisation that looks like a type is taken as it is. */
  lemma ChosenType(t: String, n: String)
    requires NormalizeSnippet(Some(t), false) == Some(n)
    requires LooksLikeTypeDeclaration(Trim(n))
    ensures SelectWrapCandidate(Some(t)) == Some(WrapCandidate(Trim(n), MinType))
  {
    SelectUsesBoth(t);
    ChoosePriority(n, NormalizeSnippet(Some(t), true).value);
  }

  /** Neither normalisation a type, the minimal one a statement: wrapped in the method. */
  lemma ChosenStatement(t: String, n: String, n': String)
    requires NormalizeSnippet(Some(t), false) == Some(n) && NormalizeSnippet(Some(t), true) == Some(n')
    requires !LooksLikeTypeDeclaration(Trim(n)) && !LooksLikeTypeDeclaration(Trim(n'))
    requires LooksLikeStatement(Trim(n))
    ensures SelectWrapCandidate(Some(t)) == Some(WrapCandidate(WrapAsStatement(n), MinStatement))
  {
    SelectUsesBoth(t);
    ChoosePriority(n, n');
  }

  /** Neither normalisation a type, the minimal one a member: wrapped in the class. */
  lemma ChosenMember(t: String, n: String, n': String)
    requires NormalizeSnippet(Some(t), false) == Some(n) && NormalizeSnippet(Some(t), true) == Some(n')
    requires !LooksLikeTypeDeclaration(Trim(n)) && !LooksLikeTypeDeclaration(Trim(n'))
    requires LooksLikeMemberDeclaration(Trim(n))
    ensures SelectWrapCandidate(Some(t)) == Some(WrapCandidate(WrapAsMember(n), MinMember))
  {
    SelectUsesBoth(t);
    ChoosePriority(n, n');
  }

  // ---------------------------------------------------------------------------
  // A class declaration

  lemma TypeOpenBrackets(t: String)
    requires t == "public class Foo { int x; }"
    ensures OpenSpaced(t, '(') && OpenSpaced(t, '{')
  {
    OpenSpacedAbsent(t, '(');
    OpenSpacedOnce(t, "public class Foo ", " int x; }", '{');
  }

  lemma TypeCloseBrackets(t: String)
    requires t == "public class Foo { int x; }"
    ensures CloseSpaced(t, ')') && CloseSpaced(t, '}')
  {
    CloseSpacedAbsent(t, ')');
    CloseSpacedOnce(t, "public class Foo { int x; ", [], '}');
  }

  lemma TypeBlanks()
    ensures NoBlankRun("public class Foo { int x;")
  {
  }

  /** What the passes need to know of `public class Foo { int x; }`. */
  lemma TypeShape(t: String, a: String)
    requires t == "public class Foo { int x; }" && a == "public class Foo { int x"
    ensures t == a + "; }" && '"' !in t && '\'' !in t
    ensures OpenSpaced(t, '(') && CloseSpaced(t, ')') && OpenSpaced(t, '{') && CloseSpaced(t, '}')
    ensures t[0] != '(' && t[0] != '{'
    ensures ';' !in a && a != [] && !IsSpace(a[|a| - 1]) && NoBlankRun(a + ";")
  {
    TypeOpenBrackets(t);
    TypeCloseBrackets(t);
    TypeBlanks();
    assert a + ";" == "public class Foo { int x;";
  }

  /** The minimal passes leave the class declaration as it is. */
  lemma TypeNormalized(t: String)
    requires t == "public class Foo { int x; }"
    ensures NormalizeSnippet(Some(t), false) == Some(t)
  {
    var a := "public class Foo { int x";
    TypeShape(t, a);
    MinimalSteady(t, a);
  }

  lemma PublicModifier(m: String)
    requires m == "public "
    ensures Classify.Modifiers(m)
  {
    assert m[..7] == m && m[7..] == [];
    assert ModifierThen(m, TypeModifiers[0]);
  }

  lemma ClassLine(w: String)
    requires w == "class Foo { int x; }"
    ensures KeywordLine(w)
  {
    assert KeywordThen(w, TypeKeywords[0]);
  }

  /** `public class Foo { int x; }` matches the type pattern: no annotation, the modifier `public`, then `class`. */
  lemma TypeHeaderExample(t: String)
    requires t == "public class Foo { int x; }"
    ensures TypeHeader(t)
  {
    assert t[..0] == [] && t[0..7] == "public " && t[7..] == "class Foo { int x; }";
    PublicModifier(t[0..7]);
    ClassLine(t[7..]);
    assert Annotations(t[..0]) && Classify.Modifiers(t[0..7]) && KeywordLine(t[7..]);
  }

  lemma TypeLooks(t: String)
    requires t == "public class Foo { int x; }"
    ensures Trim(t) == t
    ensures LooksLikeTypeDeclaration(t)
  {
    TrimOfTrimmed(t);
    StripNoComment(t);
    TypeHeaderExample(t);
  }

  /** `public class Foo { int x; }` is taken as it is, under `min-type`. */
  lemma TypeExample(t: String)
    requires t == "public class Foo { int x; }"
    ensures SelectWrapCandidate(Some(t)) == Some(WrapCandidate(t, MinType))
  {
    TypeNormalized(t);
    TypeLooks(t);
    ChosenType(t, t);
  }

  // ---------------------------------------------------------------------------
  // A statement

  lemma StatementParen(t: String)
    requires t == "if (x > 0) { return x; }"
    ensures OpenSpaced(t, '(')
  {
    OpenSpacedOnce(t, "if ", "x > 0) { return x; }", '(');
  }

  lemma StatementBrace(t: String)
    requires t == "if (x > 0) { return x; }"
    ensures OpenSpaced(t, '{')
  {
    OpenSpacedOnce(t, "if (x > 0) ", " return x; }", '{');
  }

  lemma StatementCloseParen(t: String)
    requires t == "if (x > 0) { return x; }"
    ensures CloseSpaced(t, ')')
  {
    CloseSpacedOnce(t, "if (x > 0", " { return x; }", ')');
  }

  lemma StatementCloseBrace(t: String)
    requires t == "if (x > 0) { return x; }"
    ensures CloseSpaced(t, '}')
  {
    CloseSpacedOnce(t, "if (x > 0) { return x; ", [], '}');
  }

  // Each character fact of the literal is a lemma of its own: together, or next to the pass terms
  // they feed, they make the solver evaluate the literal many times over.

  lemma StatementQuotes(t: String)
    requires t == "if (x > 0) { return x; }"
    ensures '"' !in t && '\'' !in t
  {
  }

  lemma StatementLetters(t: String)
    requires t == "if (x > 0) { return x; }"
    ensures 'p' !in t && 's' !in t && 'a' !in t
  {
  }

  lemma StatementNoUpper(t: String)
    requires t == "if (x > 0) { return x; }"
    ensures NoUpper(t)
  {
  }

  lemma StatementBlanks()
    ensures NoBlankRun("if (x > 0) { return x;")
  {
  }

  /** What the passes need to know of `if (x > 0) { return x; }`. */
  lemma StatementShape(t: String, a: String)
    requires t == "if (x > 0) { return x; }" && a == "if (x > 0) { return x"
    ensures t == a + "; }" && '"' !in t && '\'' !in t
    ensures 'p' !in t && 's' !in t && 'a' !in t
    ensures OpenSpaced(t, '(') && CloseSpaced(t, ')') && OpenSpaced(t, '{') && CloseSpaced(t, '}')
    ensures t[0] != '(' && t[0] != '{'
    ensures ';' !in a && a != [] && !IsSpace(a[|a| - 1]) && NoBlankRun(a + ";")
  {
    StatementParen(t);
    StatementBrace(t);
    StatementCloseParen(t);
    StatementCloseBrace(t);
    StatementQuotes(t);
    StatementLetters(t);
    StatementBlanks();
    assert a + ";" == "if (x > 0) { return x;";
  }

  /** Both modes leave the statement as it is. */
  lemma StatementNormalized(t: String)
    requires t == "if (x > 0) { return x; }"
    ensures NormalizeSnippet(Some(t), false) == Some(t)
    ensures NormalizeSnippet(Some(t), true) == Some(t)
  {
    var a := "if (x > 0) { return x";
    StatementShape(t, a);
    MinimalSteady(t, a);
    AggressiveSteady(t, a);
  }

  lemma StatementLooks(t: String)
    requires t == "if (x > 0) { return x; }"
    ensures Trim(t) == t
    ensures !LooksLikeTypeDeclaration(t)
    ensures LooksLikeStatement(t)
  {
    StatementNoUpper(t);
    TrimOfTrimmed(t);
    NotTypeDeclaration(t);
    LoweredPlain(t);
    assert StartsWith(t, StatementPrefixes[0]);
  }

  /** `if (x > 0) { return x; }` is wrapped in `snippetMethod`, under `min-statement`. */
  lemma StatementExample(t: String)
    requires t == "if (x > 0) { return x; }"
    ensures SelectWrapCandidate(Some(t)) == Some(WrapCandidate(WrapAsStatement(t), MinStatement))
  {
    StatementNormalized(t);
    StatementLooks(t);
    ChosenStatement(t, t, t);
  }

  // ---------------------------------------------------------------------------
  // A field declaration

  lemma MemberBrackets(t: String)
    requires t == "int x = 5;"
    ensures OpenSpaced(t, '(') && CloseSpaced(t, ')') && OpenSpaced(t, '{') && CloseSpaced(t, '}')
  {
    OpenSpacedAbsent(t, '(');
    CloseSpacedAbsent(t, ')');
    OpenSpacedAbsent(t, '{');
    CloseSpacedAbsent(t, '}');
  }

  /** The character facts of `int x = 5;`, kept apart from the pass terms they feed. */
  lemma MemberText(t: String)
    requires t == "int x = 5;"
    ensures NoUpper(t)
    ensures NoBlankRun(t + " ")
  {
    assert t + " " == "int x = 5; ";
  }

  /** What the passes need to know of `int x = 5;`. */
  lemma MemberShape(t: String, a: String)
    requires t == "int x = 5;" && a == "int x = 5"
    ensures t == a + ";" && '"' !in t && '\'' !in t
    ensures 'p' !in t && 's' !in t && 'a' !in t
    ensures OpenSpaced(t, '(') && CloseSpaced(t, ')') && OpenSpaced(t, '{') && CloseSpaced(t, '}')
    ensures t[0] != '(' && t[0] != '{' && t[|t| - 1] != ')' && t[|t| - 1] != '}'
    ensures ';' !in a && a != [] && !IsSpace(a[|a| - 1]) && NoBlankRun(t + " ")
  {
    MemberBrackets(t);
    MemberText(t);
  }

  /** Both modes add one space after the semicolon. */
  lemma MemberNormalized(t: String)
    requires t == "int x = 5;"
    ensures NormalizeSnippet(Some(t), false) == Some(t + " ")
    ensures NormalizeSnippet(Some(t), true) == Some(t + " ")
  {
    var a := "int x = 5";
    MemberShape(t, a);
    EndSteady(t, a);
  }

  lemma MemberNotType(t: String)
    requires t == "int x = 5;"
    ensures !LooksLikeTypeDeclaration(t)
  {
    MemberText(t);
    assert !StartsWith(t, "interface") by {
      assert t[..9][3] == ' ';
    }
    NotTypeDeclaration(t);
  }

  lemma MemberLowered(t: String)
    requires t == "int x = 5;"
    ensures Lowered(t) == t
  {
    MemberText(t);
    LoweredPlain(t);
  }

  lemma MemberSemicolon(t: String)
    requires t == "int x = 5;"
    ensures Contains(t, ";") && !Contains(t, "class ")
  {
    assert MatchAt(t, ";", 9);
    ContainsFirst(t, "class ");
  }

  lemma MemberNotStatement(t: String)
    requires t == "int x = 5;"
    ensures !LooksLikeStatement(t)
  {
    MemberLowered(t);
    NotStatement(t);
  }

  /** `int x = 5;` is a member by its semicolon. */
  lemma MemberIsMember(t: String)
    requires t == "int x = 5;"
    ensures LooksLikeMemberDeclaration(t)
  {
    MemberLowered(t);
    NotStatement(t);
    MemberSemicolon(t);
    MemberBySemicolon(t);
  }

  /** `int x = 5;` is wrapped in class `Snippet`, under `min-member`, with no method around it. */
  lemma MemberExample(t: String)
    requires t == "int x = 5;"
    ensures SelectWrapCandidate(Some(t)) == Some(WrapCandidate(WrapAsMember(t + " "), MinMember))
  {
    MemberNormalized(t);
    TrimTrailingSpace(t);
    MemberNotType(t);
    MemberIsMember(t);
    ChosenMember(t, t + " ", t + " ");
  }
}

=== FILE: wrap.dfy ===
/**
  Wrapping a normalised snippet into a compilable class: `wrapAsMember`,
  `wrapAsStatement` with `indentSnippet`, the candidate choice of
  `selectWrapCandidate` and `buildWrapCandidates`, and the header comment.
 */
module Wrap {
  import opened Wrappers
  import opened Text
  import opened Normalize
  import opened Classify

  // ---------------------------------------------------------------------------
  // Lines

  /** One trailing `\r` removed, as the optional `\r` of `\r?\n` takes it. */
  function DropCr(p: String): (r: String)
    ensures r == p || (|p| > 0 && p[|p| - 1] == '\r' && r == p[..|p| - 1])
  {
    if |p| > 0 && p[|p| - 1] == '\r' then p[..|p| - 1] else p
  }

  /** The text cut at every `\r?\n`, empty pieces included. */
  function Pieces(s: String): (ps: seq<String>)
    ensures |ps| >= 1
    decreases |s|
  {
    var n := IndexOf(s, "\n");
    if n < 0 then [s] else [DropCr(s[..n])] + Pieces(s[n + 1..])
  }

  function DropTrailingEmpty(ps: seq<String>): (r: seq<String>)
    ensures |r| <= |ps| && r == ps[..|r|]
    ensures r == [] || r[|r| - 1] != []
    ensures forall k | |r| <= k < |ps| :: ps[k] == []
  {
    if ps != [] && ps[|ps| - 1] == [] then DropTrailingEmpty(ps[..|ps| - 1]) else ps
  }

  /**
    `s.split("\\r?\\n")`: the pieces with trailing empty ones dropped, except
    that text with no line break at all, the empty text included, is its own
    single piece.
   */
  function SplitLines(s: String): seq<String> {
    if !Contains(s, "\n") then [s] else DropTrailingEmpty(Pieces(s))
  }

  /** The lines joined with `sep` between consecutive ones. */
  function Join(ls: seq<String>, sep: String): String
    decreases |ls|
  {
    if ls == [] then []
    else if |ls| == 1 then ls[0]
    else ls[0] + sep + Join(ls[1..], sep)
  }

  /** Each line with `indent` in front of it. */
  function Prefixed(ls: seq<String>, indent: String): (r: seq<String>)
    ensures |r| == |ls| && forall i | 0 <= i < |ls| :: r[i] == indent + ls[i]
  {
    seq(|ls|, i requires 0 <= i < |ls| => indent + ls[i])
  }

  /** `indentSnippet(snippet, indent)`. */
  function IndentSnippet(snippet: String, indent: String): String {
    Join(Prefixed(SplitLines(snippet), indent), "\n")
  }

  /** A suffix of text without `q` has no `q` either. */
  lemma NoMatchInSuffix(s: String, q: String, k: nat)
    requires k <= |s| && !Contains(s, q)
    ensures !Contains(s[k..], q)
  {
    forall i | 0 <= i <= |s[k..]| ensures !MatchAt(s[k..], q, i) {
      if MatchAt(s[k..], q, i) {
        assert s[k..][i..i + |q|] == s[k + i..k + i + |q|];
        assert MatchAt(s, q, k + i);
      }
    }
  }

  /** Where the first line break sits. */
  lemma FirstBreak(s: String)
    requires Contains(s, "\n")
    ensures var n := IndexOf(s, "\n");
      && 0 <= n < |s| && s[n] == '\n'
      && s == s[..n] + ("\n" + s[n + 1..])
  {
    var n := IndexOf(s, "\n");
    assert s[n..n + 1] == "\n";
  }

  /** One step of `Pieces` when no `\r` precedes the first break. */
  lemma PiecesStep(s: String)
    requires Contains(s, "\n") && !Contains(s, "\r\n")
    ensures var n := IndexOf(s, "\n");
      && 0 <= n < |s|
      && Pieces(s) == [s[..n]] + Pieces(s[n + 1..])
      && !Contains(s[n + 1..], "\r\n")
  {
    var n := IndexOf(s, "\n");
    FirstBreak(s);
    if n > 0 && s[n - 1] == '\r' {
      assert s[n - 1..n + 1] == "\r\n";
      assert MatchAt(s, "\r\n", n - 1);
    }
    assert DropCr(s[..n]) == s[..n];
    NoMatchInSuffix(s, "\r\n", n + 1);
  }

  /** Joining the pieces with `\n` gives the text back when no `\r` stands before a `\n`. */
  lemma {:induction false} JoinPieces(s: String)
    requires !Contains(s, "\r\n")
    ensures Join(Pieces(s), "\n") == s
    decreases |s|
  {
    if Contains(s, "\n") {
      PiecesStep(s);
      FirstBreak(s);
      var n := IndexOf(s, "\n");
      var p, rest := s[..n], s[n + 1..];
      JoinPieces(rest);
      JoinCons(p, Pieces(rest), "\n");
      assert Pieces(s) == [p] + Pieces(rest);
      assert p + "\n" + rest == s;
    }
  }

  lemma JoinCons(l: String, ls: seq<String>, sep: String)
    requires ls != []
    ensures Join([l] + ls, sep) == l + sep + Join(ls, sep)
  {
    assert ([l] + ls)[1..] == ls;
  }

  /** Indenting every piece is inserting the indent at the start and after every `\n`. */
  lemma {:induction false} IndentPieces(s: String, indent: String)
    requires !Contains(s, "\r\n")
    ensures Join(Prefixed(Pieces(s), indent), "\n") == indent + ReplaceAll(s, "\n", "\n" + indent)
    decreases |s|
  {
    var r := "\n" + indent;
    if Contains(s, "\n") {
      PiecesStep(s);
      var n := IndexOf(s, "\n");
      var p, rest := s[..n], s[n + 1..];
      IndentPieces(rest, indent);
      var ls := Prefixed(Pieces(s), indent);
      assert Pieces(s) == [p] + Pieces(rest);
      assert ls[1..] == Prefixed(Pieces(rest), indent);
      assert Join(ls, "\n") == ls[0] + "\n" + Join(ls[1..], "\n");
      ReplaceFirstBreak(s, r);
      IndentRegroup(indent, p, ReplaceAll(rest, "\n", r));
    } else {
      ReplaceNone(s, "\n", r);
    }
  }

  lemma ReplaceFirstBreak(s: String, r: String)
    requires Contains(s, "\n")
    ensures var n := IndexOf(s, "\n");
      0 <= n < |s| && ReplaceAll(s, "\n", r) == s[..n] + (r + ReplaceAll(s[n + 1..], "\n", r))
  {
    FirstBreak(s);
    var n := IndexOf(s, "\n");
    ReplaceSkip(s[..n], "\n" + s[n + 1..], "\n", r);
    ReplaceHead(s[n + 1..], "\n", r);
  }

  lemma IndentRegroup(indent: String, p: String, x: String)
    ensures (indent + p) + "\n" + (indent + x) == indent + (p + (("\n" + indent) + x))
  {
  }

  /** Text that does not end with a line break has a non-empty last piece. */
  lemma {:induction false} LastPieceNonEmpty(s: String)
    requires s != [] && s[|s| - 1] != '\n'
    ensures Pieces(s)[|Pieces(s)| - 1] != []
    decreases |s|
  {
    var n := IndexOf(s, "\n");
    if n >= 0 {
      var rest := s[n + 1..];
      assert s[n] == '\n';
      assert rest != [] && rest[|rest| - 1] == s[|s| - 1];
      LastPieceNonEmpty(rest);
    }
  }

  /** Without a trailing line break, `split` drops nothing. */
  lemma SplitIsPieces(s: String)
    requires s == [] || s[|s| - 1] != '\n'
    ensures SplitLines(s) == Pieces(s)
  {
    if Contains(s, "\n") {
      LastPieceNonEmpty(s);
    }
  }

  /** Splitting and joining with `\n` is the identity on text with no `\r\n` and no trailing break. */
  lemma SplitJoin(s: String)
    requires !Contains(s, "\r\n") && (s == [] || s[|s| - 1] != '\n')
    ensures Join(SplitLines(s), "\n") == s
  {
    SplitIsPieces(s);
    JoinPieces(s);
  }

  /** `indentSnippet` puts the indent at the start and after every line break. */
  lemma IndentIsReplace(s: String, indent: String)
    requires !Contains(s, "\r\n") && (s == [] || s[|s| - 1] != '\n')
    ensures IndentSnippet(s, indent) == indent + ReplaceAll(s, "\n", "\n" + indent)
  {
    SplitIsPieces(s);
    IndentPieces(s, indent);
  }

  /** A lone line break splits into no lines at all, so it indents to nothing. */
  lemma IndentLoneBreak(indent: String)
    ensures IndentSnippet("\n", indent) == []
  {
    var s := "\n";
    assert MatchAt(s, "\n", 0);
    assert IndexOf(s, "\n") == 0;
    assert s[1..] == [];
    assert !Contains(s[1..], "\n");
    assert Pieces(s) == [[], []];
  }

  // ---------------------------------------------------------------------------
  // Wrappers

  const ClassOpen: String := "public class Snippet {\n"
  const MethodOpen: String := "public class Snippet {\n  void snippetMethod() {\n"
  const EmptyClass: String := "public class Snippet {}"

  /** `wrapAsMember(snippet)`: the snippet as the body of class `Snippet`. */
  function WrapAsMember(snippet: String): (r: String)
    ensures |r| == |ClassOpen| + |snippet| + 3
    ensures StartsWith(r, ClassOpen) && EndsWith(r, "\n}\n")
    ensures r[|ClassOpen|..|r| - 3] == snippet
  {
    ClassOpen + snippet + "\n}\n"
  }

  /** `wrapAsStatement(snippet)`: the snippet, indented, as the body of `snippetMethod`. */
  function WrapAsStatement(snippet: String): (r: String)
    ensures |r| == |MethodOpen| + |IndentSnippet(snippet, "    ")| + 7
    ensures StartsWith(r, MethodOpen) && EndsWith(r, "\n  }\n}\n")
    ensures r[|MethodOpen|..|r| - 7] == IndentSnippet(snippet, "    ")
  {
    MethodOpen + IndentSnippet(snippet, "    ") + "\n  }\n}\n"
  }

  // ---------------------------------------------------------------------------
  // Candidates

  /** The label a candidate carries. */
  datatype Tag =
    | MinEmpty | MinType | AggType | MinStatement | MinMember | AggStatement | AggMember | MinDefault
    | Empty | Type | Statement | Member
  {
    /** The label as the source spells it. */
    function Name(): String {
      match this
      case MinEmpty => "min-empty"
      case MinType => "min-type"
      case AggType => "agg-type"
      case MinStatement => "min-statement"
      case MinMember => "min-member"
      case AggStatement => "agg-statement"
      case AggMember => "agg-member"
      case MinDefault => "min-default"
      case Empty => "empty"
      case Type => "type"
      case Statement => "statement"
      case Member => "member"
    }
  }

  datatype WrapCandidate = WrapCandidate(source: String, tag: Tag)

  /**
    `selectWrapCandidate(snippet)`: normalise both ways and take the first
    test that passes, from type declaration to member, minimal before
    aggressive; `None` would be `null`, which is never returned.
   */
  function SelectWrapCandidate(snippet: Option<String>): (r: Option<WrapCandidate>)
    ensures r.Some?
    ensures r.value.tag == MinEmpty <==> snippet.None?
  {
    ChooseFrom(NormalizeSnippet(snippet, false), NormalizeSnippet(snippet, true))
  }

  /** The choice, given the minimal and the aggressive normalisation. */
  function ChooseFrom(minimal: Option<String>, aggressive: Option<String>): (r: Option<WrapCandidate>)
    ensures r.Some?
    ensures r.value.tag == MinEmpty <==> minimal.None?
    ensures r.value.tag == MinEmpty ==> r.value.source == EmptyClass
    ensures r.value.tag in {MinType, AggType} ==>
      Trimmed(r.value.source) && LooksLikeTypeDeclaration(r.value.source)
    ensures r.value.tag in {MinStatement, AggStatement, MinDefault} ==> StartsWith(r.value.source, MethodOpen)
    ensures r.value.tag in {MinMember, AggMember} ==>
      StartsWith(r.value.source, ClassOpen) && EndsWith(r.value.source, "\n}\n")
    ensures r.value.tag !in {Empty, Type, Statement, Member}
    ensures r.value.tag == MinType ==> r.value.source == Trim(minimal.value)
    ensures r.value.tag == AggType ==> aggressive.Some? && r.value.source == Trim(aggressive.value)
    ensures r.value.tag in {MinStatement, MinDefault} ==> r.value.source == WrapAsStatement(minimal.value)
    ensures r.value.tag == MinMember ==> r.value.source == WrapAsMember(minimal.value)
    ensures r.value.tag == AggStatement ==> aggressive.Some? && r.value.source == WrapAsStatement(aggressive.value)
    ensures r.value.tag == AggMember ==> aggressive.Some? && r.value.source == WrapAsMember(aggressive.value)
  {
    if minimal.None? then Some(WrapCandidate(EmptyClass, MinEmpty))
    else
      var lm := LooksOf(Trim(minimal.value));
      var la := if aggressive.Some? then LooksOf(Trim(aggressive.value)) else Looks(false, false, false);
      Some(Pick(minimal.value, aggressive, lm, la))
  }

  /** The three tests `selectWrapCandidate` applies to a trimmed text. */
  datatype Looks = Looks(isType: bool, isStatement: bool, isMember: bool)

  function LooksOf(t: String): Looks {
    Looks(LooksLikeTypeDeclaration(t), LooksLikeStatement(t), LooksLikeMemberDeclaration(t))
  }

  /**
    The chain of tests of `selectWrapCandidate` on their outcomes: the
    minimal text's, and the aggressive text's, all failing when it is absent.
   */
  function Pick(minimal: String, aggressive: Option<String>, lm: Looks, la: Looks): (r: WrapCandidate)
    requires aggressive.None? ==> la == Looks(false, false, false)
    ensures r.tag !in {MinEmpty, Empty, Type, Statement, Member}
    ensures r.tag == MinType <==> lm.isType
    ensures r.tag == AggType <==> !lm.isType && la.isType
    ensures r.tag == MinStatement <==> !lm.isType && !la.isType && lm.isStatement
    ensures r.tag == MinMember <==> !lm.isType && !la.isType && !lm.isStatement && lm.isMember
    ensures r.tag == AggStatement <==>
      !lm.isType && !la.isType && !lm.isStatement && !lm.isMember && la.isStatement
    ensures r.tag == AggMember <==>
      !lm.isType && !la.isType && !lm.isStatement && !lm.isMember && !la.isStatement && la.isMember
    ensures r.tag == MinType ==> r.source == Trim(minimal)
    ensures r.tag == AggType ==> aggressive.Some? && r.source == Trim(aggressive.value)
    ensures r.tag in {MinStatement, MinDefault} ==> r.source == WrapAsStatement(minimal)
    ensures r.tag == MinMember ==> r.source == WrapAsMember(minimal)
    ensures r.tag == AggStatement ==> aggressive.Some? && r.source == WrapAsStatement(aggressive.value)
    ensures r.tag == AggMember ==> aggressive.Some? && r.source == WrapAsMember(aggressive.value)
  {
    if lm.isType then WrapCandidate(Trim(minimal), MinType)
    else if la.isType then WrapCandidate(Trim(aggressive.value), AggType)
    else if lm.isStatement then WrapCandidate(WrapAsStatement(minimal), MinStatement)
    else if lm.isMember then WrapCandidate(WrapAsMember(minimal), MinMember)
    else if la.isStatement then WrapCandidate(WrapAsStatement(aggressive.value), AggStatement)
    else if la.isMember then WrapCandidate(WrapAsMember(aggressive.value), AggMember)
    else WrapCandidate(WrapAsStatement(minimal), MinDefault)
  }

  /**
    `buildWrapCandidates(snippet)`: the minimal normalisation only; a type
    declaration gets one candidate, anything else both wrappings, the likelier
    one first.
   */
  function BuildWrapCandidates(snippet: Option<String>): (r: seq<WrapCandidate>)
    ensures 1 <= |r| <= 2
    ensures |r| == 1 <==>
      snippet.None? || LooksLikeTypeDeclaration(Trim(NormalizeSnippet(snippet, false).value))
    ensures |r| == 2 ==> r[0].tag != r[1].tag
  {
    CandidatesFor(NormalizeSnippet(snippet, false))
  }

  /** The candidates for an already normalised snippet. */
  function CandidatesFor(normalized: Option<String>): (r: seq<WrapCandidate>)
    ensures 1 <= |r| <= 2
    ensures |r| == 1 <==> normalized.None? || LooksLikeTypeDeclaration(Trim(normalized.value))
    ensures |r| == 2 ==> r[0].tag != r[1].tag
    ensures forall i | 0 <= i < |r| ::
      || r[i].tag == Empty || r[i].tag == Type
      || (normalized.Some? && Wrapped(r[i], normalized.value))
  {
    if normalized.None? then [WrapCandidate(EmptyClass, Empty)]
    else
      var n := normalized.value;
      var isType := LooksLikeTypeDeclaration(Trim(n));
      Candidates(n, isType, MemberFirst(Trim(n)))
  }

  /** A type declaration is its own single candidate; other text gets both wrappings. */
  function Candidates(n: String, isType: bool, memberFirst: bool): (r: seq<WrapCandidate>)
    ensures |r| == 1 <==> isType
    ensures 1 <= |r| <= 2
    ensures |r| == 2 ==> r[0].tag != r[1].tag
    ensures forall i | 0 <= i < |r| :: r[i].tag == Type || Wrapped(r[i], n)
  {
    if isType then [WrapCandidate(Trim(n), Type)]
    else BothWraps(n, memberFirst)
  }

  /** The member wrapping goes first when the statement test fails and the member test passes. */
  function MemberFirst(trimmed: String): (r: bool)
    ensures r <==> !LooksLikeStatement(trimmed) && LooksLikeMemberDeclaration(trimmed)
  {
    if LooksLikeStatement(trimmed) then false
    else if LooksLikeMemberDeclaration(trimmed) then true
    else false
  }

  /** `c` is `n` wrapped the way its tag says. */
  predicate Wrapped(c: WrapCandidate, n: String) {
    || (c.tag == Statement && c.source == WrapAsStatement(n))
    || (c.tag == Member && c.source == WrapAsMember(n))
  }

  /** The statement and the member wrapping of `n`, in the order asked for. */
  function BothWraps(n: String, memberFirst: bool): (r: seq<WrapCandidate>)
    ensures |r| == 2 && r[0].tag != r[1].tag
    ensures Wrapped(r[0], n) && Wrapped(r[1], n)
    ensures r[0].tag == if memberFirst then Member else Statement
  {
    var st := WrapCandidate(WrapAsStatement(n), Statement);
    var mb := WrapCandidate(WrapAsMember(n), Member);
    if memberFirst then [mb, st] else [st, mb]
  }

  /** `addHeaderComment(header, source)`: a `// header` line on top unless the header is null or empty. */
  function AddHeaderComment(header: Option<String>, source: String): (r: String)
    ensures EndsWith(r, source)
    ensures r == source <==> header.None? || header.value == []
    ensures r != source ==> StartsWith(r, "// " + header.value + "\n")
    ensures r != source ==> |r| == |header.value| + 4 + |source|
  {
    if header.None? || header.value == [] then source
    else "// " + header.value + "\n" + source
  }

  /** `buildJavaSource(snippet, header)`. */
  function BuildJavaSource(snippet: Option<String>, header: Option<String>): (r: String)
    ensures EndsWith(r, SelectWrapCandidate(snippet).value.source)
  {
    var chosen := SelectWrapCandidate(snippet);
    var source := if chosen.Some? then chosen.value.source else EmptyClass;
    AddHeaderComment(header, source)
  }

  /**
    The priority order of `selectWrapCandidate`: the tag names the first test
    that passes. A member test that passes means the statement test on the
    same text failed, so it needs no mention.
   */
  lemma ChoosePriority(x: String, y: String)
    ensures var m, a := Trim(x), Trim(y);
      var tag := ChooseFrom(Some(x), Some(y)).value.tag;
      var tm, ta := LooksLikeTypeDeclaration(m), LooksLikeTypeDeclaration(a);
      && (tag == MinType <==> tm)
      && (tag == AggType <==> !tm && ta)
      && (tag == MinStatement <==> !tm && !ta && LooksLikeStatement(m))
      && (tag == MinMember <==> !tm && !ta && LooksLikeMemberDeclaration(m))
      && (tag == AggStatement <==>
            !tm && !ta && !LooksLikeStatement(m) && !LooksLikeMemberDeclaration(m) && LooksLikeStatement(a))
      && (tag == AggMember <==>
            !tm && !ta && !LooksLikeStatement(m) && !LooksLikeMemberDeclaration(m) && LooksLikeMemberDeclaration(a))
      && (tag == MinDefault <==>
            !tm && !ta && !LooksLikeStatement(m) && !LooksLikeMemberDeclaration(m)
            && !LooksLikeStatement(a) && !LooksLikeMemberDeclaration(a))
  {
    if LooksLikeStatement(Trim(x)) {
      StatementNotMember(Trim(x));
    }
    if LooksLikeStatement(Trim(y)) {
      StatementNotMember(Trim(y));
    }
  }

  /** A present snippet has both normalisations, so the aggressive tests are always reached. */
  lemma SelectUsesBoth(s: String)
    ensures NormalizeSnippet(Some(s), false).Some? && NormalizeSnippet(Some(s), true).Some?
    ensures SelectWrapCandidate(Some(s))
      == ChooseFrom(Some(NormalizeSnippet(Some(s), false).value), Some(NormalizeSnippet(Some(s), true).value))
  {
  }

  /**
    What the selection takes from the minimal normalisation is the first
    candidate the builder offers: the same text, wrapped the same way.
   */
  predicate Agrees(c: WrapCandidate, b: seq<WrapCandidate>) {
    && |b| >= 1
    && (c.tag == MinEmpty <==> b == [WrapCandidate(EmptyClass, Empty)])
    && (c.tag == MinType ==> b == [WrapCandidate(c.source, Type)])
    && (c.tag == MinStatement || c.tag == MinDefault ==> b[0] == WrapCandidate(c.source, Statement))
    && (c.tag == MinMember ==> b[0] == WrapCandidate(c.source, Member))
  }

  /** Both choosers agree on the minimal normalisation; the two normalisations fail together. */
  lemma ChooseAgreesWithCandidates(minimal: Option<String>, aggressive: Option<String>)
    requires minimal.Some? <==> aggressive.Some?
    ensures Agrees(ChooseFrom(minimal, aggressive).value, CandidatesFor(minimal))
  {
    if minimal.Some? {
      var n := minimal.value;
      var m := Trim(n);
      ChoosePriority(n, aggressive.value);
      if LooksLikeTypeDeclaration(m) {
      } else if LooksLikeStatement(m) {
        StatementNotMember(m);
        CandidatesNotType(n, false);
      } else if LooksLikeMemberDeclaration(m) {
        CandidatesNotType(n, true);
      } else {
        CandidatesNotType(n, false);
      }
    }
  }

  /** Text that is no type declaration gets both wrappings, the member first exactly when it is a member and no statement. */
  lemma CandidatesNotType(n: String, memberFirst: bool)
    requires !LooksLikeTypeDeclaration(Trim(n))
    requires memberFirst <==> !LooksLikeStatement(Trim(n)) && LooksLikeMemberDeclaration(Trim(n))
    ensures CandidatesFor(Some(n)) == BothWraps(n, memberFirst)
  {
  }

  lemma SelectAgreesWithBuild(snippet: Option<String>)
    ensures Agrees(SelectWrapCandidate(snippet).value, BuildWrapCandidates(snippet))
  {
    ChooseAgreesWithCandidates(NormalizeSnippet(snippet, false), NormalizeSnippet(snippet, true));
  }
}
